=== FILE: README.md ===
# Mazda workshop-manual scraper: the table grid, links and navigation

This project models the sequential core of the scraper that turns the Mazda workshop
manual (a frame-based HTML site) into a MkDocs tree of Markdown files. It has two parts.

**The table converter (`mdconverter.py`).**
- `Grid` (module `Grids`, class `Grid`) is a rectangular grid of `Cell` records. It grows
  row by row and column by column whenever a position beyond it is read or written.
- `TableConverter` (module `Tables`, class `TableConverter`) keeps a `(row, col)` cursor and
  the grid of the table being converted. `_convert_cell` skips positions covered by a span
  from above, stores the owning cell and marks the rest of its span. `convert_tr` moves to
  the next row. `convert_table` renders the grid as a bordered text table, or flattens a
  one-cell nested table. `convert_a` moves a named anchor onto the next visible sibling.
- The rendered table is specified by functions on the grid: `Widths`, `Segment`, `Line`,
  `Separator`, `RowOutput` and `Render`. The methods are proved equal to them.

**The link, path and navigation logic of the scraper (`main.py`).**
- Module `Links` covers `WSMMarkdownConverter`:
  - `convert_a` normalises an `href` and walks up from the page's directory until the target
    lies below it. The loop is proved to give the shortest climb, and the link is proved to
    reach the target.
  - `convert_img` builds the `../…/images/<name>` path.
  - `convert` builds the breadcrumb header from the navigation tree.
- Module `Navigation` models the navigation tree as an ordered nested map:
  - `Leaf(location) | Group(entries)`;
  - the insertion of a page, with key renaming by trailing spaces;
  - the write-once `INDEX` of menu pages;
  - `listify_dict`.
- Module `Scraper` holds:
  - where articles and output files go;
  - `url_replace_leaf`;
  - the `download` path;
  - the scan of the service-menu script.
- Module `Crawler` models `WSMScraper` as a class with the article map, the navigation tree,
  the `seen` set and a FIFO queue of `markdownify` tasks with their retry counters.
  - `Markdownify` is one task.
  - `Work` drains the queue. It is proved to make at most as many attempts as the queue's
    total weight (retries + 1 per task).
- `Paths` is a model of `pathlib.PurePath` as far as the scraper uses it: parsing,
  `parent`, `name`, `suffix`, `joinpath`, `is_relative_to` and `relative_to`.
- `Text` holds the Python string operations the code calls: `strip`, `lstrip`, `split`,
  `join`, `replace`, `ljust`, `isdigit`/`int` and `*`.

Where the code and its documentation disagree, the model follows the code:
- `article_map` is assigned unconditionally (main.py:136).
- `spans_up` is marked in the owner's column only (mdconverter.py:151-152).
- Bottom borders never blank out for vertical spans (mdconverter.py:115-118).
- An ordinary page replaces a group that sits at its key (main.py:151-153).
- Menu titles are paired with `LeftMenuList` and truncated to the shorter list (main.py:270).

## Model

| member | source | states |
|---|---|---|
| Grids.Grid.constructor | mdconverter.py:34-35 | a new grid is one empty row |
| Grids.Grid.RowCount | mdconverter.py:45-47 | the number of rows, which is at least one |
| Grids.Grid.ColCount | mdconverter.py:41-43 | the length shared by every row |
| Grids.Grid.IsEmpty | mdconverter.py:37-39 | true exactly when every row is empty |
| Grids.Grid.AddColumn | mdconverter.py:49-51 | every row gains one blank cell at its end |
| Grids.Grid.AddRow | mdconverter.py:53-54 | one row of `col_count` blank cells is appended |
| Grids.Grid.AddRowsTo | mdconverter.py:57-58 | the first loop of `cell`/`set`: rows are added until row `r` exists, nothing else changes |
| Grids.Grid.AddColumnsTo | mdconverter.py:60-61 | the second loop: columns are added until column `c` exists |
| Grids.Grid.Reach | mdconverter.py:57-61 | the grid is grown to at least `r + 1` rows and `c + 1` columns and stays rectangular |
| Grids.Grid.CellAt | mdconverter.py:56-63 | `cell(r, c)` grows the grid and returns the stored cell, or a blank one for a new position; a position already present leaves the grid unchanged |
| Grids.Grid.Set | mdconverter.py:65-72 | `set` grows the grid, then replaces position `(r, c)` only |
| Grids.GrownCells | mdconverter.py:49-63 | growing keeps every old cell in place and fills every new position with a blank cell |
| Grids.GrownAt | mdconverter.py:56-63 | reading any position after growth gives what it gave before |
| Grids.GrownTwice | mdconverter.py:56-72 | growing twice is growing once to the larger size |
| Grids.AssignCells | mdconverter.py:72 | an assignment changes exactly the one position |
| Tables.SpanOfNumeral | mdconverter.py:137-140 | a span given as a decimal numeral is read as that number; a missing or non-numeric one counts as 1 |
| Tables.CellText | mdconverter.py:141 | the cell text starts and ends with one space around a stripped text with no newline; it is two characters exactly when the text is blank |
| Tables.SkipSpansUp | mdconverter.py:143-144 | the first column at or after the cursor not covered from above, with every column skipped covered |
| Tables.PlacementFacts | mdconverter.py:146-152 | position by position: the owner at the cursor, `spans_left` on the rest of its row span, `spans_up` below it in its own column only, every other cell kept, and the grid grown just enough |
| Tables.PlacementWellSized | mdconverter.py:141-146 | after a placement every cell's size is still the length of its text |
| Tables.PlacedLeftStep | mdconverter.py:148-149 | one turn of the `spans_left` loop marks the next column of the span |
| Tables.PlacedUpStep | mdconverter.py:151-152 | one turn of the `spans_up` loop marks the next row of the span |
| Tables.PlacedAfterGrowth | mdconverter.py:143-152 | placing into the grid the cursor probe grew is placing into the grid before the probe |
| Tables.TableConverter.constructor | mdconverter.py:75-79 | the cursor starts at (0, 0) with a fresh one-row grid |
| Tables.TableConverter.ResetTable | mdconverter.py:193-196 | the cursor is back at (0, 0) and the grid is a fresh one-row grid |
| Tables.TableConverter.ConvertCell | mdconverter.py:135-155 | `_convert_cell` returns the padded text, places the owner at the first uncovered column with its span marked, and moves the cursor on by `colspan` |
| Tables.TableConverter.SkipCoveredColumns | mdconverter.py:143-144 | the skip loop ends at the first uncovered column, and the grid has grown to reach it |
| Tables.TableConverter.PlaceSpan | mdconverter.py:146-152 | the `set` call and both marking loops give the placement of the owner |
| Tables.TableConverter.MarkColumns | mdconverter.py:148-149 | the first marking loop marks `spans_left` on columns `c+1 .. c+colspan-1` of the row |
| Tables.TableConverter.MarkRows | mdconverter.py:151-152 | the second marking loop marks `spans_up` on rows `r+1 .. r+rowspan-1` of column `c` |
| Tables.TableConverter.ConvertTr | mdconverter.py:163-166 | the row cursor goes up by one, the column cursor goes back to 0, and the result is `'\|' + text + '\n'` |
| Tables.TableText | mdconverter.py:82-89 | inside a table or with no column, the text is stripped of white space and outer `\|`; it is refused with `NotImplementedError` exactly when a `\|` remains; otherwise the grid is rendered |
| Tables.TableConverter.ConvertTable | mdconverter.py:81-133 | `convert_table` returns `TableText` of the grid; on success the converter is reset, and on the error it is left as it was |
| Tables.ColumnMaxIsMax | mdconverter.py:91-97 | a column's width is at least every cell size in it, and equals one of them unless it is 0 |
| Tables.TableConverter.ColumnSizes | mdconverter.py:91-97 | the first loop of `convert_table` computes every column's width and leaves the grid unchanged |
| Tables.TableConverter.ColumnSize | mdconverter.py:93-96 | the inner loop finds the largest cell size in the column |
| Tables.TableConverter.RenderRows | mdconverter.py:99-128 | the row loop prints, row after row, exactly the row outputs the rendering specifies |
| Tables.TableConverter.AppendRow | mdconverter.py:99-128 | printing one more row extends the output by that row's output |
| Tables.TableConverter.PrintRow | mdconverter.py:120-128 | a row prints the top border (row 0 only), the data line and its separator, each followed by a newline |
| Tables.TableConverter.RowText | mdconverter.py:100-122 | the three lines of a row are the specified data line, top border and bottom border |
| Tables.TableConverter.DrawColumns | mdconverter.py:105-118 | the column loop draws every column's segments into the three lines |
| Tables.TableConverter.AppendColumn | mdconverter.py:105-118 | one more column extends each line by that column's segment |
| Tables.TableConverter.ColumnText | mdconverter.py:106-118 | a column's segment: `\|` and the left-justified text for an owner, blanks for a spanned column, and the junction rule that looks at the row below |
| Tables.SegmentShape | mdconverter.py:106-118 | each segment is `width + 1` characters and starts with its junction character |
| Tables.LineLength | mdconverter.py:105-122 | a line drawn up to column `n` has the length of the widths before it, each plus one |
| Tables.LineJunction | mdconverter.py:107-118 | the character where each column starts is its junction: `\|` or blank in a data line, `+` or `-` in a border, `+` in the bottom border under a spanned column exactly when the next row exists and is not spanned there |
| Tables.BorderCharacters | mdconverter.py:108-118 | a border line is made of `+` and `-` only |
| Tables.EqualLineWidths | mdconverter.py:105-122 | the top border, the data line and the separator of every row have the same length, `sum(width + 1) + 1` |
| Tables.HeaderSeparator | mdconverter.py:124-126 | row 0's separator holds no `-` when there is more than one row, and no `=` when there is one |
| Tables.AnchorHost | mdconverter.py:173-184 | the first following sibling with visible text or an image, reached through truthy siblings only |
| Tables.AnchorHostNone | mdconverter.py:173-186 | when no host is found, every visible sibling lies after a falsy one |
| Tables.TableConverter.FindHost | mdconverter.py:173-184 | the sibling loop finds exactly `AnchorHost` |
| Tables.NameAnchorIgnoresText | mdconverter.py:170-189 | a named anchor's result ignores its text: `{: #name}` with no truthy next sibling, a move into the host sibling, or an `id` marker when there is none |
| Tables.TableConverter.ConvertAnchor | mdconverter.py:168-191 | `convert_a` delegates a link, places a named anchor as `TableAnchor` states, and raises `NotImplementedError` for a bare anchor |
| Navigation.PutFind | main.py:145-153 | after storing `v` under `k`, looking up `k` gives `v` and every other key is unchanged |
| Navigation.PutPut | main.py:145-153 | storing twice under one key keeps the second value |
| Navigation.Walk | main.py:141-147 | the breadcrumb walk creates missing groups, and fails only with `TypeError` when it meets a string |
| Navigation.WalkReaches | main.py:141-147 | after the walk the whole path exists through groups, and an existing node keeps its place |
| Navigation.WalkExisting | main.py:141-147 | walking a path that already exists through groups changes nothing |
| Navigation.WalkKeepsLeaves | main.py:141-147 | the walk never changes a stored location |
| Navigation.FreeKey | main.py:151-152 | the key is the breadcrumb followed by spaces, and is not held by a different location |
| Navigation.FreeKeySkips | main.py:151-152 | every shorter key the loop passes is held by a different location |
| Navigation.InsertPage | main.py:141-156 | the navigation part of `markdownify` fails only with `TypeError` |
| Navigation.OrdinaryStored | main.py:148-153 | an ordinary page's location is stored under its renamed key |
| Navigation.OrdinaryKeepsOthers | main.py:150-153 | a different location already stored under a sibling key is never overwritten |
| Navigation.MenuIndexWriteOnce | main.py:154-156 | a menu page leaves an existing `INDEX` alone |
| Navigation.MenuIndexSet | main.py:154-156 | a menu page sets `INDEX` to its location when its group has none, unless a string stands where the group should be |
| Navigation.OrdinaryIdempotent | main.py:141-153 | inserting the same ordinary page again changes nothing |
| Navigation.MenuIdempotent | main.py:141-156 | inserting the same menu page again changes nothing |
| Navigation.InsertIdempotent | main.py:141-156 | a retried page leaves the tree as its first attempt did |
| Navigation.Listify | main.py:27-51 | one entry per key, in order; a group becomes a list and a location stays a value |
| Navigation.ListifyFaithful | main.py:27-51 | with the identity retitling, the list gives back the tree |
| Links.Trimmed | main.py:71 | the href with its leading `.` and then `/` characters removed, a suffix of it not starting with `/` |
| Links.TrimmedRemoves | main.py:71 | only `.` and `/` characters are removed |
| Links.HrefWithFragment | main.py:72-73 | the key is the part before the first `#` with `.html` replaced by `.md`; the fragment is `#` and the part after it, whatever follows a second `#` |
| Links.HrefWithoutFragment | main.py:72-73 | without `#` the fragment is empty and the key is the whole trimmed href |
| Links.ClimbsExact | main.py:76-78 | the target lies below the `n`-th ancestor of the directory exactly when `n` is at least the climb count |
| Links.RelativeHref | main.py:74-80 | the climbing loop builds exactly `LinkHref`: one `../` per climb, then the target relative to the ancestor reached, then the fragment |
| Links.LinkParts | main.py:74-80 | the link's components are `..` once per climb, then the target's components below the common prefix |
| Links.LinkReaches | main.py:74-80 | following the link from the page's directory arrives at the target |
| Links.LinkShortest | main.py:76-78 | any smaller number of climbs leaves the target outside |
| Links.WalkNeverEnds | main.py:76-78 | when the target and the directory are not anchored alike, no number of climbs reaches the target, so the loop does not end |
| Links.ImageAttrs | main.py:93-96 | only `src` is rewritten, and only when it is non-empty |
| Links.ImageReaches | main.py:96 | from a relative page directory the image path leads to `images/<name>` |
| Links.Step | main.py:105 | `leaf[part]` succeeds exactly when the group holds `part` |
| Links.TargetOf | main.py:107-112 | a string links to itself; a group without `INDEX` raises `UnseenLinkError` |
| Links.CrumbsLinks | main.py:102-116 | the header has one link per breadcrumb, each `../` times the depth plus the node's target, and succeeds exactly when every prefix has a target |
| Links.CrumbsUnseen | main.py:108-111 | the first breadcrumb group without `INDEX` raises `UnseenLinkError` |
| Links.TitledJoined | main.py:116 | removing the leading arrow from the accumulated title gives the links joined by the arrow |
| Links.RewriteHref | main.py:70-87 | a known key gets its `href` rewritten to `LinkHref` with the other attributes kept; an unknown key raises `UnseenLinkError` naming it |
| Links.AnchorRewrites | main.py:81-90 | a link to a known article is rewritten and its own text handed on |
| Links.AnchorErrors | main.py:68-90 | `convert_a` fails exactly for an unknown link key (`UnseenLinkError`) or an anchor with neither `href` nor `name` (`NotImplementedError`) |
| Links.LinkNonEmpty | main.py:74-80 | a rewritten link is never empty |
| Links.PageConverter.constructor | main.py:54-60 | the converter's directory is the parent of the page's own location |
| Links.PageConverter.ConvertAnchor | main.py:68-90 | the method computes `AnchorOf` for any anchor whose link, if any, names an article anchored like the page |
| Links.PageConverter.ConvertImage | main.py:92-100 | `src` becomes `../` once per directory part, `images/` and the file name; other attributes are kept |
| Links.PageConverter.Descend | main.py:104-114 | one turn of the header loop computes `CrumbStep` |
| Links.PageConverter.Convert | main.py:102-116 | the loop computes `HeaderOf`: the links joined by ` ➭ `, `\n\n`, then the body, or the first error |
| Links.PageConverter.ConvertPage | main.py:102-116 | the header, then the elements in order, stopping at the first error, as `PageOf` states |
| Links.AllAnchored | main.py:74-80 | when every location is anchored like the directory, no element makes the climb endless |
| Links.ElementsUnseen | main.py:84-85 | the elements fail with the error of the first failing element |
| Links.PageUnseen | main.py:84-85 | a page whose header succeeds fails with `UnseenLinkError` naming the first unknown link |
| Scraper.BaseUri | main.py:121 | the base URI is absolute |
| Scraper.ReplaceLeafParses | main.py:24-25 | `url_replace_leaf` joins the new leaf to the parent of the path |
| Scraper.ReplaceLeafSibling | main.py:24-25 | a plain leaf gives a sibling of the old path with that name |
| Scraper.AsWrittenAbsolute | main.py:135-136 | as written, the article path is absolute exactly when the first slug is empty |
| Scraper.AbsoluteArticleExample | main.py:135-136 | slugs `["", "brakes"]` and `disc.md` give `/brakes/disc.md` as written and `brakes/disc.md` corrected |
| Scraper.AbsoluteArticleUnreachable | main.py:74-80 | the link walk from any relative page directory, for every climb count, never reaches that absolute article |
| Scraper.ArticlePathRelative | main.py:134-136 | the corrected article path and the page's location are relative |
| Scraper.ArticlePathAgrees | main.py:134-136 | the corrected path has the components of the written one, and is the same string when no slug is empty |
| Scraper.DocsRoot | main.py:157 | `<wsm_id>/docs` |
| Scraper.DocsDir | main.py:157-163 | a sub-directory lies below the docs root and is its relative part |
| Scraper.OutputInside | main.py:157-163 | an output path lies in its sub-directory of the docs root, and with the file's own suffix it is the file name joined there |
| Scraper.DownloadUnderBase | main.py:187 | a URL path below the base URI maps to the WSM directory joined with the rest |
| Scraper.DownloadElsewhere | main.py:187-195 | an absolute URL path outside the base URI gives an absolute file path, which the gate refuses |
| Scraper.MatchesAssignment | main.py:265-267 | a line `Name[digits] = "value";` is matched with its value captured |
| Scraper.MatchedAssignment | main.py:265-267 | every matched line has exactly that shape, with a trailing newline at most |
| Scraper.MenuListsDisjoint | main.py:265-267 | no line matches both lists |
| Scraper.CapturesConcat | main.py:263-267 | the captures of concatenated lines are the concatenated captures |
| Scraper.ScanMenu | main.py:263-267 | the loop collects exactly the captures of each list in line order |
| Scraper.Seeds | main.py:269-271 | one task per title paired with the `LeftMenuList` entry at the same index, truncated to the shorter list |
| Crawler.Slugs | main.py:134 | one slug per breadcrumb, none holding `/` |
| Crawler.FiledRelative | main.py:134-136 | filing keeps every location in the article map relative |
| Crawler.MapAfterFiles | main.py:135-164 | the article is filed at its location; a PDF also becomes the target of `javascript:Open()`; other keys are kept |
| Crawler.PdfPath | main.py:162-164 | the PDF's output file keeps the task's file name |
| Crawler.OutputWritten | main.py:157-163 | an output lies below the docs root, named as the task's file, in its sub-directory |
| Crawler.DispatchWrites | main.py:157-164 | a page goes to its location, an image to `images`, a PDF to `pdf`, all below the docs root |
| Crawler.AttemptKeepsName | main.py:132-164 | the file `markdownify` writes lies below the docs root under the task's own file name |
| Crawler.AttemptErrors | main.py:139-166 | images and PDFs never fail, other suffixes raise `NotImplementedError`, and only a page can raise `UnseenLinkError` |
| Crawler.RetryAtOnceFails | main.py:175-179 | a failed attempt retried at once, on the tree it left, fails the same way |
| Crawler.PageRetry | main.py:141-158 | a page attempted again on the tree its first attempt left gives the same result |
| Crawler.WeightAppend | main.py:178-179 | the weight of a queue is the sum of its parts |
| Crawler.DefaultWeight | main.py:132 | a queue of fresh tasks weighs `CONCURRENCY + 2` attempts per task |
| Crawler.Requeue | main.py:178-179 | requeueing with one retry fewer lowers the weight by one |
| Crawler.RenameKey | main.py:151-152 | the renaming loop finds `FreeKey` |
| Crawler.WsmScraper.constructor | main.py:119-130 | an empty article map, nav, `seen` set and queue |
| Crawler.WsmScraper.EnterInNav | main.py:141-156 | the nav becomes `InsertPage` of the old one, or stays as it was on `TypeError` |
| Crawler.WsmScraper.Act | main.py:139-166 | the suffix match gives `Dispatch`; only a PDF adds the `javascript:Open()` entry |
| Crawler.WsmScraper.HandlePdf | main.py:162-164 | the PDF is copied into `pdf` under its own name, and `javascript:Open()` is filed where the PDF is; nothing else changes |
| Crawler.WsmScraper.HandlePage | main.py:140-158 | the `.md` case gives `PageAttempt` and leaves the article map alone |
| Crawler.WsmScraper.Handle | main.py:134-166 | the article is filed, then the file's suffix is acted on; every output lies below the docs root |
| Crawler.WsmScraper.Markdownify | main.py:132-184 | one task leaves the map and nav of `Attempt`; a written file is appended, an unseen link requeues with one retry fewer or gives up at zero, any other error escapes |
| Crawler.SettlementAccounts | main.py:175-182 | settling a task whose output carries its file name moves that name into exactly one of the written files, the queue and the given-up pages, unless an exception escapes |
| Crawler.Settlement | main.py:175-184 | only an exception other than `UnseenLinkError` escapes, and it leaves the queue, the written files and the given-up pages alone; otherwise the task is written, requeued or given up, exactly one of the three growing by one; a requeue lowers the queue's weight |
| Crawler.WsmScraper.Settle | main.py:175-184 | the queue, the written files and the result are those of `Settlement`: a written file is appended; an unseen link requeues the task with one retry fewer, or records it as given up at zero; any other error escapes; the article map, nav and `seen` are untouched |
| Crawler.Turn | main.py:132-184 | one worker turn: the first task is attempted on the current map and tree, then settled as `markdownify` settles it; the state stays well formed and the queue's weight goes down unless an exception escapes |
| Crawler.DrainSettles | main.py:175-184 | draining keeps earlier writes and give-ups; when it ends normally the queue is empty and as many files were written plus pages given up as tasks were queued; otherwise an exception other than `UnseenLinkError` stopped it with the failing task off the queue |
| Crawler.TurnAccounts | main.py:132-184 | one turn keeps the multiset of file names written, given up or queued, unless an exception escapes, which removes exactly the head task's name |
| Crawler.DrainAccounts | main.py:175-184 | draining keeps that multiset of file names when it ends normally, and loses exactly one name when an exception escapes |
| Crawler.DrainSettlesEach | main.py:175-184 | each queued task is settled under its own file name: on a normal end, the names of the new written files plus those of the new given-up pages are, with multiplicity, the names of the queued tasks; on an escaping exception, those names plus the names still queued are the queued names less one |
| Crawler.WsmScraper.RunNext | main.py:243-246 | one worker turn takes the first task and leaves exactly the state `Turn` gives |
| Crawler.WsmScraper.RunAll | main.py:243-246 | the worker loop ends in the state and result of `Drain`, with `seen` untouched and at most as many attempts as the queue weighed |
| Crawler.WsmScraper.Work | main.py:243-246 | draining the queue ends in the state and result of `Drain`, tasks taken in FIFO order, each on the map and tree the earlier ones left; `seen` is untouched, earlier writes are kept, the queue ends empty with every queued file name, as often as it was queued, among the files written or the pages given up, or stops on an error other than `UnseenLinkError`; at most as many attempts as the queue weighed |
| Crawler.WsmScraper.Download | main.py:186-195 | a path already seen gives nothing; otherwise it is added to `seen`, an absolute path raises `PermissionError`, and a relative one is returned |

## Left out

- Network and file I/O are not modelled: `httpx`, `aiofiles`, the cache read and write in
  `download`, directory creation, and the output writes (main.py:168-174, 197-210). A write
  is recorded as an entry of `written`.
- `filename.exists()` and `FORCE_MARKDOWN` (main.py:168-169) are not modelled. Every
  successful attempt counts as written.
- `asyncio`: the `CONCURRENCY` workers, `Queue` and `TaskGroup` (main.py:243-246, 273-275)
  become one sequential loop draining a FIFO. Interleavings of the workers are not
  modelled.
- Logging is not modelled. A page given up after its last retry goes into the `failed`
  sequence, which stands for the error log.
- `parse_page` and `scrape` (main.py:212-241, 249-293) are left out: their crawl is fetches
  and HTML queries. Only the script scan and the title pairing are modelled.
- Attempt / Markdownify: the article is filed at the corrected location `ArticlePath`,
  which drops empty slugs. `location + '/' + filename.name` (main.py:135-136) is not used.
  - When the first slug is empty, the source files an absolute path and writes outside the
    docs tree; the model files a relative one.
  - An empty slug in the middle gives `a//x.md` in the source and `a/x.md` in the model.
    The two parse to the same components (`ArticlePathAgrees`).
  - See "Findings".
- `slugify`, `str.title()` and the acronym substitution of `listify_dict` are parameters.
  `Listify` takes the retitling as a function; the crawler takes the slug function.
- SpanOf / TableConverter.ConvertCell: `isdigit()` and `int()` are read on ASCII digits only.
  The source also accepts other Unicode decimal digits (`colspan="٣"` is 3 there and 1
  here). It raises `ValueError` for digit characters that `int()` refuses, such as `²`;
  the model gives 1.
- MatchIndex / ScanMenu: the `\d` of the menu regexes matches ASCII digits only. Python
  matches any Unicode decimal digit.
- Element / PageOf / Dispatch: page elements are anchors and images only. A table inside a
  page is not an element. So the `NotImplementedError` of a nested table (mdconverter.py:89),
  which escapes `markdownify`, never comes out of `PageOf`. `TableConverter.ConvertTable`
  and `TableText` model that error on their own.
- The page body outside anchors and images is rendered by the base `MarkdownConverter` and
  is taken as a given string.
- `splitlines` is given: the scan takes the script as a sequence of lines.
- Links.PageConverter.ConvertAnchor and Links.AnchorOf require the looked-up article to be
  anchored like the page directory (both relative or both absolute). Otherwise the loop of
  main.py:77 never ends (`WalkNeverEnds`), and the model has no value for a run that does
  not end.
- When `markdownify` raises an error other than `UnseenLinkError`, the model stops draining
  the queue. The other workers of the source would go on until the task group cancels them.
- The `PageConverter` constructor requires the page's own file name in the article map.
  The source raises `KeyError` without it, and `markdownify` always files it first.
- Printing to `StringIO` is modelled as concatenating the row outputs.

## Findings

| source | as written | input that shows it | evidently intended | confidence | as-written member | corrected member |
|---|---|---|---|---|---|---|
| main.py:135-136 | the article is filed at `'/'.join(slugs) + '/' + name`, which is absolute when the first breadcrumb slugifies to the empty string | slugs `["", "brakes"]` and file `disc.md` give `/brakes/disc.md`; `joinpath` with that location leaves the docs tree, and the link walk of main.py:77 from any relative page never reaches it | the article is filed below the docs tree, at its non-empty slugs and its name | medium; not executed | Scraper.AbsoluteArticleUnreachable | Scraper.ArticlePathRelative |

=== FILE: crawler.dfy ===
/** The state `WSMScraper` keeps while it converts pages: the article map, the navigation
    tree, the `seen` set of `download` and the queue of `markdownify` calls the workers
    drain, with the retry of pages whose links cannot be resolved yet. */
module Crawler {
  import opened Wrappers
  import opened Text
  import opened Paths
  import opened Navigation
  import opened Links
  import opened Scraper

  /** What a downloaded file holds, as far as `markdownify` looks at it: the elements the
      converter rewrites and the rest of the page as the base converter renders it. */
  datatype Content = Content(elements: seq<Element>, body: string)

  /** A queued call `markdownify(breadcrumbs, filename, content, retries)`. */
  datatype Task = Task(breadcrumbs: seq<string>, file: PurePath, content: Content, retries: int)

  /** What is written to an output file: a converted page, or a downloaded file as is. */
  datatype Data = Markdown(header: string, links: seq<Converted>) | Copy(content: Content)

  datatype Output = Output(path: PurePath, data: Data)

  /** One call of `markdownify`: the article map and navigation tree it leaves, and the
      file it writes or the exception it raises. */
  datatype Outcome = Outcome(articleMap: map<string, string>, nav: Nav, result: Result<Output>)

  /** A path string that does not start at the root. */
  predicate Relative(s: string) {
    s == [] || s[0] != '/'
  }

  /** Every filed location is relative. */
  ghost predicate RelativeMap(am: map<string, string>) {
    forall k :: k in am ==> Relative(am[k])
  }

  /** A relative map parses to relative paths only, as the converter requires. */
  lemma RelativeMapParses(am: map<string, string>, dir: PurePath)
    requires RelativeMap(am) && !dir.absolute
    ensures forall k :: k in am ==> Parse(am[k]).absolute == dir.absolute
  {
  }

  /** A task as the crawl queues it: at least one breadcrumb, a file name in parsed form
      and a retry count that is not negative. */
  ghost predicate Filed(t: Task) {
    |t.breadcrumbs| >= 1 && Normal(t.file) && t.retries >= 0
  }

  /** Pages named `left_menu*` or `node*` index their breadcrumb's group. */
  predicate IsMenu(name: string) {
    StartsWith(name, "left_menu") || StartsWith(name, "node")
  }

  /** The cases of `match filename.suffix`. */
  datatype FileKind = PageFile | ImageFile | PdfFile | OtherFile

  /** Which case a file name falls in: `.md`, `.png`, `.pdf` or anything else. */
  function KindOf(name: string): (k: FileKind)
    ensures k != OtherFile ==> Suffix(name) != []
  {
    var s := Suffix(name);
    if s == ".md" then PageFile
    else if s == ".png" then ImageFile
    else if s == ".pdf" then PdfFile
    else OtherFile
  }

  /** A file name the suffix match reaches is a component. */
  lemma NameComponent(file: PurePath)
    requires Normal(file) && KindOf(Name(file)) != OtherFile
    ensures IsComponent(Name(file))
  {
  }

  /** A filed location keeps the map relative. */
  lemma FiledRelative(am: map<string, string>, slugs: seq<string>, name: string)
    requires RelativeMap(am) && NoSlash(slugs) && '/' !in name
    ensures RelativeMap(am[name := ArticlePath(slugs, name)])
    ensures Relative(ArticlePath(slugs, name)) && Relative(Location(slugs))
  {
    ArticlePathRelative(slugs, name);
  }

  /** The `.md` case of `markdownify`: enter the page in the navigation tree, then convert
      it against the article map that already holds it. */
  function PageAttempt(wsmId: string, slugs: seq<string>, am: map<string, string>, nav: Nav, t: Task, loc: string): (Nav, Result<Output>)
    requires |t.breadcrumbs| >= 1 && RelativeMap(am) && IsComponent(Name(t.file))
    requires Relative(Location(slugs)) && Relative(loc)
  {
    var name := Name(t.file);
    RelativeMapParses(am, Parent(Parse(loc)));
    AllAnchored(am, Parent(Parse(loc)), t.content.elements);
    match InsertPage(nav, t.breadcrumbs, loc, IsMenu(name))
    case Err(e) => (nav, Err(e))
    case Ok(nav1) =>
      match PageOf(am, nav1, t.breadcrumbs, Parent(Parse(loc)), t.content.elements, t.content.body)
      case Err(e) => (nav1, Err(e))
      case Ok(page) => (nav1, Ok(Output(OutputPath(wsmId, Parse(Location(slugs)), name, ".md"), Markdown(page.0, page.1))))
  }

  /** The `.pdf` case: the output file, whose name is the task's. */
  function PdfPath(wsmId: string, name: string): (p: PurePath)
    requires IsComponent(name) && KindOf(name) == PdfFile
    ensures Name(p) == name
  {
    OutputInside(wsmId, PdfDir, name, ".pdf");
    ParseComponent(name);
    OutputPath(wsmId, PdfDir, name, ".pdf")
  }

  /** The `match filename.suffix` of `markdownify`, once the article is filed at `loc`:
      the navigation tree it leaves and the file it writes or the exception it raises. */
  function Dispatch(wsmId: string, slugs: seq<string>, am: map<string, string>, nav: Nav, t: Task, loc: string): (Nav, Result<Output>)
    requires Filed(t) && RelativeMap(am) && Relative(loc) && Relative(Location(slugs))
  {
    var name := Name(t.file);
    match KindOf(name)
    case PageFile =>
      NameComponent(t.file);
      PageAttempt(wsmId, slugs, am, nav, t, loc)
    case ImageFile =>
      NameComponent(t.file);
      (nav, Ok(Output(OutputPath(wsmId, ImagesDir, name, ".png"), Copy(t.content))))
    case PdfFile =>
      NameComponent(t.file);
      (nav, Ok(Output(PdfPath(wsmId, name), Copy(t.content))))
    case OtherFile =>
      (nav, Err(NotImplemented(FileType(ToString(t.file)))))
  }

  /** The article map after an attempt on the file `name` filed at `loc`: the article
      filed there and, for a PDF, that location also as the target of
      `javascript:Open()` (main.py looks it up under the output file's name, which is
      `name` again). */
  function MapAfter(am: map<string, string>, name: string, loc: string, pdf: bool): map<string, string> {
    var am1 := am[name := loc];
    if pdf then am1["javascript:Open()" := am1[name]] else am1
  }

  /** `markdownify` on one task, for the article map and navigation tree it finds. The
      article is filed at its corrected location first; then the file's suffix decides:
      a page is entered in the navigation tree and converted, an image or a PDF is copied
      (a PDF also becomes the target of `javascript:Open()`), and any other suffix
      raises `NotImplementedError`. */
  function Attempt(wsmId: string, slugs: seq<string>, am: map<string, string>, nav: Nav, t: Task): (o: Outcome)
    requires Filed(t) && |slugs| == |t.breadcrumbs| && NoSlash(slugs) && RelativeMap(am)
  {
    var name := Name(t.file);
    var loc := ArticlePath(slugs, name);
    FiledRelative(am, slugs, name);
    var (nav1, result) := Dispatch(wsmId, slugs, am[name := loc], nav, t, loc);
    Outcome(MapAfter(am, name, loc, KindOf(name) == PdfFile), nav1, result)
  }

  /** How handling a task leaves the queue, the written files and the log of pages given
      up on, and what `markdownify` returns: a written file is appended; an unresolved
      link requeues the task with one retry fewer, or gives it up when none are left; any
      other exception escapes and leaves all three alone. Every task is accounted for:
      written, requeued or given up, unless the exception escapes. */
  function Settlement(t: Task, result: Result<Output>, q0: seq<Task>, w0: seq<Output>, d0: seq<Task>)
    : (n: (Result<()>, seq<Task>, seq<Output>, seq<Task>))
    ensures n.0.Err? <==> result.Err? && !result.error.UnseenLink?
    ensures n.0.Err? ==> n.0.error == result.error && n.1 == q0 && n.2 == w0 && n.3 == d0
    ensures q0 <= n.1 && w0 <= n.2 && d0 <= n.3
    ensures n.0.Ok? ==> |n.1| - |q0| + |n.2| - |w0| + |n.3| - |d0| == 1
    ensures n.0.Ok? ==> Weight(n.1) < Weight([t] + q0)
    ensures Filed(t) && AllFiled(q0) ==> AllFiled(n.1)
  {
    assert ([t] + q0)[1..] == q0;
    match result
    case Ok(out) => (Ok(()), q0, w0 + [out], d0)
    case Err(UnseenLink(_)) =>
      if t.retries > 0 then
        Requeue(q0, t);
        (Ok(()), q0 + [t.(retries := t.retries - 1)], w0, d0)
      else (Ok(()), q0, w0, d0 + [t])
    case Err(e) => (Err(e), q0, w0, d0)
  }

  // ---------------------------------------------------------------------------
  // What one attempt promises

  /** Filing keeps every location relative, puts the article at its location and
      changes no other entry of the map, except that a PDF also becomes the target of
      `javascript:Open()`. */
  lemma MapAfterFiles(am: map<string, string>, name: string, loc: string, pdf: bool)
    requires RelativeMap(am) && Relative(loc)
    ensures var m := MapAfter(am, name, loc, pdf);
      && RelativeMap(m)
      && m[name] == loc
      && m.Keys == am.Keys + {name} + (if pdf then {"javascript:Open()"} else {})
      && (forall k :: k in am && k != name && k != "javascript:Open()" ==> m[k] == am[k])
      && (pdf ==> m["javascript:Open()"] == loc)
  {
  }

  /** Every file an attempt writes lies in the manual's docs directory, in the directory
      its kind calls for, under the task's own file name. */
  lemma DispatchWrites(wsmId: string, slugs: seq<string>, am: map<string, string>, nav: Nav, t: Task, loc: string)
    requires Filed(t) && RelativeMap(am) && Relative(loc) && Relative(Location(slugs))
    ensures var r := Dispatch(wsmId, slugs, am, nav, t, loc).1;
      r.Ok? ==>
        && IsRelativeTo(r.value.path, DocsRoot(wsmId))
        && Name(r.value.path) == Name(t.file)
        && Parent(r.value.path) == DocsDir(wsmId, match KindOf(Name(t.file))
                                                  case PageFile => Parse(Location(slugs))
                                                  case ImageFile => ImagesDir
                                                  case _ => PdfDir)
  {
    var name := Name(t.file);
    var r := Dispatch(wsmId, slugs, am, nav, t, loc).1;
    if r.Ok? {
      NameComponent(t.file);
      match KindOf(name)
      case PageFile =>
        OutputWritten(wsmId, Parse(Location(slugs)), name, ".md");
      case ImageFile =>
        OutputWritten(wsmId, ImagesDir, name, ".png");
      case PdfFile =>
        OutputWritten(wsmId, PdfDir, name, ".pdf");
    }
  }

  /** An output path lies in the docs directory, directly inside `sub`, under `name`. */
  lemma OutputWritten(wsmId: string, sub: PurePath, name: string, suffix: string)
    requires !sub.absolute && IsComponent(name) && Suffix(name) == suffix && suffix != []
    ensures var p := OutputPath(wsmId, sub, name, suffix);
      IsRelativeTo(p, DocsRoot(wsmId)) && Name(p) == name && Parent(p) == DocsDir(wsmId, sub)
  {
    ParseComponent(name);
    OutputInside(wsmId, sub, name, suffix);
  }

  /** The file an attempt writes lies in the docs directory under the task's own file
      name. */
  lemma AttemptKeepsName(wsmId: string, slugs: seq<string>, am: map<string, string>, nav: Nav, t: Task)
    requires Filed(t) && |slugs| == |t.breadcrumbs| && NoSlash(slugs) && RelativeMap(am)
    ensures var r := Attempt(wsmId, slugs, am, nav, t).result;
      r.Ok? ==> Name(r.value.path) == Name(t.file) && IsRelativeTo(r.value.path, DocsRoot(wsmId))
  {
    var name := Name(t.file);
    var loc := ArticlePath(slugs, name);
    FiledRelative(am, slugs, name);
    DispatchWrites(wsmId, slugs, am[name := loc], nav, t, loc);
  }

  /** Images and PDFs are always written; a file with any other suffix than a page's
      raises `NotImplementedError` naming it; so only a page can wait for a link. */
  lemma AttemptErrors(wsmId: string, slugs: seq<string>, am: map<string, string>, nav: Nav, t: Task)
    requires Filed(t) && |slugs| == |t.breadcrumbs| && NoSlash(slugs) && RelativeMap(am)
    ensures var k := KindOf(Name(t.file));
      k == ImageFile || k == PdfFile ==> Attempt(wsmId, slugs, am, nav, t).result.Ok?
    ensures KindOf(Name(t.file)) == OtherFile ==>
      Attempt(wsmId, slugs, am, nav, t).result == Err(NotImplemented(FileType(ToString(t.file))))
    ensures var r := Attempt(wsmId, slugs, am, nav, t).result;
      r.Err? && r.error.UnseenLink? ==> KindOf(Name(t.file)) == PageFile
  {
  }

  /** Retrying at once is pointless: a failed suffix match, repeated on the navigation
      tree it left against the same article map, fails again in the same way and leaves
      the same tree. This is why a task waiting for a link goes to the back of the queue
      rather than being retried on the spot. */
  lemma RetryAtOnceFails(wsmId: string, slugs: seq<string>, am: map<string, string>, nav: Nav, t: Task, loc: string)
    requires Filed(t) && RelativeMap(am) && Relative(loc) && Relative(Location(slugs))
    ensures var d := Dispatch(wsmId, slugs, am, nav, t, loc);
      d.1.Err? ==> Dispatch(wsmId, slugs, am, d.0, t, loc) == d
  {
    var name := Name(t.file);
    if KindOf(name) == PageFile {
      NameComponent(t.file);
      if InsertPage(nav, t.breadcrumbs, loc, IsMenu(name)).Ok? {
        PageRetry(wsmId, slugs, am, nav, t, loc);
      }
    }
  }

  /** A page entered in the navigation tree enters it again in the same place, so
      attempting it against the tree the first attempt left gives the same result. */
  lemma PageRetry(wsmId: string, slugs: seq<string>, am: map<string, string>, nav: Nav, t: Task, loc: string)
    requires |t.breadcrumbs| >= 1 && RelativeMap(am) && IsComponent(Name(t.file))
    requires Relative(Location(slugs)) && Relative(loc)
    requires InsertPage(nav, t.breadcrumbs, loc, IsMenu(Name(t.file))).Ok?
    ensures var nav1 := InsertPage(nav, t.breadcrumbs, loc, IsMenu(Name(t.file))).value;
      PageAttempt(wsmId, slugs, am, nav1, t, loc) == PageAttempt(wsmId, slugs, am, nav, t, loc)
  {
    InsertIdempotent(nav, t.breadcrumbs, loc, IsMenu(Name(t.file)));
  }

  // ---------------------------------------------------------------------------
  // How long the queue lasts

  /** How many more attempts a task can take: one, and one per retry left. */
  function Tries(t: Task): (n: nat)
    ensures t.retries >= 0 ==> n == t.retries + 1
  {
    if t.retries >= 0 then t.retries + 1 else 1
  }

  /** How many attempts the queue can take at most. */
  function Weight(q: seq<Task>): nat {
    if q == [] then 0 else Tries(q[0]) + Weight(q[1..])
  }

  lemma {:induction false} WeightAppend(a: seq<Task>, b: seq<Task>)
    ensures Weight(a + b) == Weight(a) + Weight(b)
  {
    if a == [] {
      assert a + b == b;
    } else {
      assert (a + b)[1..] == a[1..] + b;
      WeightAppend(a[1..], b);
    }
  }

  /** Queued at the default retry count, each page is attempted at most
      `CONCURRENCY + 2` times. */
  lemma {:induction false} DefaultWeight(q: seq<Task>)
    requires forall i :: 0 <= i < |q| ==> q[i].retries == DefaultRetries
    ensures Weight(q) == |q| * (Concurrency + 2)
  {
    if q != [] {
      DefaultWeight(q[1..]);
    }
  }

  /** Requeueing a task with one retry fewer lowers the queue's weight by one. */
  lemma Requeue(rest: seq<Task>, t: Task)
    requires t.retries > 0
    ensures Weight(rest + [t.(retries := t.retries - 1)]) + 1 == Weight([t] + rest)
  {
    WeightAppend(rest, [t.(retries := t.retries - 1)]);
    assert ([t] + rest)[1..] == rest;
    assert [t.(retries := t.retries - 1)][1..] == [];
  }

  // ---------------------------------------------------------------------------
  // The scraper

  /** The renaming loop of `markdownify`: append spaces to the key while it holds another
      page's location. */
  method RenameKey(siblings: Entries, part: string, loc: string) returns (key: string)
    ensures key == FreeKey(siblings, part, loc)
  {
    key := part;
    while Taken(siblings, key, loc)
      invariant FreeKey(siblings, key, loc) == FreeKey(siblings, part, loc)
      decreases MaxKeyLength(siblings) - |key|
    {
      FoundKeyLength(siblings, key);
      key := key + " ";
    }
  }

  /** No slug holds a `/`. */
  ghost predicate CleanSlugs(slug: string -> string) {
    forall x :: '/' !in slug(x)
  }

  /** The slugs of the breadcrumbs. */
  function Slugs(slug: string -> string, bc: seq<string>): (s: seq<string>)
    requires CleanSlugs(slug)
    ensures |s| == |bc| && NoSlash(s)
    ensures forall i :: 0 <= i < |bc| ==> s[i] == slug(bc[i])
  {
    seq(|bc|, i requires 0 <= i < |bc| => slug(bc[i]))
  }

  /** The part of the scraper's state the workers change: the article map, the navigation
      tree, the queue, the files written and the pages given up on. */
  datatype Drained = Drained(articleMap: map<string, string>, nav: Nav, queue: seq<Task>,
                             written: seq<Output>, failed: seq<Task>)

  /** Every queued task is well formed. */
  ghost predicate AllFiled(q: seq<Task>) {
    forall i :: 0 <= i < |q| ==> Filed(q[i])
  }

  /** One turn of a worker: the first task is attempted on the map and tree as they are,
      then settled as `markdownify` settles it. The state stays well formed, and unless an
      exception escapes the queue's weight goes down. */
  ghost function Turn(wsmId: string, slug: string -> string, s: Drained): (n: (Result<()>, Drained))
    requires CleanSlugs(slug) && RelativeMap(s.articleMap) && AllFiled(s.queue) && s.queue != []
    ensures RelativeMap(n.1.articleMap) && AllFiled(n.1.queue)
    ensures n.0.Ok? ==> Weight(n.1.queue) < Weight(s.queue)
  {
    var t, rest := s.queue[0], s.queue[1..];
    var slugs := Slugs(slug, t.breadcrumbs);
    var o := Attempt(wsmId, slugs, s.articleMap, s.nav, t);
    FiledRelative(s.articleMap, slugs, Name(t.file));
    MapAfterFiles(s.articleMap, Name(t.file), ArticlePath(slugs, Name(t.file)), KindOf(Name(t.file)) == PdfFile);
    assert s.queue == [t] + rest;
    var m := Settlement(t, o.result, rest, s.written, s.failed);
    (m.0, Drained(o.articleMap, o.nav, m.1, m.2, m.3))
  }

  /** The queue drained task by task in FIFO order, each task seeing the map and tree the
      tasks before it left, until the queue is empty or an exception other than
      `UnseenLinkError` escapes. */
  ghost function Drain(wsmId: string, slug: string -> string, s: Drained): (Result<()>, Drained)
    requires CleanSlugs(slug) && RelativeMap(s.articleMap) && AllFiled(s.queue)
    decreases Weight(s.queue)
  {
    if s.queue == [] then (Ok(()), s)
    else
      var n := Turn(wsmId, slug, s);
      if n.0.Err? then n else Drain(wsmId, slug, n.1)
  }

  /** Draining a queue that is not empty is one turn, then the drain of what it leaves
      unless an exception escapes. */
  lemma DrainTurn(wsmId: string, slug: string -> string, s: Drained, n: (Result<()>, Drained))
    requires CleanSlugs(slug) && RelativeMap(s.articleMap) && AllFiled(s.queue) && s.queue != []
    requires n == Turn(wsmId, slug, s)
    ensures Drain(wsmId, slug, s) == if n.0.Err? then n else Drain(wsmId, slug, n.1)
  {
  }

  /** Draining keeps what was written and given up before, and counts every task once:
      when it ends normally, as many files are written and pages given up as tasks were
      queued, whatever the retries in between; otherwise an exception other than
      `UnseenLinkError` stops the drain with the failing task taken off the queue. Which
      task each entry comes from is `DrainSettlesEach`. */
  lemma {:induction false} DrainSettles(wsmId: string, slug: string -> string, s: Drained)
    requires CleanSlugs(slug) && RelativeMap(s.articleMap) && AllFiled(s.queue)
    ensures var d := Drain(wsmId, slug, s);
      && s.written <= d.1.written && s.failed <= d.1.failed
      && (d.0.Ok? ==> d.1.queue == [] && |d.1.written| - |s.written| + |d.1.failed| - |s.failed| == |s.queue|)
      && (d.0.Err? ==> !d.0.error.UnseenLink? && |d.1.written| - |s.written| + |d.1.failed| - |s.failed| + |d.1.queue| + 1 == |s.queue|)
    decreases Weight(s.queue)
  {
    if s.queue != [] {
      var n := Turn(wsmId, slug, s);
      if n.0.Ok? {
        DrainSettles(wsmId, slug, n.1);
      }
    }
  }

  /** The file names of the outputs, each as often as it is written. */
  ghost function OutputNames(w: seq<Output>): multiset<string> {
    if w == [] then multiset{} else multiset{Name(w[0].path)} + OutputNames(w[1..])
  }

  /** The file names of the tasks, each as often as it is queued. */
  ghost function TaskNames(q: seq<Task>): multiset<string> {
    if q == [] then multiset{} else multiset{Name(q[0].file)} + TaskNames(q[1..])
  }

  lemma {:induction false} OutputNamesAppend(a: seq<Output>, b: seq<Output>)
    ensures OutputNames(a + b) == OutputNames(a) + OutputNames(b)
  {
    if a == [] {
      assert a + b == b;
    } else {
      assert (a + b)[0] == a[0] && (a + b)[1..] == a[1..] + b;
      OutputNamesAppend(a[1..], b);
    }
  }

  lemma {:induction false} TaskNamesAppend(a: seq<Task>, b: seq<Task>)
    ensures TaskNames(a + b) == TaskNames(a) + TaskNames(b)
  {
    if a == [] {
      assert a + b == b;
    } else {
      assert (a + b)[0] == a[0] && (a + b)[1..] == a[1..] + b;
      TaskNamesAppend(a[1..], b);
    }
  }

  /** The file names the state accounts for: written, given up or still queued. */
  ghost function Accounted(s: Drained): multiset<string> {
    OutputNames(s.written) + TaskNames(s.failed) + TaskNames(s.queue)
  }

  /** Settling a task whose output, if any, carries the task's own file name moves that
      name to the written files, back to the queue or to the pages given up, unless an
      exception escapes. */
  lemma SettlementAccounts(t: Task, result: Result<Output>, q0: seq<Task>, w0: seq<Output>, d0: seq<Task>)
    requires result.Ok? ==> Name(result.value.path) == Name(t.file)
    ensures var n := Settlement(t, result, q0, w0, d0);
      n.0.Ok? ==>
        OutputNames(n.2) + TaskNames(n.3) + TaskNames(n.1)
          == OutputNames(w0) + TaskNames(d0) + TaskNames(q0) + multiset{Name(t.file)}
  {
    var x := multiset{Name(t.file)};
    match result
    case Ok(out) =>
      OutputNamesAppend(w0, [out]);
      assert OutputNames([out]) == x;
      Appended(OutputNames(w0), TaskNames(d0), TaskNames(q0), x, OutputNames(w0 + [out]));
    case Err(UnseenLink(_)) =>
      var t1 := t.(retries := t.retries - 1);
      if t.retries > 0 {
        TaskNamesAppend(q0, [t1]);
        assert TaskNames([t1]) == x;
        Appended(TaskNames(q0), OutputNames(w0), TaskNames(d0), x, TaskNames(q0 + [t1]));
      } else {
        TaskNamesAppend(d0, [t]);
        assert TaskNames([t]) == x;
        Appended(TaskNames(d0), OutputNames(w0), TaskNames(q0), x, TaskNames(d0 + [t]));
      }
    case Err(_) =>
  }

  /** One part of a sum of names grown by `x`: the sum grows by `x`, in whatever order
      it is taken. */
  lemma Appended(a: multiset<string>, b: multiset<string>, c: multiset<string>, x: multiset<string>, a1: multiset<string>)
    requires a1 == a + x
    ensures a1 + b + c == a + b + c + x && b + a1 + c == b + a + c + x && b + c + a1 == b + c + a + x
  {
  }

  /** One turn keeps the head task's file name accounted for, unless an exception
      escapes, which takes it off. */
  lemma TurnAccounts(wsmId: string, slug: string -> string, s: Drained)
    requires CleanSlugs(slug) && RelativeMap(s.articleMap) && AllFiled(s.queue) && s.queue != []
    ensures var n := Turn(wsmId, slug, s);
      && (n.0.Ok? ==> Accounted(n.1) == Accounted(s))
      && (n.0.Err? ==> Accounted(n.1) + multiset{Name(s.queue[0].file)} == Accounted(s))
  {
    var t, rest := s.queue[0], s.queue[1..];
    var slugs := Slugs(slug, t.breadcrumbs);
    var name := Name(t.file);
    AttemptKeepsName(wsmId, slugs, s.articleMap, s.nav, t);
    var o := Attempt(wsmId, slugs, s.articleMap, s.nav, t);
    var m := Settlement(t, o.result, rest, s.written, s.failed);
    assert Turn(wsmId, slug, s) == (m.0, Drained(o.articleMap, o.nav, m.1, m.2, m.3));
    SettlementAccounts(t, o.result, rest, s.written, s.failed);
    assert s.queue[0] == t && s.queue[1..] == rest;
    assert TaskNames(s.queue) == TaskNames(rest) + multiset{name};
    Appended(TaskNames(rest), OutputNames(s.written), TaskNames(s.failed), multiset{name}, TaskNames(s.queue));
  }

  /** Draining keeps every file name accounted for when it ends normally; when an
      exception escapes, exactly one name, the failing task's, is gone. */
  lemma {:induction false} DrainAccounts(wsmId: string, slug: string -> string, s: Drained)
    requires CleanSlugs(slug) && RelativeMap(s.articleMap) && AllFiled(s.queue)
    ensures var d := Drain(wsmId, slug, s);
      && (d.0.Ok? ==> Accounted(d.1) == Accounted(s))
      && (d.0.Err? ==> Accounted(d.1) <= Accounted(s) && |Accounted(d.1)| + 1 == |Accounted(s)|)
    decreases Weight(s.queue)
  {
    if s.queue != [] {
      var n := Turn(wsmId, slug, s);
      TurnAccounts(wsmId, slug, s);
      if n.0.Ok? {
        DrainAccounts(wsmId, slug, n.1);
      }
    }
  }

  /** Draining settles each queued task by its own file: when it ends normally, the
      names of the files it wrote and of the pages it gave up are, with multiplicity,
      the names of the queued tasks; when an exception escapes, those names and the
      names still queued are the queued names less one, the failing task's. */
  lemma DrainSettlesEach(wsmId: string, slug: string -> string, s: Drained)
    requires CleanSlugs(slug) && RelativeMap(s.articleMap) && AllFiled(s.queue)
    ensures var d := Drain(wsmId, slug, s);
      && s.written <= d.1.written && s.failed <= d.1.failed
      && var settled := OutputNames(d.1.written[|s.written|..]) + TaskNames(d.1.failed[|s.failed|..]);
      && (d.0.Ok? ==> settled == TaskNames(s.queue))
      && (d.0.Err? ==> settled + TaskNames(d.1.queue) <= TaskNames(s.queue)
                       && |settled + TaskNames(d.1.queue)| + 1 == |TaskNames(s.queue)|)
  {
    DrainSettles(wsmId, slug, s);
    DrainAccounts(wsmId, slug, s);
    var d := Drain(wsmId, slug, s);
    SettledNames(s, d.1);
    var before := OutputNames(s.written) + TaskNames(s.failed);
    var settled := OutputNames(d.1.written[|s.written|..]) + TaskNames(d.1.failed[|s.failed|..]);
    if d.0.Ok? {
      assert TaskNames(d.1.queue) == multiset{};
      Cancel(before, settled, TaskNames(s.queue));
    } else {
      CancelBelow(before, settled + TaskNames(d.1.queue), TaskNames(s.queue));
    }
  }

  /** The same names taken out of both sides of an equation. */
  lemma Cancel(b: multiset<string>, x: multiset<string>, y: multiset<string>)
    requires b + x == b + y
    ensures x == y
  {
    forall e ensures x[e] == y[e] {
      assert (b + x)[e] == (b + y)[e];
    }
  }

  /** The same names taken out of both sides of an inclusion. */
  lemma CancelBelow(b: multiset<string>, x: multiset<string>, y: multiset<string>)
    requires b + x <= b + y && |b + x| + 1 == |b + y|
    ensures x <= y && |x| + 1 == |y|
  {
    forall e ensures x[e] <= y[e] {
      assert (b + x)[e] <= (b + y)[e];
    }
  }

  /** What a later state added to the written files and the pages given up, from what
      the two states account for. */
  lemma SettledNames(s: Drained, e: Drained)
    requires s.written <= e.written && s.failed <= e.failed
    ensures var settled := OutputNames(e.written[|s.written|..]) + TaskNames(e.failed[|s.failed|..]);
      && OutputNames(s.written) + TaskNames(s.failed) + settled + TaskNames(e.queue) == Accounted(e)
  {
    var w, f := e.written[|s.written|..], e.failed[|s.failed|..];
    assert e.written == s.written + w;
    assert e.failed == s.failed + f;
    OutputNamesAppend(s.written, w);
    TaskNamesAppend(s.failed, f);
  }

  /** `WSMScraper` with the state `markdownify` and `download` update. `slug` stands for
      `slugify`, and `written` and `failed` stand for the files written and the pages
      logged as given up. */
  class WsmScraper {
    const wsmId: string
    const slug: string -> string
    var articleMap: map<string, string>
    var nav: Nav
    var seen: set<PurePath>
    var queue: seq<Task>
    var written: seq<Output>
    var failed: seq<Task>

    /** Slugs hold no `/`, every filed location is relative, every queued task is well
        formed and every file written lies in the docs directory. */
    ghost predicate Valid()
      reads this
    {
      && CleanSlugs(slug)
      && RelativeMap(articleMap)
      && AllFiled(queue)
      && (forall i :: 0 <= i < |written| ==> IsRelativeTo(written[i].path, DocsRoot(wsmId)))
    }

    constructor (wsmId: string, slug: string -> string)
      requires forall x :: '/' !in slug(x)
      ensures Valid()
      ensures this.wsmId == wsmId && this.slug == slug
      ensures articleMap == map[] && nav == Group([]) && seen == {} && queue == [] && written == [] && failed == []
    {
      this.wsmId := wsmId;
      this.slug := slug;
      articleMap := map[];
      nav := Group([]);
      seen := {};
      queue := [];
      written := [];
      failed := [];
    }

    /** The navigation part of `markdownify`: walk the breadcrumbs, then either store the
        page under a free key, or store a menu page as the group's `INDEX`. */
    method EnterInNav(bc: seq<string>, loc: string, menu: bool) returns (r: Result<()>)
      requires |bc| >= 1
      modifies this
      ensures match InsertPage(old(nav), bc, loc, menu)
        case Ok(n) => r == Ok(()) && nav == n
        case Err(e) => r == Err(e) && nav == old(nav)
      ensures articleMap == old(articleMap) && seen == old(seen) && queue == old(queue)
      ensures written == old(written) && failed == old(failed)
    {
      var walked := Walk(nav, bc);
      if walked.Err? {
        return Err(walked.error);
      }
      var w := walked.value;
      var up := bc[..|bc| - 1];
      WalkReaches(nav, bc);
      assert IsGroupAt(w, up);
      var siblings := Lookup(w, up).value.entries;
      assert siblings == Siblings(nav, bc);
      var part := bc[|bc| - 1];
      if !menu {
        var key := RenameKey(siblings, part, loc);
        nav := SetAt(w, up, key, Leaf(loc));
        return Ok(());
      }
      match Find(siblings, part) {
        case Some(Leaf(s)) =>
          if s == [] || !Contains(s, "INDEX") {
            return Err(TypeError);
          }
          nav := w;
        case Some(Group(ces)) =>
          nav := if Find(ces, "INDEX").None? then SetAt(w, bc, "INDEX", Leaf(loc)) else w;
        case None =>
          nav := w;
      }
      return Ok(());
    }

    /** `markdownify(breadcrumbs, filename, content, retries)`, as one worker runs it. */
    method Markdownify(t: Task) returns (r: Result<()>)
      requires Valid() && Filed(t)
      modifies this
      ensures Valid()
      ensures var o := Attempt(wsmId, Slugs(slug, t.breadcrumbs), old(articleMap), old(nav), t);
        && articleMap == o.articleMap && nav == o.nav && seen == old(seen)
        && (r, queue, written, failed) == Settlement(t, o.result, old(queue), old(written), old(failed))
    {
      var out := Handle(t);
      ghost var o := Attempt(wsmId, Slugs(slug, t.breadcrumbs), old(articleMap), old(nav), t);
      assert o.result == out && o.articleMap == articleMap && o.nav == nav;
      r := Settle(t, out);
    }

    /** The `except` and `finally` part of `markdownify`: record the written file, or
        requeue or give up on a task whose link was not resolved, or let the exception
        escape. */
    method Settle(t: Task, out: Result<Output>) returns (r: Result<()>)
      requires Valid() && Filed(t) && (out.Ok? ==> IsRelativeTo(out.value.path, DocsRoot(wsmId)))
      modifies this
      ensures Valid()
      ensures articleMap == old(articleMap) && nav == old(nav) && seen == old(seen)
      ensures (r, queue, written, failed) == Settlement(t, out, old(queue), old(written), old(failed))
    {
      match out {
        case Ok(o) =>
          written := written + [o];
          r := Ok(());
        case Err(UnseenLink(_)) =>
          if t.retries > 0 {
            queue := queue + [t.(retries := t.retries - 1)];
          } else {
            failed := failed + [t];
          }
          r := Ok(());
        case Err(e) =>
          r := Err(e);
      }
    }

    /** The body of `markdownify` up to the write: file the article, then act on the
        file's suffix. */
    method Handle(t: Task) returns (out: Result<Output>)
      requires CleanSlugs(slug) && RelativeMap(articleMap) && Filed(t)
      modifies this
      ensures var slugs := Slugs(slug, t.breadcrumbs);
        var name := Name(t.file);
        var loc := ArticlePath(slugs, name);
        && RelativeMap(old(articleMap)[name := loc]) && Relative(loc) && Relative(Location(slugs))
        && articleMap == MapAfter(old(articleMap), name, loc, KindOf(name) == PdfFile)
        && (nav, out) == Dispatch(wsmId, slugs, old(articleMap)[name := loc], old(nav), t, loc)
      ensures RelativeMap(articleMap) && (out.Ok? ==> IsRelativeTo(out.value.path, DocsRoot(wsmId)))
      ensures seen == old(seen) && queue == old(queue) && written == old(written) && failed == old(failed)
    {
      var slugs := Slugs(slug, t.breadcrumbs);
      var name := Name(t.file);
      var loc := ArticlePath(slugs, name);
      FiledRelative(articleMap, slugs, name);
      MapAfterFiles(articleMap, name, loc, KindOf(name) == PdfFile);
      DispatchWrites(wsmId, slugs, articleMap[name := loc], nav, t, loc);
      articleMap := articleMap[name := loc];
      out := Act(t, slugs, loc);
    }

    /** The `match filename.suffix` of `markdownify`, once the article is filed. */
    method Act(t: Task, slugs: seq<string>, loc: string) returns (out: Result<Output>)
      requires Filed(t) && RelativeMap(articleMap) && Relative(loc) && Relative(Location(slugs))
      requires Name(t.file) in articleMap && articleMap[Name(t.file)] == loc
      modifies this
      ensures (nav, out) == Dispatch(wsmId, slugs, old(articleMap), old(nav), t, loc)
      ensures articleMap == if KindOf(Name(t.file)) == PdfFile then old(articleMap)["javascript:Open()" := loc] else old(articleMap)
      ensures seen == old(seen) && queue == old(queue) && written == old(written) && failed == old(failed)
    {
      var name := Name(t.file);
      match KindOf(name) {
        case PageFile =>
          NameComponent(t.file);
          out := HandlePage(t, slugs, loc);
        case ImageFile =>
          NameComponent(t.file);
          out := Ok(Output(OutputPath(wsmId, ImagesDir, name, ".png"), Copy(t.content)));
        case PdfFile =>
          NameComponent(t.file);
          out := HandlePdf(t, loc);
        case OtherFile =>
          out := Err(NotImplemented(FileType(ToString(t.file))));
      }
    }

    /** The `.pdf` case: the file is copied into `pdf` under its own name, and the
        article map sends `javascript:Open()` where that name is filed. */
    method HandlePdf(t: Task, loc: string) returns (out: Result<Output>)
      requires IsComponent(Name(t.file)) && KindOf(Name(t.file)) == PdfFile
      requires Name(t.file) in articleMap && articleMap[Name(t.file)] == loc
      modifies this
      ensures out.Ok? && Name(out.value.path) == Name(t.file) && out.value.data == Copy(t.content)
      ensures out.value.path == PdfPath(wsmId, Name(t.file))
      ensures articleMap == old(articleMap)["javascript:Open()" := loc]
      ensures nav == old(nav) && seen == old(seen) && queue == old(queue)
      ensures written == old(written) && failed == old(failed)
    {
      var path := PdfPath(wsmId, Name(t.file));
      articleMap := articleMap["javascript:Open()" := articleMap[Name(path)]];
      out := Ok(Output(path, Copy(t.content)));
    }

    /** The `.md` case: enter the page in the navigation tree, then convert it with
        `WSMMarkdownConverter`. */
    method HandlePage(t: Task, slugs: seq<string>, loc: string) returns (out: Result<Output>)
      requires |t.breadcrumbs| >= 1 && RelativeMap(articleMap) && IsComponent(Name(t.file))
      requires Relative(Location(slugs)) && Relative(loc)
      requires Name(t.file) in articleMap && articleMap[Name(t.file)] == loc
      modifies this
      ensures (nav, out) == PageAttempt(wsmId, slugs, old(articleMap), old(nav), t, loc)
      ensures articleMap == old(articleMap) && seen == old(seen) && queue == old(queue)
      ensures written == old(written) && failed == old(failed)
    {
      var name := Name(t.file);
      var entered := EnterInNav(t.breadcrumbs, loc, IsMenu(name));
      if entered.Err? {
        return Err(entered.error);
      }
      RelativeMapParses(articleMap, Parent(Parse(loc)));
      AllAnchored(articleMap, Parent(Parse(loc)), t.content.elements);
      var converter := new PageConverter(articleMap, nav, t.breadcrumbs, name);
      var page := converter.ConvertPage(t.content.elements, t.content.body);
      if page.Err? {
        return Err(page.error);
      }
      out := Ok(Output(OutputPath(wsmId, Parse(Location(slugs)), name, ".md"), Markdown(page.value.0, page.value.1)));
    }

    /** The workers draining the queue, one task at a time, until the queue is empty or an
        exception other than `UnseenLinkError` escapes: what was written or given up
        before is kept, and each queued task ends up written or given up under its own
        file name, as often as it was queued. The number of attempts is bounded by the
        queue's weight, so the retries end. */
    method Work() returns (r: Result<()>, attempts: nat)
      requires Valid()
      modifies this
      ensures Valid()
      ensures var d := Drain(wsmId, slug, Drained(old(articleMap), old(nav), old(queue), old(written), old(failed)));
        r == d.0 && Drained(articleMap, nav, queue, written, failed) == d.1
      ensures seen == old(seen)
      ensures attempts <= Weight(old(queue))
      ensures r.Ok? ==> queue == []
      ensures r.Err? ==> !r.error.UnseenLink?
      ensures old(written) <= written && old(failed) <= failed
      ensures r.Ok? ==> |written| - |old(written)| + |failed| - |old(failed)| == |old(queue)|
      ensures r.Ok? ==>
        OutputNames(written[|old(written)|..]) + TaskNames(failed[|old(failed)|..]) == TaskNames(old(queue))
      ensures r.Err? ==>
        OutputNames(written[|old(written)|..]) + TaskNames(failed[|old(failed)|..]) + TaskNames(queue) <= TaskNames(old(queue))
    {
      DrainSettles(wsmId, slug, Drained(articleMap, nav, queue, written, failed));
      DrainSettlesEach(wsmId, slug, Drained(articleMap, nav, queue, written, failed));
      r, attempts := RunAll();
    }

    /** The loop of the workers: the state ends as `Drain` of the state before. */
    method RunAll() returns (r: Result<()>, attempts: nat)
      requires Valid()
      modifies this
      ensures Valid()
      ensures var d := Drain(wsmId, slug, Drained(old(articleMap), old(nav), old(queue), old(written), old(failed)));
        r == d.0 && Drained(articleMap, nav, queue, written, failed) == d.1
      ensures seen == old(seen)
      ensures attempts <= Weight(old(queue))
    {
      ghost var final := Drain(wsmId, slug, Drained(articleMap, nav, queue, written, failed));
      attempts := 0;
      r := Ok(());
      while queue != []
        invariant Valid() && r == Ok(()) && seen == old(seen)
        invariant Drain(wsmId, slug, Drained(articleMap, nav, queue, written, failed)) == final
        invariant attempts + Weight(queue) <= Weight(old(queue))
        decreases Weight(queue)
      {
        ghost var pre := Drained(articleMap, nav, queue, written, failed);
        r := RunNext();
        attempts := attempts + 1;
        DrainTurn(wsmId, slug, pre, (r, Drained(articleMap, nav, queue, written, failed)));
        if r.Err? {
          return;
        }
      }
    }

    /** One turn of a worker: take the first task off the queue and run `markdownify`
        on it. */
    method RunNext() returns (r: Result<()>)
      requires Valid() && queue != []
      modifies this
      ensures Valid() && seen == old(seen)
      ensures (r, Drained(articleMap, nav, queue, written, failed))
        == Turn(wsmId, slug, Drained(old(articleMap), old(nav), old(queue), old(written), old(failed)))
    {
      ghost var pre := Drained(articleMap, nav, queue, written, failed);
      ghost var n := Turn(wsmId, slug, pre);
      var t := queue[0];
      queue := queue[1..];
      r := Markdownify(t);
      assert (r, Drained(articleMap, nav, queue, written, failed)) == n;
    }

    /** `download(url)` up to fetching: the cache file for the URL's path, refused when
        it was seen before (a `None` result) and, once recorded as seen, refused with
        `PermissionError` when it is absolute. */
    method Download(urlPath: string) returns (r: Result<Option<PurePath>>)
      modifies this
      ensures var f := DownloadPath(wsmId, urlPath);
        && (f in old(seen) ==> r == Ok(None))
        && (f !in old(seen) ==> r == if f.absolute then Err(PermissionError) else Ok(Some(f)))
        && seen == old(seen) + {f}
      ensures articleMap == old(articleMap) && nav == old(nav) && queue == old(queue)
      ensures written == old(written) && failed == old(failed)
    {
      var f := DownloadPath(wsmId, urlPath);
      if f in seen {
        return Ok(None);
      }
      seen := seen + {f};
      if f.absolute {
        return Err(PermissionError);
      }
      return Ok(Some(f));
    }
  }
}

=== FILE: grid.dfy ===
/** The cell record and the auto-growing two-dimensional grid of mdconverter.py. */
module Grids {

  /** One grid position. A position is owning when neither flag is set; the flags mark
      positions covered by a span that starts to the left (`spansLeft`) or above (`spansUp`). */
  datatype Cell = Cell(colspan: nat, rowspan: nat, size: nat, text: string, spansLeft: bool, spansUp: bool)
  {
    predicate SpansRight() { colspan > 1 }
    predicate SpansDown() { rowspan > 1 }
  }

  /** `Cell.blank()`, which is also what `Cell.new()` builds. */
  const Blank: Cell := Cell(0, 0, 0, "", false, false)

  type Cells = seq<seq<Cell>>

  /** The shape the grid always has: at least one row, and every row as long as the first. */
  ghost predicate WellFormed(g: Cells) {
    |g| >= 1 && forall i :: 0 <= i < |g| ==> |g[i]| == |g[0]|
  }

  function Width(g: Cells): nat {
    if g == [] then 0 else |g[0]|
  }

  function Max(a: int, b: int): int {
    if a < b then b else a
  }

  /** The cell an access at (r, c) finds: the stored one inside the grid, a blank outside it
      (growing the grid to reach (r, c) creates exactly that blank). */
  function At(g: Cells, r: int, c: int): Cell {
    if 0 <= r < |g| && 0 <= c < |g[r]| then g[r][c] else Blank
  }

  /** The grid after growing to at least `rows` rows and `cols` columns. */
  function Grown(g: Cells, rows: nat, cols: nat): (h: Cells)
    requires WellFormed(g)
    ensures WellFormed(h)
    ensures |h| == Max(|g|, rows) && Width(h) == Max(Width(g), cols)
  {
    seq(Max(|g|, rows), i => seq(Max(Width(g), cols), j => At(g, i, j)))
  }

  /** The grid with position (r, c) replaced by `x`. */
  function Assign(g: Cells, r: nat, c: nat, x: Cell): (h: Cells)
    requires WellFormed(g) && r < |g| && c < Width(g)
    ensures WellFormed(h) && |h| == |g| && Width(h) == Width(g)
  {
    g[r := g[r][c := x]]
  }

  /** Assignment changes position (r, c) and no other. */
  lemma AssignCells(g: Cells, r: nat, c: nat, x: Cell)
    requires WellFormed(g) && r < |g| && c < Width(g)
    ensures var h := Assign(g, r, c, x);
      && h[r][c] == x
      && forall i, j :: 0 <= i < |h| && 0 <= j < Width(h) && (i, j) != (r, c) ==> h[i][j] == g[i][j]
  {
  }

  /** Two grids of the same shape with the same cells are the same grid. */
  lemma SameGrid(a: Cells, b: Cells)
    requires |a| == |b| && forall i :: 0 <= i < |a| ==> |a[i]| == |b[i]|
    requires forall i, j :: 0 <= i < |a| && 0 <= j < |a[i]| ==> a[i][j] == b[i][j]
    ensures a == b
  {
    forall i | 0 <= i < |a| ensures a[i] == b[i] {
    }
  }

  /** Growth keeps every cell where it was and fills the new positions with blanks. */
  lemma GrownCells(g: Cells, rows: nat, cols: nat)
    requires WellFormed(g)
    ensures var h := Grown(g, rows, cols);
      && (forall i, j :: 0 <= i < |g| && 0 <= j < Width(g) ==> h[i][j] == g[i][j])
      && (forall i, j :: 0 <= i < |h| && 0 <= j < Width(h) && !(i < |g| && j < Width(g)) ==> h[i][j] == Blank)
  {
  }

  /** Growth leaves every access where it was: positions it adds read as the blank they held. */
  lemma GrownAt(g: Cells, rows: nat, cols: nat)
    requires WellFormed(g)
    ensures forall i, j :: At(Grown(g, rows, cols), i, j) == At(g, i, j)
  {
  }

  /** Any grid of the grown shape that reads like `g` everywhere is `Grown(g, rows, cols)`. */
  lemma GrownUnique(g: Cells, h: Cells, rows: nat, cols: nat)
    requires WellFormed(g) && WellFormed(h)
    requires |h| == Max(|g|, rows) && Width(h) == Max(Width(g), cols)
    requires forall i, j :: 0 <= i < |h| && 0 <= j < Width(h) ==> h[i][j] == At(g, i, j)
    ensures h == Grown(g, rows, cols)
  {
    SameGrid(h, Grown(g, rows, cols));
  }

  /** Growing twice is growing once to the larger bounds. */
  lemma {:induction false} GrownTwice(g: Cells, r1: nat, c1: nat, r2: nat, c2: nat)
    requires WellFormed(g)
    ensures Grown(Grown(g, r1, c1), r2, c2) == Grown(g, Max(r1, r2), Max(c1, c2))
  {
    var h := Grown(Grown(g, r1, c1), r2, c2);
    GrownAt(g, r1, c1);
    GrownAt(Grown(g, r1, c1), r2, c2);
    GrownUnique(g, h, Max(r1, r2), Max(c1, c2));
  }

  /** Growing to bounds the grid already has changes nothing. */
  lemma {:induction false} GrownNoop(g: Cells, rows: nat, cols: nat)
    requires WellFormed(g) && rows <= |g| && cols <= Width(g)
    ensures Grown(g, rows, cols) == g
  {
    SameGrid(g, Grown(g, rows, cols));
  }

  /** `Grid`: `_cells` is a list of rows that the methods below update in place. */
  class Grid {
    var cells: Cells

    ghost predicate Valid()
      reads this
    {
      WellFormed(cells)
    }

    /** A new grid holds one empty row. */
    constructor ()
      ensures Valid() && cells == [[]]
    {
      cells := [[]];
    }

    /** `row_count`: never zero. */
    function RowCount(): (n: nat)
      reads this
      requires Valid()
      ensures n >= 1
    {
      |cells|
    }

    /** `col_count`: the length of the first row, which is the length of every row. */
    function ColCount(): (n: nat)
      reads this
      requires Valid()
      ensures forall i :: 0 <= i < |cells| ==> |cells[i]| == n
    {
      |cells[0]|
    }

    /** `empty`: the grid has no columns at all. */
    function IsEmpty(): (b: bool)
      reads this
      requires Valid()
      ensures b <==> forall i :: 0 <= i < |cells| ==> cells[i] == []
    {
      |cells| == 0 || |cells[0]| == 0
    }

    /** `_add_column`: every row gets one more blank cell. */
    method AddColumn()
      requires Valid()
      modifies this
      ensures Valid()
      ensures cells == Grown(old(cells), 0, old(ColCount()) + 1)
    {
      var i := 0;
      while i < |cells|
        invariant 0 <= i <= |cells| == |old(cells)|
        invariant forall k :: 0 <= k < i ==> cells[k] == old(cells)[k] + [Blank]
        invariant forall k :: i <= k < |cells| ==> cells[k] == old(cells)[k]
      {
        cells := cells[i := cells[i] + [Blank]];
        i := i + 1;
      }
      SameGrid(cells, Grown(old(cells), 0, Width(old(cells)) + 1));
    }

    /** `_add_row`: a new last row of blanks, as wide as the others. */
    method AddRow()
      requires Valid()
      modifies this
      ensures Valid()
      ensures cells == Grown(old(cells), old(RowCount()) + 1, 0)
    {
      cells := cells + [seq(ColCount(), _ => Blank)];
      SameGrid(cells, Grown(old(cells), |old(cells)| + 1, 0));
    }

    /** The two `while` loops that open both `cell` and `set`: add rows, then columns,
        until (row, col) lies inside the grid. */
    method Reach(row: nat, col: nat)
      requires Valid()
      modifies this
      ensures Valid()
      ensures cells == Grown(old(cells), row + 1, col + 1)
    {
      AddRowsTo(row);
      AddColumnsTo(col);
      GrownTwice(old(cells), row + 1, 0, 0, col + 1);
    }

    /** The first of those loops: rows are added until row `row` exists. */
    method AddRowsTo(row: nat)
      requires Valid()
      modifies this
      ensures Valid()
      ensures cells == Grown(old(cells), row + 1, 0)
    {
      GrownNoop(cells, |cells|, 0);
      while row >= |cells|
        invariant Valid() && cells == Grown(old(cells), |cells|, 0)
        invariant |cells| <= Max(|old(cells)|, row + 1)
        decreases row - |cells|
      {
        ghost var before := cells;
        AddRow();
        GrownTwice(old(cells), |before|, 0, |before| + 1, 0);
      }
      GrownAt(old(cells), |cells|, 0);
      GrownUnique(old(cells), cells, row + 1, 0);
    }

    /** The second of those loops: columns are added until column `col` exists. */
    method AddColumnsTo(col: nat)
      requires Valid()
      modifies this
      ensures Valid()
      ensures cells == Grown(old(cells), 0, col + 1)
    {
      GrownNoop(cells, 0, Width(cells));
      while col >= ColCount()
        invariant Valid() && cells == Grown(old(cells), 0, Width(cells))
        invariant Width(cells) <= Max(Width(old(cells)), col + 1)
        decreases col - Width(cells)
      {
        ghost var before := cells;
        AddColumn();
        GrownTwice(old(cells), 0, Width(before), 0, Width(before) + 1);
      }
      GrownAt(old(cells), 0, Width(cells));
      GrownUnique(old(cells), cells, 0, col + 1);
    }

    /** `cell(row, col)`: grows the grid to reach (row, col) and returns what is there. */
    method CellAt(row: nat, col: nat) returns (x: Cell)
      requires Valid()
      modifies this
      ensures Valid()
      ensures cells == Grown(old(cells), row + 1, col + 1)
      ensures x == At(old(cells), row, col)
      ensures row < |old(cells)| && col < Width(old(cells)) ==> cells == old(cells)
    {
      Reach(row, col);
      x := cells[row][col];
      if row < |old(cells)| && col < Width(old(cells)) {
        GrownNoop(old(cells), row + 1, col + 1);
      }
    }

    /** `set(row, col, cell)`: grows the grid to reach (row, col) and stores `x` there. */
    method Set(row: nat, col: nat, x: Cell)
      requires Valid()
      modifies this
      ensures Valid()
      ensures cells == Assign(Grown(old(cells), row + 1, col + 1), row, col, x)
    {
      Reach(row, col);
      cells := cells[row := cells[row][col := x]];
    }
  }
}

=== FILE: links.dfy ===
/** What `WSMMarkdownConverter` adds to the table converter in main.py: links between
    pages rewritten as relative paths, image sources pointed at the shared `images/`
    directory, and the breadcrumb header above every page. */
module Links {
  import opened Wrappers
  import opened Text
  import opened Paths
  import opened Navigation
  import opened Tables

  // ---------------------------------------------------------------------------
  // Href normalisation

  /** `href.lstrip('.').lstrip('/')`: a leading run of dots, then a leading run of slashes,
      removed. */
  function Trimmed(href: string): (r: string)
    ensures |r| <= |href| && r == href[|href| - |r|..]
    ensures r == [] || r[0] != '/'
  {
    var dots := LeadingCount(href, '.');
    var slashes := LeadingCount(href[dots..], '/');
    assert slashes < |href[dots..]| ==> href[dots + slashes] == href[dots..][slashes];
    href[dots + slashes..]
  }

  /** What the trimming removes is dots and slashes only. */
  lemma TrimmedRemoves(href: string)
    ensures forall i :: 0 <= i < |href| - |Trimmed(href)| ==> href[i] == '.' || href[i] == '/'
  {
    var dots := LeadingCount(href, '.');
    var slashes := LeadingCount(href[dots..], '/');
    forall i | dots <= i < dots + slashes
      ensures href[i] == '/'
    {
      assert href[i] == href[dots..][i - dots];
    }
  }

  /** The fragment the link keeps: `#` and the piece between the first and the second `#`,
      or nothing when there is no `#`. */
  function Fragment(h: string): string {
    if '#' in h then "#" + Split(h, '#')[1] else ""
  }

  /** The article-map key of a link: the piece before the first `#`, with every `.html`
      turned into `.md`. */
  function LinkKey(h: string): string {
    ReplaceAll(Split(h, '#')[0], ".html", ".md")
  }

  /** A link `base#frag…` names the key of `base` and keeps `#frag`, whatever follows a
      second `#`. */
  lemma HrefWithFragment(base: string, frag: string, rest: string)
    requires '#' !in base && '#' !in frag
    requires rest == [] || rest[0] == '#'
    ensures LinkKey(base + "#" + frag + rest) == ReplaceAll(base, ".html", ".md")
    ensures Fragment(base + "#" + frag + rest) == "#" + frag
  {
    var h := base + "#" + frag + rest;
    assert h == base + ['#'] + (frag + rest);
    SplitHead(base, '#', frag + rest);
    assert h[|base|] == '#';
    SplitPrefix(frag, rest);
    assert Split(rest, '#')[0] == [];
    assert frag + [] == frag;
    assert Split(h, '#')[0] == base && Split(h, '#')[1] == frag;
  }

  /** The first piece of a split of `x + y` starts with the separator-free `x`. */
  lemma {:induction false} SplitPrefix(x: string, y: string)
    requires '#' !in x
    ensures Split(x + y, '#')[0] == x + Split(y, '#')[0]
  {
    if x != [] {
      assert (x + y)[1..] == x[1..] + y;
      SplitPrefix(x[1..], y);
    } else {
      assert x + y == y;
    }
  }

  /** A link without `#` keeps no fragment and names its whole text, `.html` mapped. */
  lemma HrefWithoutFragment(h: string)
    requires '#' !in h
    ensures LinkKey(h) == ReplaceAll(h, ".html", ".md") && Fragment(h) == ""
  {
    SplitNoSep(h, '#');
  }

  // ---------------------------------------------------------------------------
  // The relative path between two pages

  /** How many leading components `a` and `b` share. */
  function CommonPrefix(a: seq<string>, b: seq<string>): (n: nat)
    ensures n <= |a| && n <= |b| && a[..n] == b[..n]
    ensures n < |a| && n < |b| ==> a[n] != b[n]
  {
    if a == [] || b == [] || a[0] != b[0] then 0
    else
      var n := 1 + CommonPrefix(a[1..], b[1..]);
      assert a[..n] == [a[0]] + a[1..][..n - 1];
      assert b[..n] == [b[0]] + b[1..][..n - 1];
      n
  }

  /** `dir` with its last `n` components dropped. */
  function Ancestor(dir: PurePath, n: nat): (a: PurePath)
    requires n <= |dir.parts|
    ensures a.absolute == dir.absolute && |a.parts| == |dir.parts| - n
  {
    PurePath(dir.absolute, dir.parts[..|dir.parts| - n])
  }

  /** How many levels a link from `dir` climbs before it can descend to `target`: the depth
      of `dir` below the deepest directory the two share. */
  function Climbs(dir: PurePath, target: PurePath): (n: nat)
    ensures n <= |dir.parts|
  {
    |dir.parts| - CommonPrefix(dir.parts, target.parts)
  }

  /** `target` lies under the `n`-th ancestor of `dir` exactly when `n` is at least
      `Climbs(dir, target)`: fewer climbs never reach a directory above the target,
      and every ancestor from there on is one. */
  lemma ClimbsExact(dir: PurePath, target: PurePath, n: nat)
    requires dir.absolute == target.absolute && n <= |dir.parts|
    ensures IsRelativeTo(target, Ancestor(dir, n)) <==> n >= Climbs(dir, target)
  {
    var c := CommonPrefix(dir.parts, target.parts);
    var m := |dir.parts| - n;
    if m <= c {
      assert dir.parts[..m] == dir.parts[..c][..m];
      assert target.parts[..m] == target.parts[..c][..m];
    } else if c < |target.parts| {
      assert dir.parts[..m][c] != target.parts[c];
    }
  }

  /** One more step of the walk is the next ancestor. */
  lemma AncestorParent(dir: PurePath, n: nat)
    requires n < |dir.parts|
    ensures Parent(Ancestor(dir, n)) == Ancestor(dir, n + 1)
  {
    assert dir.parts[..|dir.parts| - n][..|dir.parts| - n - 1] == dir.parts[..|dir.parts| - (n + 1)];
  }

  /** The link the walk produces: one `../` per climb, then the target below the ancestor
      reached, then the fragment. */
  function LinkHref(dir: PurePath, target: PurePath, fragment: string): string
    requires dir.absolute == target.absolute
  {
    var c := Climbs(dir, target);
    ClimbsExact(dir, target, c);
    Repeat("../", c) + ToString(RelativeTo(target, Ancestor(dir, c))) + fragment
  }

  /** The `while` loop of `convert_a` (with the string it assigns to `href`): climb from the
      page's directory, one `../` at a time, until the target lies below. */
  method RelativeHref(dir: PurePath, target: PurePath, fragment: string) returns (href: string)
    requires dir.absolute == target.absolute
    ensures href == LinkHref(dir, target, fragment)
  {
    var prefix := "";
    var path := dir;
    ghost var n := 0;
    ClimbsExact(dir, target, 0);
    while !IsRelativeTo(target, path)
      invariant n <= Climbs(dir, target)
      invariant path == Ancestor(dir, n) && prefix == Repeat("../", n)
      decreases |path.parts|
    {
      ClimbsExact(dir, target, n);
      AncestorParent(dir, n);
      RepeatSnoc("../", n);
      prefix := prefix + "../";
      path := Parent(path);
      n := n + 1;
    }
    ClimbsExact(dir, target, n);
    href := prefix + ToString(RelativeTo(target, path)) + fragment;
  }

  lemma {:induction false} RepeatSnoc(s: string, n: nat)
    ensures Repeat(s, n) + s == Repeat(s, n + 1)
  {
    if n > 0 {
      RepeatSnoc(s, n - 1);
    }
  }

  /** The link reaches its target: a reader in `dir` who follows the link (without its
      fragment) component by component lands on `target`. */
  lemma LinkReaches(dir: PurePath, target: PurePath)
    requires dir.absolute == target.absolute && Normal(target)
    requires forall i :: 0 <= i < |target.parts| ==> target.parts[i] != ".."
    ensures Follow(dir.parts, Parse(LinkHref(dir, target, "")).parts) == target.parts
  {
    LinkParts(dir, target);
    FollowFromCommon(dir.parts, target.parts, CommonPrefix(dir.parts, target.parts));
  }

  /** The components of a link: `..` once per climb, then the target's components below
      the ancestor reached. */
  lemma LinkParts(dir: PurePath, target: PurePath)
    requires dir.absolute == target.absolute && Normal(target)
    ensures Parse(LinkHref(dir, target, "")).parts
      == Ups(Climbs(dir, target)) + target.parts[CommonPrefix(dir.parts, target.parts)..]
  {
    var c := Climbs(dir, target);
    ClimbsExact(dir, target, c);
    var rel := RelativeTo(target, Ancestor(dir, c));
    assert Normal(rel) by {
      assert rel.parts == target.parts[|Ancestor(dir, c).parts|..];
    }
    assert LinkHref(dir, target, "") == Repeat("../", c) + ToString(rel);
    ParseUpsThen(c, rel);
  }

  /** The link climbs no further than it must: every smaller number of `../` leaves the
      target outside the directory reached. */
  lemma LinkShortest(dir: PurePath, target: PurePath, n: nat)
    requires dir.absolute == target.absolute && n < Climbs(dir, target)
    ensures !IsRelativeTo(target, Ancestor(dir, n))
  {
    ClimbsExact(dir, target, n);
  }

  // ---------------------------------------------------------------------------
  // The walk as written, when the two paths are anchored differently

  /** The directory the walk of `convert_a` has reached after `n` iterations. */
  function Climbed(dir: PurePath, n: nat): (p: PurePath)
    ensures p.absolute == dir.absolute
  {
    if n == 0 then dir else Parent(Climbed(dir, n - 1))
  }

  /** The walk's directories are the ancestors of `dir`, and once the components run out
      it stays where it is (at the root or at `.`). */
  lemma {:induction false} ClimbedAncestor(dir: PurePath, n: nat)
    ensures n <= |dir.parts| ==> Climbed(dir, n) == Ancestor(dir, n)
    ensures n > |dir.parts| ==> Climbed(dir, n) == PurePath(dir.absolute, [])
  {
    if n > 0 {
      ClimbedAncestor(dir, n - 1);
      if n <= |dir.parts| {
        AncestorParent(dir, n - 1);
      } else if n - 1 == |dir.parts| {
        assert dir.parts[..0] == [];
      }
    }
  }

  /** A target anchored differently from the page's directory (an absolute location seen
      from a relative directory, or the reverse) never lies under any directory the walk
      reaches: the loop at main.py:77 never ends. */
  lemma {:induction false} WalkNeverEnds(dir: PurePath, target: PurePath, n: nat)
    requires dir.absolute != target.absolute
    ensures !IsRelativeTo(target, Climbed(dir, n))
  {
    if n > 0 {
      WalkNeverEnds(dir, target, n - 1);
    }
  }

  // ---------------------------------------------------------------------------
  // Images

  /** The `src` `convert_img` writes: one `../` per part of the page's directory, then
      the image's file name inside `images/`. */
  function ImageSrc(dir: PurePath, src: string): string {
    Repeat("../", PartCount(dir)) + "images/" + Name(Parse(src))
  }

  /** `convert_img` on the element's attributes: a non-empty `src` is replaced. */
  function ImageAttrs(dir: PurePath, attrs: map<string, string>): (r: map<string, string>)
    ensures HasValue(attrs, "src") ==> r == attrs["src" := ImageSrc(dir, attrs["src"])]
    ensures !HasValue(attrs, "src") ==> r == attrs
  {
    if HasValue(attrs, "src") then attrs["src" := ImageSrc(dir, attrs["src"])] else attrs
  }

  /** From a page in a relative directory, the image path leads to `images/<name>` at the
      top of the documentation tree. */
  lemma ImageReaches(dir: PurePath, src: string)
    requires !dir.absolute
    requires Name(Parse(src)) != [] && Name(Parse(src)) != ".."
    ensures Follow(dir.parts, Parse(ImageSrc(dir, src)).parts) == ["images", Name(Parse(src))]
  {
    var name := Name(Parse(src));
    var p := Parse(src);
    assert name == p.parts[|p.parts| - 1];
    var r := PurePath(false, ["images", name]);
    assert Normal(r);
    assert ["images", name][1..] == [name] && Join([name], '/') == name;
    assert ToString(r) == "images" + ['/'] + name;
    assert ImageSrc(dir, src) == Repeat("../", |dir.parts|) + ToString(r);
    ParseUpsThen(|dir.parts|, r);
    FollowUps([], dir.parts, r.parts);
    assert [] + dir.parts == dir.parts;
  }

  // ---------------------------------------------------------------------------
  // The breadcrumb header

  /** The separator between the breadcrumb links. */
  const Arrow: string := " \U{27AD} "

  /** `leaf[part]`: a string cannot be indexed by a string, a missing key is a `KeyError`. */
  function Step(node: Nav, part: string): (r: Result<Nav>)
    ensures r.Ok? <==> Lookup(node, [part]).Some?
    ensures r.Ok? ==> Lookup(node, [part]) == Some(r.value)
  {
    match node
    case Leaf(_) => Err(TypeError)
    case Group(es) =>
      match Find(es, part)
      case None => Err(KeyError(part))
      case Some(c) => assert [part][1..] == []; Ok(c)
  }

  /** What a breadcrumb links to: a page's location, or the `INDEX` location of a group. */
  function TargetOf(node: Nav): (r: Result<string>)
    ensures node.Leaf? ==> r == Ok(node.loc)
    ensures node.Group? && Find(node.entries, "INDEX").None? ==> r == Err(UnseenLink(None))
  {
    match node
    case Leaf(s) => Ok(s)
    case Group(es) =>
      match Find(es, "INDEX")
      case None => Err(UnseenLink(None))
      case Some(Leaf(s)) => Ok(s)
      case Some(Group(_)) => Err(TypeError)
  }

  /** One breadcrumb link. */
  function Crumb(part: string, depth: nat, target: string): string {
    "[" + part + "](" + Repeat("../", depth) + target + ")"
  }

  /** The links of the breadcrumbs `bc` below `node`, or the error the first one that
      fails raises. */
  function Crumbs(node: Nav, bc: seq<string>, depth: nat): Result<seq<string>>
    decreases |bc|
  {
    if bc == [] then Ok([])
    else
      var step :- CrumbStep(node, bc[0], depth);
      var rest :- Crumbs(step.0, bc[1..], depth);
      Ok([step.1] + rest)
  }

  /** One breadcrumb: the node it reaches and its link. */
  function CrumbStep(node: Nav, part: string, depth: nat): Result<(Nav, string)> {
    var child :- Step(node, part);
    var target :- TargetOf(child);
    Ok((child, Crumb(part, depth, target)))
  }

  /** `links + rest` when the rest succeeds. */
  function Prepend(links: seq<string>, r: Result<seq<string>>): Result<seq<string>> {
    match r
    case Ok(rest) => Ok(links + rest)
    case Err(e) => Err(e)
  }

  lemma PrependNothing(r: Result<seq<string>>)
    ensures Prepend([], r) == r
  {
    if r.Ok? {
      assert [] + r.value == r.value;
    }
  }

  lemma PrependStep(links: seq<string>, link: string, r: Result<seq<string>>)
    ensures Prepend(links, Prepend([link], r)) == Prepend(links + [link], r)
  {
    if r.Ok? {
      assert links + ([link] + r.value) == (links + [link]) + r.value;
    }
  }

  /** `sep.join(items)`. */
  function JoinWith(items: seq<string>, sep: string): string {
    if |items| == 0 then []
    else if |items| == 1 then items[0]
    else items[0] + sep + JoinWith(items[1..], sep)
  }

  /** What the loop of `convert` accumulates in `title`: `sep + link` for each link. */
  function Titled(items: seq<string>, sep: string): string {
    if items == [] then [] else Titled(items[..|items| - 1], sep) + sep + items[|items| - 1]
  }

  /** `s.removeprefix(p)`. */
  function RemovePrefix(s: string, p: string): string {
    if StartsWith(s, p) then s[|p|..] else s
  }

  lemma {:induction false} JoinWithSnoc(items: seq<string>, sep: string, x: string)
    requires items != []
    ensures JoinWith(items + [x], sep) == JoinWith(items, sep) + sep + x
  {
    if |items| > 1 {
      assert (items + [x])[1..] == items[1..] + [x];
      JoinWithSnoc(items[1..], sep, x);
    }
  }

  /** The accumulated title is the separator followed by the links joined by it. */
  lemma {:induction false} TitledJoin(items: seq<string>, sep: string)
    requires items != []
    ensures Titled(items, sep) == sep + JoinWith(items, sep)
  {
    var init := items[..|items| - 1];
    var last := items[|items| - 1];
    assert init + [last] == items;
    assert Titled(items, sep) == Titled(init, sep) + sep + last;
    if init != [] {
      TitledJoin(init, sep);
      JoinWithSnoc(init, sep, last);
    } else {
      assert Titled(init, sep) == [] && JoinWith(items, sep) == last;
    }
  }

  /** Stripping the leading separator from the accumulated title leaves the links joined
      by the separator. */
  lemma TitledJoined(items: seq<string>, sep: string)
    ensures RemovePrefix(Titled(items, sep), sep) == JoinWith(items, sep)
  {
    if items != [] {
      TitledJoin(items, sep);
      var j := JoinWith(items, sep);
      assert (sep + j)[..|sep|] == sep && (sep + j)[|sep|..] == j;
    }
  }

  /** The page `convert` returns: the header, a blank line, then the body. */
  function HeaderOf(nav: Nav, bc: seq<string>, body: string): Result<string> {
    match Crumbs(nav, bc, |bc|)
    case Err(e) => Err(e)
    case Ok(links) => Ok(JoinWith(links, Arrow) + "\n\n" + body)
  }

  /** The breadcrumb prefix `path` reaches a node that has a target. */
  predicate HasTarget(node: Nav, path: seq<string>) {
    Lookup(node, path).Some? && TargetOf(Lookup(node, path).value).Ok?
  }

  /** Looking up a breadcrumb prefix is taking the first step, then looking up the rest. */
  lemma LookupFirst(node: Nav, bc: seq<string>, i: nat)
    requires i < |bc| && Step(node, bc[0]).Ok?
    ensures Lookup(node, bc[..i + 1]) == Lookup(Step(node, bc[0]).value, bc[1..][..i])
  {
    var p := bc[..i + 1];
    assert p[0] == bc[0] && p[1..] == bc[1..][..i];
  }

  /** The links succeed exactly when every breadcrumb prefix reaches a node that has a
      target; then there is one link per breadcrumb, naming that breadcrumb and climbing
      `depth` levels to the node's target. */
  lemma {:induction false} CrumbsLinks(node: Nav, bc: seq<string>, depth: nat)
    ensures Crumbs(node, bc, depth).Ok? <==> forall n :: 1 <= n <= |bc| ==> HasTarget(node, bc[..n])
    ensures Crumbs(node, bc, depth).Ok? ==>
      var links := Crumbs(node, bc, depth).value;
      |links| == |bc| &&
      forall i :: 0 <= i < |bc| ==> links[i] == Crumb(bc[i], depth, TargetOf(Lookup(node, bc[..i + 1]).value).value)
    decreases |bc|
  {
    if bc != [] {
      var s := Step(node, bc[0]);
      assert bc[..1] == [bc[0]];
      if s.Ok? {
        var child := s.value;
        CrumbsLinks(child, bc[1..], depth);
        forall n | 1 <= n <= |bc|
          ensures Lookup(node, bc[..n]) == Lookup(child, bc[1..][..n - 1])
        {
          LookupFirst(node, bc, n - 1);
        }
        assert HasTarget(node, bc[..1]) <==> TargetOf(child).Ok?;
        var t := TargetOf(child);
        var rest := Crumbs(child, bc[1..], depth);
        if t.Ok? && rest.Ok? {
          var links := Crumbs(node, bc, depth).value;
          assert links == [Crumb(bc[0], depth, t.value)] + rest.value;
          forall i | 1 <= i < |bc|
            ensures links[i] == Crumb(bc[i], depth, TargetOf(Lookup(node, bc[..i + 1]).value).value)
          {
            assert links[i] == rest.value[i - 1] && bc[i] == bc[1..][i - 1];
            assert Lookup(node, bc[..i + 1]) == Lookup(child, bc[1..][..i]);
          }
          forall n | 1 <= n <= |bc|
            ensures HasTarget(node, bc[..n])
          {
            if n > 1 {
              assert HasTarget(child, bc[1..][..n - 1]);
            }
          }
        } else if t.Ok? {
          var m :| 1 <= m <= |bc[1..]| && !HasTarget(child, bc[1..][..m]);
          assert !HasTarget(node, bc[..m + 1]);
        }
      }
    }
  }

  /** A breadcrumb whose node is a group without `INDEX`, reached by breadcrumbs that all
      have targets, makes the header raise `UnseenLinkError()`. */
  lemma {:induction false} CrumbsUnseen(node: Nav, bc: seq<string>, depth: nat, k: nat)
    requires 1 <= k <= |bc|
    requires forall n :: 1 <= n < k ==> HasTarget(node, bc[..n])
    requires IsGroupAt(node, bc[..k]) && Find(Lookup(node, bc[..k]).value.entries, "INDEX").None?
    ensures Crumbs(node, bc, depth) == Err(UnseenLink(None))
    decreases |bc|
  {
    var s := Step(node, bc[0]);
    assert bc[..1] == [bc[0]];
    if k == 1 {
      assert s.Ok?;
    } else {
      assert HasTarget(node, bc[..1]);
      var child := s.value;
      forall n | 1 <= n <= k
        ensures Lookup(node, bc[..n]) == Lookup(child, bc[1..][..n - 1])
      {
        LookupFirst(node, bc, n - 1);
      }
      forall m | 1 <= m < k - 1
        ensures HasTarget(child, bc[1..][..m])
      {
        assert HasTarget(node, bc[..m + 1]);
      }
      CrumbsUnseen(child, bc[1..], depth, k - 1);
    }
  }

  // ---------------------------------------------------------------------------
  // The page converter

  /** What the converter is given of an element: an `<a>` with its attributes, its text
      and the siblings that follow it, or an `<img>` with its attributes. */
  datatype Element = Anchor(attrs: map<string, string>, text: string, sibs: seq<Sibling>) | Image(attrs: map<string, string>)

  /** The converter's effect on an element: its attributes as rewritten, and for an
      anchor what the table converter's `convert_a` made of it. */
  datatype Converted = Link(attrs: map<string, string>, out: AnchorOutput) | Picture(attrs: map<string, string>)

  /** The article a link names, when the map holds it, is anchored like `dir` (both
      absolute or both relative): only then does the climb of `convert_a` end. */
  ghost predicate LinkAnchored(articleMap: map<string, string>, dir: PurePath, attrs: map<string, string>) {
    HasValue(attrs, "href") && attrs["href"][0] != '#' ==>
      var k := LinkKey(Trimmed(attrs["href"]));
      k in articleMap ==> Parse(articleMap[k]).absolute == dir.absolute
  }

  /** `WSMMarkdownConverter.convert_a` on the element's attributes: a link to another
      article (not a `#` link) is looked up and rewritten relative to `dir`, a key not in
      the article map raises `UnseenLinkError(key)`; a named anchor is handed on wrapped in
      `<a name=…>`; an anchor with neither raises `NotImplementedError`. */
  function AnchorOf(articleMap: map<string, string>, dir: PurePath, attrs: map<string, string>, text: string, sibs: seq<Sibling>): Result<Converted>
    requires LinkAnchored(articleMap, dir, attrs)
  {
    if HasValue(attrs, "href") then
      var href := attrs["href"];
      var rewritten :- if href[0] == '#' then Ok(attrs) else RewriteHref(articleMap, dir, attrs);
      var out :- TableAnchor(rewritten, text, sibs);
      Ok(Link(rewritten, out))
    else if HasValue(attrs, "name") then
      var out :- TableAnchor(attrs, "<a name=\"" + attrs["name"] + "\"></a>" + text, sibs);
      Ok(Link(attrs, out))
    else Err(NotImplemented(BareAnchor))
  }

  /** The attributes with `href` rewritten relative to `dir`, or `UnseenLinkError(key)`
      when the article map does not hold the key. */
  function RewriteHref(articleMap: map<string, string>, dir: PurePath, attrs: map<string, string>): (r: Result<map<string, string>>)
    requires "href" in attrs
    requires var k := LinkKey(Trimmed(attrs["href"])); k in articleMap ==> Parse(articleMap[k]).absolute == dir.absolute
    ensures r.Ok? <==> LinkKey(Trimmed(attrs["href"])) in articleMap
    ensures r.Err? ==> r.error == UnseenLink(Some(LinkKey(Trimmed(attrs["href"]))))
    ensures r.Ok? ==> HasValue(r.value, "href") && r.value.Keys == attrs.Keys
    ensures r.Ok? ==> forall k :: k in attrs && k != "href" ==> r.value[k] == attrs[k]
    ensures r.Ok? ==>
      var h := Trimmed(attrs["href"]);
      r.value["href"] == LinkHref(dir, Parse(articleMap[LinkKey(h)]), Fragment(h))
  {
    var h := Trimmed(attrs["href"]);
    var key := LinkKey(h);
    if key in articleMap then
      LinkNonEmpty(dir, Parse(articleMap[key]), Fragment(h));
      Ok(attrs["href" := LinkHref(dir, Parse(articleMap[key]), Fragment(h))])
    else Err(UnseenLink(Some(key)))
  }

  /** A link to a known article is rewritten (as `RewriteHref` states), and the base
      converter is handed the anchor's own text. */
  lemma AnchorRewrites(articleMap: map<string, string>, dir: PurePath, attrs: map<string, string>, text: string, sibs: seq<Sibling>)
    requires HasValue(attrs, "href") && attrs["href"][0] != '#' && LinkAnchored(articleMap, dir, attrs)
    requires RewriteHref(articleMap, dir, attrs).Ok?
    ensures AnchorOf(articleMap, dir, attrs, text, sibs) == Ok(Link(RewriteHref(articleMap, dir, attrs).value, Delegate(text)))
  {
    LinkDelegates(RewriteHref(articleMap, dir, attrs).value, text, sibs);
  }

  /** The table converter hands a link's own text to the base converter. */
  lemma LinkDelegates(attrs: map<string, string>, text: string, sibs: seq<Sibling>)
    requires HasValue(attrs, "href")
    ensures TableAnchor(attrs, text, sibs) == Ok(Delegate(text))
  {
  }

  lemma LinkNonEmpty(dir: PurePath, target: PurePath, fragment: string)
    requires dir.absolute == target.absolute && Normal(target)
    ensures LinkHref(dir, target, fragment) != []
  {
    var c := Climbs(dir, target);
    ClimbsExact(dir, target, c);
    var t := ToString(RelativeTo(target, Ancestor(dir, c)));
    assert |Repeat("../", c) + t + fragment| >= |t| > 0;
  }

  /** The errors of `convert_a`: an unknown article raises `UnseenLinkError` naming its key,
      an anchor with neither `href` nor `name` raises `NotImplementedError`, and nothing
      else fails. */
  lemma AnchorErrors(articleMap: map<string, string>, dir: PurePath, attrs: map<string, string>, text: string, sibs: seq<Sibling>)
    requires LinkAnchored(articleMap, dir, attrs)
    ensures var r := AnchorOf(articleMap, dir, attrs, text, sibs);
      r.Err? <==>
        || (HasValue(attrs, "href") && attrs["href"][0] != '#' && LinkKey(Trimmed(attrs["href"])) !in articleMap)
        || (!HasValue(attrs, "href") && !HasValue(attrs, "name"))
    ensures var r := AnchorOf(articleMap, dir, attrs, text, sibs);
      r.Err? ==> if HasValue(attrs, "href") then r.error == UnseenLink(Some(LinkKey(Trimmed(attrs["href"])))) else r.error == NotImplemented(BareAnchor)
  {
    if HasValue(attrs, "href") {
      var href := attrs["href"];
      if href[0] != '#' {
        var h := Trimmed(href);
        if LinkKey(h) in articleMap {
          AnchorRewrites(articleMap, dir, attrs, text, sibs);
        }
      }
    } else if HasValue(attrs, "name") {
      NameAnchorIgnoresText(attrs, "<a name=\"" + attrs["name"] + "\"></a>" + text, text, sibs);
    }
  }

  /** `WSMMarkdownConverter`: the article map, the navigation tree and the page's
      breadcrumbs and file name, and the directory of the page's own location. */
  class PageConverter {
    const articleMap: map<string, string>
    const nav: Nav
    const breadcrumbs: seq<string>
    const filename: string
    const path: PurePath
    const tables: TableConverter

    /** `__init__`: the page's directory is the parent of its own location. */
    constructor (articleMap: map<string, string>, nav: Nav, breadcrumbs: seq<string>, filename: string)
      requires filename in articleMap
      ensures this.articleMap == articleMap && this.nav == nav && this.breadcrumbs == breadcrumbs && this.filename == filename
      ensures path == Parent(Parse(articleMap[filename]))
      ensures fresh(tables)
    {
      this.articleMap := articleMap;
      this.nav := nav;
      this.breadcrumbs := breadcrumbs;
      this.filename := filename;
      this.path := Parent(Parse(articleMap[filename]));
      this.tables := new TableConverter();
    }

    /** `convert_a`. */
    method ConvertAnchor(attrs: map<string, string>, text: string, sibs: seq<Sibling>) returns (r: Result<Converted>)
      requires LinkAnchored(articleMap, path, attrs)
      ensures r == AnchorOf(articleMap, path, attrs, text, sibs)
    {
      var newAttrs := attrs;
      var passed := text;
      if HasValue(attrs, "href") {
        var href := attrs["href"];
        if href[0] != '#' {
          href := Trimmed(href);
          var fragment := Fragment(href);
          var key := LinkKey(href);
          if key in articleMap {
            var link := RelativeHref(path, Parse(articleMap[key]), fragment);
            newAttrs := attrs["href" := link];
          } else {
            return Err(UnseenLink(Some(key)));
          }
        }
      } else if HasValue(attrs, "name") {
        passed := "<a name=\"" + attrs["name"] + "\"></a>" + text;
      } else {
        return Err(NotImplemented(BareAnchor));
      }
      var out := tables.ConvertAnchor(newAttrs, passed, sibs);
      if out.Err? {
        return Err(out.error);
      }
      return Ok(Link(newAttrs, out.value));
    }

    /** `convert_img`. */
    function ConvertImage(attrs: map<string, string>): (r: map<string, string>)
      ensures r.Keys == attrs.Keys
      ensures HasValue(attrs, "src") ==> r["src"] == ImageSrc(path, attrs["src"])
      ensures forall k :: k in attrs && k != "src" ==> r[k] == attrs[k]
    {
      ImageAttrs(path, attrs)
    }

    /** `convert`: the header built while descending `nav` along the breadcrumbs, then the
        body the base converter renders. */
    method Convert(body: string) returns (r: Result<string>)
      ensures r == HeaderOf(nav, breadcrumbs, body)
    {
      var title := "";
      var leaf := nav;
      var parents := |breadcrumbs|;
      ghost var links: seq<string> := [];
      assert breadcrumbs[0..] == breadcrumbs;
      PrependNothing(Crumbs(nav, breadcrumbs, parents));
      for i := 0 to |breadcrumbs|
        invariant Crumbs(nav, breadcrumbs, parents) == Prepend(links, Crumbs(leaf, breadcrumbs[i..], parents))
        invariant title == Titled(links, Arrow)
      {
        var part := breadcrumbs[i];
        assert breadcrumbs[i..][0] == part && breadcrumbs[i..][1..] == breadcrumbs[i + 1..];
        ghost var rest := Crumbs(leaf, breadcrumbs[i..], parents);
        var step := Descend(leaf, part, parents);
        if step.Err? {
          return Err(step.error);
        }
        var link;
        leaf, link := step.value.0, step.value.1;
        assert rest == Prepend([link], Crumbs(leaf, breadcrumbs[i + 1..], parents));
        PrependStep(links, link, Crumbs(leaf, breadcrumbs[i + 1..], parents));
        title := title + Arrow + link;
        links := links + [link];
      }
      assert breadcrumbs[|breadcrumbs|..] == [] && links + [] == links;
      TitledJoined(links, Arrow);
      return Ok(RemovePrefix(title, Arrow) + "\n\n" + body);
    }

    /** The body of the loop of `convert` for one breadcrumb: `leaf = leaf[part]`, then
        the link to the page or to the group's `INDEX`. */
    method Descend(node: Nav, part: string, parents: nat) returns (r: Result<(Nav, string)>)
      ensures r == CrumbStep(node, part, parents)
    {
      var leaf: Nav;
      match node {
        case Leaf(_) =>
          return Err(TypeError);
        case Group(es) =>
          var found := Find(es, part);
          if found.None? {
            return Err(KeyError(part));
          }
          leaf := found.value;
      }
      var filename := Repeat("../", parents);
      match leaf {
        case Leaf(s) =>
          filename := filename + s;
        case Group(es) =>
          var index := Find(es, "INDEX");
          if index.None? {
            return Err(UnseenLink(None));
          }
          if index.value.Group? {
            return Err(TypeError);
          }
          filename := filename + index.value.loc;
      }
      assert "[" + part + "](" + filename + ")" == Crumb(part, parents, TargetOf(leaf).value);
      return Ok((leaf, "[" + part + "](" + filename + ")"));
    }

    /** `convert` over a page: the header, then every element in document order; the
        first element that raises stops the conversion. */
    method ConvertPage(elements: seq<Element>, body: string) returns (r: Result<(string, seq<Converted>)>)
      requires HeaderOf(nav, breadcrumbs, body).Ok? ==> ElementsAnchored(articleMap, path, elements)
      ensures r == PageOf(articleMap, nav, breadcrumbs, path, elements, body)
    {
      var page := Convert(body);
      if page.Err? {
        return Err(page.error);
      }
      var done: seq<Converted> := [];
      assert elements[0..] == elements;
      ThenNothing(ElementsOf(articleMap, path, elements));
      for i := 0 to |elements|
        invariant ElementsAnchored(articleMap, path, elements[i..])
        invariant ElementsOf(articleMap, path, elements) == Then(done, ElementsOf(articleMap, path, elements[i..]))
      {
        assert elements[i..][0] == elements[i] && elements[i..][1..] == elements[i + 1..];
        var c: Converted;
        match elements[i] {
          case Anchor(attrs, text, sibs) =>
            var a := ConvertAnchor(attrs, text, sibs);
            if a.Err? {
              return Err(a.error);
            }
            c := a.value;
          case Image(attrs) =>
            c := Picture(ConvertImage(attrs));
        }
        assert ElementsOf(articleMap, path, elements[i..]) == Then([c], ElementsOf(articleMap, path, elements[i + 1..]));
        ThenStep(done, c, ElementsOf(articleMap, path, elements[i + 1..]));
        done := done + [c];
      }
      assert elements[|elements|..] == [] && done + [] == done;
      return Ok((page.value, done));
    }
  }

  /** An anchor's link, if it has one, is anchored like `dir`. */
  ghost predicate ElementAnchored(articleMap: map<string, string>, dir: PurePath, e: Element) {
    e.Anchor? ==> LinkAnchored(articleMap, dir, e.attrs)
  }

  /** Every element the conversion reaches is anchored like `dir`: the first one, and the
      rest when the first converts. */
  ghost predicate ElementsAnchored(articleMap: map<string, string>, dir: PurePath, es: seq<Element>)
    decreases |es|
  {
    es != [] ==>
      && ElementAnchored(articleMap, dir, es[0])
      && (ElementOf(articleMap, dir, es[0]).Ok? ==> ElementsAnchored(articleMap, dir, es[1..]))
  }

  /** A map whose every location is anchored like `dir` lets any elements be converted. */
  lemma {:induction false} AllAnchored(articleMap: map<string, string>, dir: PurePath, es: seq<Element>)
    requires forall k :: k in articleMap ==> Parse(articleMap[k]).absolute == dir.absolute
    ensures ElementsAnchored(articleMap, dir, es)
    decreases |es|
  {
    if es != [] {
      AllAnchored(articleMap, dir, es[1..]);
    }
  }

  /** What converting one element gives. */
  function ElementOf(articleMap: map<string, string>, dir: PurePath, e: Element): Result<Converted>
    requires ElementAnchored(articleMap, dir, e)
  {
    match e
    case Anchor(attrs, text, sibs) => AnchorOf(articleMap, dir, attrs, text, sibs)
    case Image(attrs) => Ok(Picture(ImageAttrs(dir, attrs)))
  }

  /** The elements converted in order, or the first error. */
  function ElementsOf(articleMap: map<string, string>, dir: PurePath, es: seq<Element>): Result<seq<Converted>>
    requires ElementsAnchored(articleMap, dir, es)
    decreases |es|
  {
    if es == [] then Ok([])
    else
      var c :- ElementOf(articleMap, dir, es[0]);
      var rest :- ElementsOf(articleMap, dir, es[1..]);
      Ok([c] + rest)
  }

  /** `done + rest` when the rest succeeds. */
  function Then(done: seq<Converted>, r: Result<seq<Converted>>): Result<seq<Converted>> {
    match r
    case Ok(rest) => Ok(done + rest)
    case Err(e) => Err(e)
  }

  lemma ThenNothing(r: Result<seq<Converted>>)
    ensures Then([], r) == r
  {
    if r.Ok? {
      assert [] + r.value == r.value;
    }
  }

  lemma ThenStep(done: seq<Converted>, c: Converted, r: Result<seq<Converted>>)
    ensures Then(done, Then([c], r)) == Then(done + [c], r)
  {
    if r.Ok? {
      assert done + ([c] + r.value) == (done + [c]) + r.value;
    }
  }

  /** A page converted: the header text (with the rendered body after it) and the
      converted elements, or the first error; the header's errors come first. */
  function PageOf(articleMap: map<string, string>, nav: Nav, bc: seq<string>, dir: PurePath, elements: seq<Element>, body: string): Result<(string, seq<Converted>)>
    requires HeaderOf(nav, bc, body).Ok? ==> ElementsAnchored(articleMap, dir, elements)
  {
    var text :- HeaderOf(nav, bc, body);
    var converted :- ElementsOf(articleMap, dir, elements);
    Ok((text, converted))
  }

  /** The page fails with `UnseenLinkError` on a link to an article the map does not hold
      (when the header succeeds), naming that article's key. */
  lemma {:induction false} PageUnseen(articleMap: map<string, string>, nav: Nav, bc: seq<string>, dir: PurePath, elements: seq<Element>, body: string, k: nat)
    requires k < |elements| && forall i :: 0 <= i < k ==> ElementAnchored(articleMap, dir, elements[i])
    requires HeaderOf(nav, bc, body).Ok?
    requires forall i :: 0 <= i < k ==> ElementOf(articleMap, dir, elements[i]).Ok?
    requires elements[k].Anchor? && HasValue(elements[k].attrs, "href") && elements[k].attrs["href"][0] != '#'
    requires LinkKey(Trimmed(elements[k].attrs["href"])) !in articleMap
    ensures ElementsAnchored(articleMap, dir, elements)
    ensures PageOf(articleMap, nav, bc, dir, elements, body) == Err(UnseenLink(Some(LinkKey(Trimmed(elements[k].attrs["href"])))))
  {
    ElementsUnseen(articleMap, dir, elements, k);
  }

  lemma ElementsUnseen(articleMap: map<string, string>, dir: PurePath, es: seq<Element>, k: nat)
    requires k < |es| && forall i :: 0 <= i <= k ==> ElementAnchored(articleMap, dir, es[i])
    requires forall i :: 0 <= i < k ==> ElementOf(articleMap, dir, es[i]).Ok?
    requires ElementOf(articleMap, dir, es[k]).Err?
    ensures ElementsAnchored(articleMap, dir, es)
    ensures ElementsOf(articleMap, dir, es) == Err(ElementOf(articleMap, dir, es[k]).error)
  {
    assert es[0..] == es;
    ElementsUnseenFrom(articleMap, dir, es, 0, k);
  }

  /** The same, for the elements from the `j`-th on. */
  lemma {:induction false} ElementsUnseenFrom(articleMap: map<string, string>, dir: PurePath, es: seq<Element>, j: nat, k: nat)
    requires j <= k < |es| && forall i :: j <= i <= k ==> ElementAnchored(articleMap, dir, es[i])
    requires forall i :: j <= i < k ==> ElementOf(articleMap, dir, es[i]).Ok?
    requires ElementOf(articleMap, dir, es[k]).Err?
    ensures ElementsAnchored(articleMap, dir, es[j..])
    ensures ElementsOf(articleMap, dir, es[j..]) == Err(ElementOf(articleMap, dir, es[k]).error)
    decreases k - j
  {
    assert es[j..][0] == es[j] && es[j..][1..] == es[j + 1..];
    if j < k {
      ElementsUnseenFrom(articleMap, dir, es, j + 1, k);
    }
  }
}

=== FILE: nav.dfy ===
/** The navigation tree `nav` that `markdownify` builds from breadcrumbs, and
    `listify_dict`, which turns it into the list form of the site configuration. */
module Navigation {
  import opened Wrappers
  import opened Text

  /** A value of the nested dict: a page location (a `str`) or a group (a `dict`, whose
      entries keep their insertion order). */
  datatype Nav = Leaf(loc: string) | Group(entries: seq<(string, Nav)>)

  type Entries = seq<(string, Nav)>

  /** `d.get(k)` on a dict's entries. */
  function Find(es: Entries, k: string): (r: Option<Nav>)
    ensures r.Some? <==> exists i :: 0 <= i < |es| && es[i].0 == k
  {
    if es == [] then None
    else if es[0].0 == k then Some(es[0].1)
    else Find(es[1..], k)
  }

  /** `d[k] = v`: the value of an existing key is replaced where it stands, a new key
      goes last. */
  function Put(es: Entries, k: string, v: Nav): (r: Entries)
    ensures Find(es, k).Some? ==> |r| == |es|
    ensures Find(es, k).None? ==> r == es + [(k, v)]
  {
    if es == [] then [(k, v)]
    else if es[0].0 == k then [(k, v)] + es[1..]
    else [es[0]] + Put(es[1..], k, v)
  }

  /** After `d[k] = v`, `d[k]` is `v` and every other key reads as before. */
  lemma {:induction false} PutFind(es: Entries, k: string, v: Nav, j: string)
    ensures Find(Put(es, k, v), j) == if j == k then Some(v) else Find(es, j)
  {
    if es != [] && es[0].0 != k {
      PutFind(es[1..], k, v, j);
    }
  }

  /** Storing what a key already holds changes nothing. */
  lemma {:induction false} PutSame(es: Entries, k: string)
    requires Find(es, k).Some?
    ensures Put(es, k, Find(es, k).value) == es
  {
    if es[0].0 != k {
      PutSame(es[1..], k);
    }
  }

  /** Storing twice under one key is storing the second value. */
  lemma {:induction false} PutPut(es: Entries, k: string, v: Nav, w: Nav)
    ensures Put(Put(es, k, v), k, w) == Put(es, k, w)
  {
    if es != [] && es[0].0 != k {
      PutPut(es[1..], k, v, w);
    }
  }

  /** The node reached by looking up the keys of `path` one after the other. */
  function Lookup(node: Nav, path: seq<string>): Option<Nav>
    decreases |path|
  {
    if path == [] then Some(node)
    else match node
      case Leaf(_) => None
      case Group(es) =>
        match Find(es, path[0])
        case None => None
        case Some(child) => Lookup(child, path[1..])
  }

  /** Whether a group sits at the end of `path`. */
  predicate IsGroupAt(node: Nav, path: seq<string>) {
    Lookup(node, path).Some? && Lookup(node, path).value.Group?
  }

  /** Every node strictly above the end of `path` is a group. */
  ghost predicate GroupsAlong(node: Nav, path: seq<string>) {
    forall n :: 0 <= n < |path| ==> IsGroupAt(node, path[..n])
  }

  /** `d[p0]…[pn][k] = v` for the group at `path`; anything else is left as it is. */
  function SetAt(node: Nav, path: seq<string>, k: string, v: Nav): Nav
    decreases |path|
  {
    if path == [] then
      match node
      case Leaf(_) => node
      case Group(es) => Group(Put(es, k, v))
    else match node
      case Leaf(_) => node
      case Group(es) =>
        match Find(es, path[0])
        case None => node
        case Some(child) => Group(Put(es, path[0], SetAt(child, path[1..], k, v)))
  }

  // ---------------------------------------------------------------------------
  // Insertion (the nav part of `markdownify`)

  /** The walk of `markdownify` along the breadcrumbs: each missing key gets an empty
      group. Descending into a string raises `TypeError` (a membership test on a `str`
      finds a substring, and both what follows it fail on a `str`). */
  function Walk(node: Nav, path: seq<string>): (r: Result<Nav>)
    ensures r.Err? ==> r.error == TypeError
    decreases |path|
  {
    if path == [] then Ok(node)
    else match node
      case Leaf(_) => Err(TypeError)
      case Group(es) =>
        var child := match Find(es, path[0]) case Some(c) => c case None => Group([]);
        match Walk(child, path[1..])
        case Err(e) => Err(e)
        case Ok(sub) => Ok(Group(Put(es, path[0], sub)))
  }

  /** After a successful walk the whole path exists, every node above its end is a group,
      and nothing at the end of the path was changed. */
  lemma {:induction false} WalkReaches(node: Nav, path: seq<string>)
    requires Walk(node, path).Ok?
    ensures Lookup(Walk(node, path).value, path).Some?
    ensures GroupsAlong(Walk(node, path).value, path)
    ensures Lookup(node, path).Some? ==> Lookup(Walk(node, path).value, path) == Lookup(node, path)
    decreases |path|
  {
    if path != [] {
      var es := node.entries;
      var child := match Find(es, path[0]) case Some(c) => c case None => Group([]);
      var sub := Walk(child, path[1..]).value;
      var w := Group(Put(es, path[0], sub));
      assert Walk(node, path).value == w;
      WalkReaches(child, path[1..]);
      PutFind(es, path[0], sub, path[0]);
      assert Lookup(w, path) == Lookup(sub, path[1..]);
      forall n | 0 <= n < |path| ensures IsGroupAt(w, path[..n]) {
        if n > 0 {
          assert path[..n][1..] == path[1..][..n - 1];
          assert Lookup(w, path[..n]) == Lookup(sub, path[1..][..n - 1]);
        }
      }
    }
  }

  /** A tree in which the whole path already exists, through groups, is left as it is
      by the walk. */
  lemma {:induction false} WalkExisting(node: Nav, path: seq<string>)
    requires Lookup(node, path).Some?
    requires GroupsAlong(node, path)
    ensures Walk(node, path) == Ok(node)
    decreases |path|
  {
    if path != [] {
      assert IsGroupAt(node, path[..0]) && path[..0] == [];
      var es := node.entries;
      var child := Find(es, path[0]).value;
      forall n | 0 <= n < |path[1..]| ensures IsGroupAt(child, path[1..][..n]) {
        assert path[..n + 1][1..] == path[1..][..n];
        assert Lookup(node, path[..n + 1]) == Lookup(child, path[1..][..n]);
      }
      WalkExisting(child, path[1..]);
      PutSame(es, path[0]);
    }
  }

  /** The longest key in the entries. */
  function MaxKeyLength(es: Entries): (m: nat)
    ensures forall i :: 0 <= i < |es| ==> |es[i].0| <= m
  {
    if es == [] then 0
    else var rest := MaxKeyLength(es[1..]); if |es[0].0| > rest then |es[0].0| else rest
  }

  /** A key the entries hold is no longer than the longest key. */
  lemma FoundKeyLength(es: Entries, k: string)
    requires Find(es, k).Some?
    ensures |k| <= MaxKeyLength(es)
  {
    var i :| 0 <= i < |es| && es[i].0 == k;
  }

  /** Whether the key holds a string other than `loc`: the condition under which the
      renaming loop of `markdownify` adds another space. */
  predicate Taken(es: Entries, k: string, loc: string) {
    match Find(es, k)
    case Some(Leaf(s)) => s != loc
    case _ => false
  }

  /** The key the renaming loop settles on: `k` followed by as few spaces as it takes to
      reach a key that is free, holds a group, or holds `loc` itself. */
  function FreeKey(es: Entries, k: string, loc: string): (r: string)
    ensures |r| >= |k| && r == k + Chars(' ', |r| - |k|)
    ensures !Taken(es, r, loc)
    decreases MaxKeyLength(es) - |k|
  {
    if Taken(es, k, loc) then
      FoundKeyLength(es, k);
      var r := FreeKey(es, k + " ", loc);
      assert r == k + " " + Chars(' ', |r| - |k| - 1);
      r
    else k
  }

  /** Every shorter candidate the loop passes over holds a different page's location. */
  lemma {:induction false} FreeKeySkips(es: Entries, k: string, loc: string, n: nat)
    requires n < |FreeKey(es, k, loc)| - |k|
    ensures Taken(es, k + Chars(' ', n), loc)
    decreases MaxKeyLength(es) - |k|
  {
    if Taken(es, k, loc) {
      FoundKeyLength(es, k);
      if n > 0 {
        FreeKeySkips(es, k + " ", loc, n - 1);
        assert k + " " + Chars(' ', n - 1) == k + Chars(' ', n);
      } else {
        assert k + Chars(' ', 0) == k;
      }
    }
  }

  /** The entries of the group that holds the last breadcrumb, once the walk is done. */
  function Siblings(nav: Nav, bc: seq<string>): Entries
    requires |bc| >= 1 && Walk(nav, bc).Ok?
  {
    WalkReaches(nav, bc);
    assert IsGroupAt(Walk(nav, bc).value, bc[..|bc| - 1]);
    Lookup(Walk(nav, bc).value, bc[..|bc| - 1]).value.entries
  }

  /** The key under which an ordinary page is stored. */
  function PageKey(nav: Nav, bc: seq<string>, loc: string): string
    requires |bc| >= 1 && Walk(nav, bc).Ok?
  {
    FreeKey(Siblings(nav, bc), bc[|bc| - 1], loc)
  }

  /** What `markdownify` does to `nav` for a page at `loc` with breadcrumbs `bc`: walk the
      breadcrumbs; then for an ordinary page store `loc` under the last breadcrumb, renamed
      as needed, or for a menu page (`left_menu*`, `node*`) store it as the group's
      `INDEX` unless one is there. A menu page whose breadcrumb holds a string raises
      `TypeError`, unless that string is non-empty and contains `INDEX`. */
  function InsertPage(nav: Nav, bc: seq<string>, loc: string, menu: bool): (r: Result<Nav>)
    requires |bc| >= 1
    ensures r.Err? ==> r.error == TypeError
  {
    match Walk(nav, bc)
    case Err(e) => Err(e)
    case Ok(w) =>
      var up := bc[..|bc| - 1];
      if !menu then Ok(SetAt(w, up, PageKey(nav, bc, loc), Leaf(loc)))
      else match Find(Siblings(nav, bc), bc[|bc| - 1])
        case Some(Leaf(s)) => if s != [] && Contains(s, "INDEX") then Ok(w) else Err(TypeError)
        case Some(Group(ces)) => if Find(ces, "INDEX").None? then Ok(SetAt(w, bc, "INDEX", Leaf(loc))) else Ok(w)
        case None => Ok(w)
  }

  // ---------------------------------------------------------------------------
  // Lookups through updates

  /** Looking one key further is looking the key up in the group reached. */
  lemma {:induction false} LookupAppend(node: Nav, p: seq<string>, j: string)
    ensures Lookup(node, p + [j]) == if IsGroupAt(node, p) then Find(Lookup(node, p).value.entries, j) else None
    decreases |p|
  {
    if p == [] {
      assert [] + [j] == [j] && [j][1..] == [];
    } else if node.Group? && Find(node.entries, p[0]).Some? {
      assert (p + [j])[1..] == p[1..] + [j];
      LookupAppend(Find(node.entries, p[0]).value, p[1..], j);
    }
  }

  /** A lookup that succeeds passed through groups only. */
  lemma {:induction false} LookupSomeGroups(node: Nav, p: seq<string>)
    requires Lookup(node, p).Some?
    ensures GroupsAlong(node, p)
    decreases |p|
  {
    if p != [] {
      var child := Find(node.entries, p[0]).value;
      LookupSomeGroups(child, p[1..]);
      forall n | 0 <= n < |p| ensures IsGroupAt(node, p[..n]) {
        if n > 0 {
          assert p[..n][1..] == p[1..][..n - 1];
          assert IsGroupAt(child, p[1..][..n - 1]);
        }
      }
    }
  }

  /** Storing into the group at `path` leaves a group there holding the stored entry. */
  lemma {:induction false} SetAtHere(node: Nav, path: seq<string>, k: string, v: Nav)
    requires IsGroupAt(node, path)
    ensures IsGroupAt(SetAt(node, path, k, v), path)
    ensures Lookup(SetAt(node, path, k, v), path).value.entries == Put(Lookup(node, path).value.entries, k, v)
    ensures GroupsAlong(SetAt(node, path, k, v), path)
    decreases |path|
  {
    if path != [] {
      var es := node.entries;
      var child := Find(es, path[0]).value;
      var sub := SetAt(child, path[1..], k, v);
      SetAtHere(child, path[1..], k, v);
      PutFind(es, path[0], sub, path[0]);
      LookupSomeGroups(SetAt(node, path, k, v), path);
    }
  }

  /** Storing into the group at `path` keeps every string that is not at or below the
      stored key. */
  lemma {:induction false} SetAtKeepsLeaves(node: Nav, path: seq<string>, k: string, v: Nav, q: seq<string>, s: string)
    requires Lookup(node, q) == Some(Leaf(s))
    requires !(path + [k] <= q)
    ensures Lookup(SetAt(node, path, k, v), q) == Some(Leaf(s))
    decreases |path|
  {
    if node.Group? && q != [] {
      var es := node.entries;
      if path == [] {
        PutFind(es, k, v, q[0]);
        assert [] + [k] == [k];
      } else if Find(es, path[0]).Some? {
        var child := Find(es, path[0]).value;
        var sub := SetAt(child, path[1..], k, v);
        PutFind(es, path[0], sub, q[0]);
        if q[0] == path[0] {
          assert path + [k] == [path[0]] + (path[1..] + [k]);
          assert q == [q[0]] + q[1..];
          SetAtKeepsLeaves(child, path[1..], k, v, q[1..], s);
        }
      }
    }
  }

  /** Storing what the key already holds changes nothing. */
  lemma {:induction false} SetAtSame(node: Nav, path: seq<string>, k: string, v: Nav)
    requires Lookup(node, path + [k]) == Some(v)
    ensures SetAt(node, path, k, v) == node
    decreases |path|
  {
    LookupAppend(node, path, k);
    if path == [] {
      PutSame(node.entries, k);
    } else {
      var child := Find(node.entries, path[0]).value;
      assert (path + [k])[1..] == path[1..] + [k];
      SetAtSame(child, path[1..], k, v);
      PutSame(node.entries, path[0]);
    }
  }

  /** The walk keeps every string the tree held. */
  lemma {:induction false} WalkKeepsLeaves(node: Nav, path: seq<string>, q: seq<string>, s: string)
    requires Walk(node, path).Ok? && Lookup(node, q) == Some(Leaf(s))
    ensures Lookup(Walk(node, path).value, q) == Some(Leaf(s))
    decreases |path|
  {
    if path != [] && q != [] {
      var es := node.entries;
      var child := match Find(es, path[0]) case Some(c) => c case None => Group([]);
      var sub := Walk(child, path[1..]).value;
      PutFind(es, path[0], sub, q[0]);
      if q[0] == path[0] {
        WalkKeepsLeaves(child, path[1..], q[1..], s);
      }
    }
  }

  /** Walking an empty group creates the whole path, ending in an empty group. */
  lemma {:induction false} WalkEmpty(path: seq<string>)
    ensures Walk(Group([]), path).Ok?
    ensures Lookup(Walk(Group([]), path).value, path) == Some(Group([]))
    decreases |path|
  {
    if path != [] {
      WalkEmpty(path[1..]);
      PutFind([], path[0], Walk(Group([]), path[1..]).value, path[0]);
    }
  }

  /** Where the path did not exist, the walk leaves an empty group at its end. */
  lemma {:induction false} WalkFresh(node: Nav, path: seq<string>)
    requires Walk(node, path).Ok? && Lookup(node, path).None?
    ensures Lookup(Walk(node, path).value, path) == Some(Group([]))
    decreases |path|
  {
    var es := node.entries;
    var sub := Walk(match Find(es, path[0]) case Some(c) => c case None => Group([]), path[1..]).value;
    PutFind(es, path[0], sub, path[0]);
    if Find(es, path[0]).Some? {
      WalkFresh(Find(es, path[0]).value, path[1..]);
    } else {
      WalkEmpty(path[1..]);
    }
  }

  /** Once an ordinary page is stored, the renaming loop run again for it stops at the
      same key. */
  lemma {:induction false} FreeKeyAfterPut(es: Entries, k: string, loc: string)
    ensures FreeKey(Put(es, FreeKey(es, k, loc), Leaf(loc)), k, loc) == FreeKey(es, k, loc)
    decreases MaxKeyLength(es) - |k|
  {
    var key := FreeKey(es, k, loc);
    var es' := Put(es, key, Leaf(loc));
    PutFind(es, key, Leaf(loc), k);
    if Taken(es, k, loc) {
      FoundKeyLength(es, k);
      assert key == FreeKey(es, k + " ", loc);
      FreeKeyAfterPut(es, k + " ", loc);
    }
  }

  // ---------------------------------------------------------------------------
  // What insertion promises

  /** An ordinary page is stored, under its key, as its location. */
  lemma OrdinaryStored(nav: Nav, bc: seq<string>, loc: string)
    requires |bc| >= 1 && InsertPage(nav, bc, loc, false).Ok?
    ensures Lookup(InsertPage(nav, bc, loc, false).value, bc[..|bc| - 1] + [PageKey(nav, bc, loc)]) == Some(Leaf(loc))
  {
    var w := Walk(nav, bc).value;
    var up := bc[..|bc| - 1];
    WalkReaches(nav, bc);
    assert IsGroupAt(w, up);
    var key := PageKey(nav, bc, loc);
    SetAtHere(w, up, key, Leaf(loc));
    LookupAppend(SetAt(w, up, key, Leaf(loc)), up, key);
    PutFind(Siblings(nav, bc), key, Leaf(loc), key);
  }

  /** Storing an ordinary page never overwrites a string naming a different location in
      the group it joins: the key it takes is free, a group, or already its own. */
  lemma OrdinaryKeepsOthers(nav: Nav, bc: seq<string>, loc: string, j: string, s: string)
    requires |bc| >= 1 && InsertPage(nav, bc, loc, false).Ok?
    requires Lookup(nav, bc[..|bc| - 1] + [j]) == Some(Leaf(s)) && s != loc
    ensures Lookup(InsertPage(nav, bc, loc, false).value, bc[..|bc| - 1] + [j]) == Some(Leaf(s))
  {
    var w := Walk(nav, bc).value;
    var up := bc[..|bc| - 1];
    WalkReaches(nav, bc);
    WalkKeepsLeaves(nav, bc, up + [j], s);
    LookupAppend(w, up, j);
    var key := PageKey(nav, bc, loc);
    assert Taken(Siblings(nav, bc), j, loc);
    assert j != key;
    assert (up + [key])[|up|] == key && (up + [j])[|up|] == j;
    SetAtKeepsLeaves(w, up, key, Leaf(loc), up + [j], s);
  }

  /** A menu page's group whose `INDEX` is set keeps the whole tree as it is: `INDEX` is
      written once. */
  lemma MenuIndexWriteOnce(nav: Nav, bc: seq<string>, loc: string)
    requires |bc| >= 1 && Lookup(nav, bc + ["INDEX"]).Some?
    ensures InsertPage(nav, bc, loc, true) == Ok(nav)
  {
    LookupSomeGroups(nav, bc + ["INDEX"]);
    LookupAppend(nav, bc, "INDEX");
    assert IsGroupAt(nav, (bc + ["INDEX"])[..|bc|]) && (bc + ["INDEX"])[..|bc|] == bc;
    forall n | 0 <= n < |bc| ensures IsGroupAt(nav, bc[..n]) {
      assert (bc + ["INDEX"])[..n] == bc[..n];
    }
    WalkExisting(nav, bc);
    var up := bc[..|bc| - 1];
    assert up + [bc[|bc| - 1]] == bc;
    LookupAppend(nav, up, bc[|bc| - 1]);
  }

  /** A menu page whose group has no `INDEX` yet becomes its `INDEX`, unless a string
      stands where the group should be. */
  lemma MenuIndexSet(nav: Nav, bc: seq<string>, loc: string)
    requires |bc| >= 1 && InsertPage(nav, bc, loc, true).Ok?
    requires Lookup(nav, bc + ["INDEX"]).None?
    ensures !IsGroupAt(Walk(nav, bc).value, bc)
      || Lookup(InsertPage(nav, bc, loc, true).value, bc + ["INDEX"]) == Some(Leaf(loc))
  {
    var w := Walk(nav, bc).value;
    var up := bc[..|bc| - 1];
    WalkReaches(nav, bc);
    assert up + [bc[|bc| - 1]] == bc;
    LookupAppend(w, up, bc[|bc| - 1]);
    if Lookup(w, bc).value.Group? {
      var ces := Lookup(w, bc).value.entries;
      if Lookup(nav, bc).Some? {
        LookupAppend(nav, bc, "INDEX");
        LookupAppend(w, bc, "INDEX");
      } else {
        WalkFresh(nav, bc);
      }
      SetAtHere(w, bc, "INDEX", Leaf(loc));
      LookupAppend(SetAt(w, bc, "INDEX", Leaf(loc)), bc, "INDEX");
      PutFind(ces, "INDEX", Leaf(loc), "INDEX");
    }
  }

  /** A tree the walk already went through is left as it is by walking again. */
  lemma WalkAgain(nav: Nav, bc: seq<string>)
    requires Walk(nav, bc).Ok?
    ensures Walk(Walk(nav, bc).value, bc) == Walk(nav, bc)
  {
    WalkReaches(nav, bc);
    WalkExisting(Walk(nav, bc).value, bc);
  }

  /** Inserting an ordinary page a second time changes nothing. */
  lemma {:induction false} OrdinaryIdempotent(nav: Nav, bc: seq<string>, loc: string)
    requires |bc| >= 1 && InsertPage(nav, bc, loc, false).Ok?
    ensures InsertPage(InsertPage(nav, bc, loc, false).value, bc, loc, false) == InsertPage(nav, bc, loc, false)
  {
    var w := Walk(nav, bc).value;
    var up, k := bc[..|bc| - 1], bc[|bc| - 1];
    var es, key := Siblings(nav, bc), PageKey(nav, bc, loc);
    var r := SetAt(w, up, key, Leaf(loc));
    WalkReaches(nav, bc);
    assert bc == up + [k];
    LookupAppend(w, up, k);
    SetAtHere(w, up, key, Leaf(loc));
    LookupAppend(r, up, k);
    PutFind(es, key, Leaf(loc), k);
    forall n | 0 <= n < |bc| ensures IsGroupAt(r, bc[..n]) {
      if n < |up| {
        assert up[..n] == bc[..n];
      } else {
        assert bc[..n] == up;
      }
    }
    WalkExisting(r, bc);
    assert Siblings(r, bc) == Put(es, key, Leaf(loc));
    FreeKeyAfterPut(es, k, loc);
    LookupAppend(r, up, key);
    PutFind(es, key, Leaf(loc), key);
    SetAtSame(r, up, key, Leaf(loc));
  }

  /** Inserting a menu page a second time changes nothing. */
  lemma {:induction false} MenuIdempotent(nav: Nav, bc: seq<string>, loc: string)
    requires |bc| >= 1 && InsertPage(nav, bc, loc, true).Ok?
    ensures InsertPage(InsertPage(nav, bc, loc, true).value, bc, loc, true) == InsertPage(nav, bc, loc, true)
  {
    var w := Walk(nav, bc).value;
    var up, k := bc[..|bc| - 1], bc[|bc| - 1];
    var r := InsertPage(nav, bc, loc, true).value;
    WalkReaches(nav, bc);
    assert bc == up + [k];
    LookupAppend(w, up, k);
    if r == w {
      WalkAgain(nav, bc);
    } else {
      var ces := Lookup(w, bc).value.entries;
      assert r == SetAt(w, bc, "INDEX", Leaf(loc));
      SetAtHere(w, bc, "INDEX", Leaf(loc));
      WalkExisting(r, bc);
      LookupAppend(r, up, k);
      LookupSomeGroups(r, bc);
      assert IsGroupAt(r, bc[..|bc| - 1]);
      assert Find(Siblings(r, bc), k) == Lookup(r, bc);
      PutFind(ces, "INDEX", Leaf(loc), "INDEX");
    }
  }

  /** Inserting a page is retry-safe: a second insertion of the same page, as a requeued
      `markdownify` performs, leaves the tree as the first one left it. */
  lemma InsertIdempotent(nav: Nav, bc: seq<string>, loc: string, menu: bool)
    requires |bc| >= 1 && InsertPage(nav, bc, loc, menu).Ok?
    ensures InsertPage(InsertPage(nav, bc, loc, menu).value, bc, loc, menu) == InsertPage(nav, bc, loc, menu)
  {
    if menu {
      MenuIdempotent(nav, bc, loc);
    } else {
      OrdinaryIdempotent(nav, bc, loc);
    }
  }

  // ---------------------------------------------------------------------------
  // `listify_dict`

  /** The list form of the site navigation: a list of one-key dicts, whose values are
      lists again for groups and the location for pages. */
  datatype Listed = Value(s: string) | Items(items: seq<(string, Listed)>)

  /** `listify_dict`: every entry, in order, becomes a one-key dict under its retitled key
      (`title` stands for `str.title()` followed by the acronym substitutions); groups are
      listified in turn, strings are kept. */
  function Listify(node: Nav, title: string -> string): (l: Listed)
    ensures node.Leaf? <==> l.Value?
    ensures node.Leaf? ==> l.s == node.loc
    ensures node.Group? ==> |l.items| == |node.entries|
    decreases node
  {
    match node
    case Leaf(s) => Value(s)
    case Group(es) => Items(seq(|es|, i requires 0 <= i < |es| => (title(es[i].0), Listify(es[i].1, title))))
  }

  /** Reading a list form back as a tree. */
  function Unlist(l: Listed): Nav
    decreases l
  {
    match l
    case Value(s) => Leaf(s)
    case Items(items) => Group(seq(|items|, i requires 0 <= i < |items| => (items[i].0, Unlist(items[i].1))))
  }

  /** With keys left as they are, the list form holds exactly the tree: same keys in the
      same order, same nesting, same locations. */
  lemma {:induction false} ListifyFaithful(node: Nav)
    ensures Unlist(Listify(node, k => k)) == node
    decreases node
  {
    if node.Group? {
      var es := node.entries;
      var l := Listify(node, k => k);
      forall i | 0 <= i < |es| ensures Unlist(l.items[i].1) == es[i].1 {
        ListifyFaithful(es[i].1);
      }
      assert Unlist(l).entries == es;
    }
  }

}

=== FILE: paths.dfy ===
/** The part of `pathlib.PurePosixPath` the scraper relies on: parsing a string into
    components, printing it back, `parent`, `name`, `suffix`, `joinpath`,
    `is_relative_to` and `relative_to`. */
module Paths {
  import opened Text

  /** A pure path: whether it starts at the root `/`, and its components. Parsing drops
      empty components and `.`, and keeps `..` as an ordinary component. */
  datatype PurePath = PurePath(absolute: bool, parts: seq<string>)

  /** A component as parsing leaves it. */
  predicate IsComponent(x: string) {
    x != [] && x != "." && '/' !in x
  }

  /** Every piece is a component. */
  ghost predicate AllComponents(ps: seq<string>) {
    forall i :: 0 <= i < |ps| ==> ps[i] != [] && ps[i] != "." && '/' !in ps[i]
  }

  ghost predicate Normal(p: PurePath) {
    AllComponents(p.parts)
  }

  /** The pieces of a split that survive as components, in order. */
  function Kept(pieces: seq<string>): (r: seq<string>)
    requires forall i :: 0 <= i < |pieces| ==> '/' !in pieces[i]
    ensures |r| <= |pieces|
    ensures AllComponents(r)
  {
    if pieces == [] then []
    else if pieces[0] == [] || pieces[0] == "." then Kept(pieces[1..])
    else [pieces[0]] + Kept(pieces[1..])
  }

  /** `PurePath(s)`. */
  function Parse(s: string): (p: PurePath)
    ensures Normal(p)
    ensures p.absolute <==> s != [] && s[0] == '/'
  {
    PurePath(s != [] && s[0] == '/', Kept(Split(s, '/')))
  }

  /** `str(p)`: an empty relative path prints as `.`. */
  function ToString(p: PurePath): (s: string)
    ensures Normal(p) ==> s != []
  {
    if p.absolute then "/" + Join(p.parts, '/')
    else if p.parts == [] then "."
    else Join(p.parts, '/')
  }

  /** `p.parent`: the root and the empty path are their own parents. */
  function Parent(p: PurePath): (q: PurePath)
    ensures q.absolute == p.absolute
    ensures p.parts == [] ==> q == p
    ensures p.parts != [] ==> p.parts == q.parts + [p.parts[|p.parts| - 1]]
  {
    if p.parts == [] then p else PurePath(p.absolute, p.parts[..|p.parts| - 1])
  }

  /** `p.name`: the last component, or empty when there is none. */
  function Name(p: PurePath): (n: string)
    ensures p.parts != [] ==> n == p.parts[|p.parts| - 1]
    ensures p.parts == [] ==> n == []
  {
    if p.parts == [] then [] else p.parts[|p.parts| - 1]
  }

  /** `len(p.parts)`: the root counts as a part of its own. */
  function PartCount(p: PurePath): (n: nat)
    ensures n == |p.parts| + (if p.absolute then 1 else 0)
  {
    if p.absolute then |p.parts| + 1 else |p.parts|
  }

  /** `p.joinpath(q)`: an absolute `q` replaces `p`. */
  function JoinPath(p: PurePath, q: PurePath): (r: PurePath)
    ensures q.absolute ==> r == q
    ensures !q.absolute ==> r.absolute == p.absolute && r.parts == p.parts + q.parts
  {
    if q.absolute then q else PurePath(p.absolute, p.parts + q.parts)
  }

  /** `p.is_relative_to(base)`: `base` is `p` or one of its ancestors. */
  predicate IsRelativeTo(p: PurePath, base: PurePath) {
    p.absolute == base.absolute && base.parts <= p.parts
  }

  /** `p.relative_to(base)`: what is left of `p` below `base`. */
  function RelativeTo(p: PurePath, base: PurePath): (r: PurePath)
    requires IsRelativeTo(p, base)
    ensures !r.absolute && base.parts + r.parts == p.parts
  {
    PurePath(false, p.parts[|base.parts|..])
  }

  /** Where the last `.` of `name` sits, when there is one. */
  function LastDot(name: string): (i: int)
    ensures -1 <= i < |name|
    ensures i >= 0 ==> name[i] == '.'
  {
    if name == [] then -1
    else if name[|name| - 1] == '.' then |name| - 1
    else LastDot(name[..|name| - 1])
  }

  /** No dot follows the one `LastDot` finds. */
  lemma {:induction false} LastDotIsLast(name: string)
    ensures forall j :: LastDot(name) < j < |name| ==> name[j] != '.'
  {
    if name != [] && name[|name| - 1] != '.' {
      var init := name[..|name| - 1];
      LastDotIsLast(init);
      assert forall j :: 0 <= j < |init| ==> init[j] == name[j];
    }
  }

  /** `p.suffix` of a name: from its last `.` on, unless that dot opens the name or ends it. */
  function Suffix(name: string): (s: string)
    ensures s == [] || (s[0] == '.' && 2 <= |s| < |name|)
  {
    var i := LastDot(name);
    if 0 < i < |name| - 1 then name[i..] else []
  }

  /** A suffix ends the name and holds no dot after its first character. */
  lemma SuffixEndsName(name: string)
    ensures var s := Suffix(name);
      s == [] || (name[|name| - |s|..] == s && '.' !in s[1..])
  {
    LastDotIsLast(name);
  }

  /** `p.with_suffix(s)`: the last component's suffix replaced by `s` (added when it has none). */
  function WithSuffix(p: PurePath, s: string): (q: PurePath)
    requires p.parts != []
    ensures q.absolute == p.absolute && |q.parts| == |p.parts| && Parent(q) == Parent(p)
  {
    var name := Name(p);
    var current := Suffix(name);
    var renamed := if current == [] then name + s else name[..|name| - |current|] + s;
    PurePath(p.absolute, Parent(p).parts + [renamed])
  }

  /** Giving a path the suffix it already has changes nothing. */
  lemma WithSameSuffix(p: PurePath)
    requires p.parts != [] && Suffix(Name(p)) != []
    ensures WithSuffix(p, Suffix(Name(p))) == p
  {
    var name := Name(p);
    var s := Suffix(name);
    SuffixEndsName(name);
    assert name[..|name| - |s|] + s == name;
  }

  // ---------------------------------------------------------------------------
  // Printing and parsing

  /** A single component parses to a relative path of that one component. */
  lemma ParseComponent(x: string)
    requires IsComponent(x)
    ensures Parse(x) == PurePath(false, [x])
  {
    SplitNoSep(x, '/');
  }

  lemma {:induction false} KeptAll(pieces: seq<string>)
    requires AllComponents(pieces)
    ensures Kept(pieces) == pieces
  {
    if pieces != [] {
      KeptAll(pieces[1..]);
    }
  }

  lemma {:induction false} KeptConcat(a: seq<string>, b: seq<string>)
    requires forall i :: 0 <= i < |a| ==> '/' !in a[i]
    requires forall i :: 0 <= i < |b| ==> '/' !in b[i]
    ensures Kept(a + b) == Kept(a) + Kept(b)
  {
    if a == [] {
      assert a + b == b;
    } else {
      assert (a + b)[1..] == a[1..] + b;
      KeptConcat(a[1..], b);
    }
  }

  /** A joined list of non-empty pieces starts with the first piece's first character. */
  lemma {:induction false} JoinStart(parts: seq<string>, sep: char)
    requires |parts| >= 1 && parts[0] != []
    ensures Join(parts, sep) != [] && Join(parts, sep)[0] == parts[0][0]
  {
  }

  /** The root parses to the empty absolute path. */
  lemma ParseRoot()
    ensures Parse("/") == PurePath(true, [])
  {
    var s: string := "/";
    assert s == [] + ['/'] + [];
    SplitHead([], '/', []);
    SplitNoSep([], '/');
    var pieces: seq<string> := [[], []];
    assert Split(s, '/') == pieces;
    assert pieces[1..] == [[]];
    assert Kept(pieces[1..]) == [];
  }

  /** Printing a parsed-form path and parsing it back gives the same path. */
  lemma {:induction false} ParseToString(p: PurePath)
    requires Normal(p)
    ensures Parse(ToString(p)) == p
  {
    var s := ToString(p);
    if p.parts == [] {
      if p.absolute {
        ParseRoot();
        assert s == "/";
      } else {
        SplitNoSep(".", '/');
      }
    } else {
      var j := Join(p.parts, '/');
      SplitJoin(p.parts, '/');
      KeptAll(p.parts);
      if p.absolute {
        assert s == [] + ['/'] + j;
        SplitHead([], '/', j);
        KeptConcat([[]], p.parts);
      } else {
        assert p.parts[0] != [];
        JoinStart(p.parts, '/');
      }
    }
  }

  /** Parsing is idempotent on what it prints: `PurePath(str(PurePath(s))) == PurePath(s)`. */
  lemma ParseIdempotent(s: string)
    ensures Parse(ToString(Parse(s))) == Parse(s)
  {
    ParseToString(Parse(s));
  }

  // ---------------------------------------------------------------------------
  // Following a relative reference

  /** Where a reader of a page in directory `base` lands following the components `rel`:
      `..` leaves the current directory, every other component enters one. */
  function Follow(base: seq<string>, rel: seq<string>): seq<string>
    decreases |rel|
  {
    if rel == [] then base
    else if rel[0] == ".." then Follow(if base == [] then [] else base[..|base| - 1], rel[1..])
    else Follow(base + [rel[0]], rel[1..])
  }

  /** `n` copies of the component `..`. */
  function Ups(n: nat): (r: seq<string>)
    ensures |r| == n && forall i :: 0 <= i < n ==> r[i] == ".."
  {
    if n == 0 then [] else [".."] + Ups(n - 1)
  }

  /** Following components without `..` enters each of them in turn. */
  lemma {:induction false} FollowDown(base: seq<string>, rest: seq<string>)
    requires forall i :: 0 <= i < |rest| ==> rest[i] != ".."
    ensures Follow(base, rest) == base + rest
    decreases |rest|
  {
    if rest != [] {
      FollowDown(base + [rest[0]], rest[1..]);
      assert (base + [rest[0]]) + rest[1..] == base + rest;
    }
  }

  /** Each leading `..` leaves one of the last `|tail|` directories. */
  lemma {:induction false} FollowClimb(base: seq<string>, tail: seq<string>, rest: seq<string>)
    ensures Follow(base + tail, Ups(|tail|) + rest) == Follow(base, rest)
    decreases |tail|
  {
    if tail != [] {
      var t := tail[..|tail| - 1];
      assert (Ups(|tail|) + rest)[0] == "..";
      assert (base + tail)[..|base + tail| - 1] == base + t;
      assert (Ups(|tail|) + rest)[1..] == Ups(|t|) + rest;
      FollowClimb(base, t, rest);
    } else {
      assert base + tail == base && Ups(0) + rest == rest;
    }
  }

  /** Climbing `n` levels and then descending `rest` from `base + tail` where `|tail| == n`
      lands at `base + rest`, as long as `rest` holds no `..`. */
  lemma FollowUps(base: seq<string>, tail: seq<string>, rest: seq<string>)
    requires forall i :: 0 <= i < |rest| ==> rest[i] != ".."
    ensures Follow(base + tail, Ups(|tail|) + rest) == base + rest
  {
    FollowClimb(base, tail, rest);
    FollowDown(base, rest);
  }

  /** From `a`, climbing to the prefix `a` shares with `b` and then going down the rest of
      `b` arrives at `b`, when `b` holds no `..`. */
  lemma FollowFromCommon(a: seq<string>, b: seq<string>, k: nat)
    requires k <= |a| && k <= |b| && a[..k] == b[..k]
    requires forall i :: 0 <= i < |b| ==> b[i] != ".."
    ensures Follow(a, Ups(|a| - k) + b[k..]) == b
  {
    var base, tail, rest := a[..k], a[k..], b[k..];
    assert a == base + tail && b == base + rest;
    assert forall i :: 0 <= i < |rest| ==> rest[i] == b[k + i];
    FollowUps(base, tail, rest);
  }

  /** The components of `'../' * n + s`. */
  lemma {:induction false} UpsComponents(n: nat, s: string)
    ensures Split(Repeat("../", n) + s, '/') == Ups(n) + Split(s, '/')
  {
    if n > 0 {
      var t := Repeat("../", n - 1) + s;
      UpsComponents(n - 1, s);
      assert Repeat("../", n) + s == ".." + ['/'] + t by {
        assert Repeat("../", n) == "../" + Repeat("../", n - 1);
        assert "../" == ".." + ['/'];
      }
      SplitHead("..", '/', t);
      Associative([".."], Ups(n - 1), Split(s, '/'));
    } else {
      assert Repeat("../", 0) + s == s;
    }
  }

  lemma Associative<T>(a: seq<T>, b: seq<T>, c: seq<T>)
    ensures a + (b + c) == (a + b) + c
  {
  }

  lemma {:induction false} KeptUps(n: nat)
    ensures Kept(Ups(n)) == Ups(n)
  {
    KeptAll(Ups(n));
  }

  /** `'../' * n + str(r)` for a relative `r` parses to `n` times `..` followed by `r`. */
  lemma {:induction false} ParseUpsThen(n: nat, r: PurePath)
    requires Normal(r) && !r.absolute
    ensures Parse(Repeat("../", n) + ToString(r)) == PurePath(false, Ups(n) + r.parts)
  {
    var s := ToString(r);
    UpsComponents(n, s);
    KeptConcat(Ups(n), Split(s, '/'));
    KeptUps(n);
    ParseToString(r);
    var full := Repeat("../", n) + s;
    if n > 0 {
      assert full[0] == '.';
    } else {
      assert full == s;
    }
  }
}

=== FILE: scraper.dfy ===
/** `WSMScraper` of main.py without its network, file and event-loop layers: where
    `markdownify` files an article and writes its output, the navigation tree and the
    article map it keeps, the retry of pages whose links are not resolvable yet, the
    `seen` gate of `download`, and the scan of the service-menu script. */
module Scraper {
  import opened Wrappers
  import opened Text
  import opened Paths
  import opened Navigation
  import opened Links

  /** `CONCURRENCY`. */
  const Concurrency: nat := 4

  /** The default `retries` of `markdownify`: `CONCURRENCY + 1`. */
  const DefaultRetries: int := Concurrency + 1

  /** `base_uri`: the server path under which a manual's files sit. */
  function BaseUri(wsmId: string): (u: string)
    ensures u != [] && u[0] == '/'
  {
    "/wsm-secure/WSM/" + wsmId + "/"
  }

  // ---------------------------------------------------------------------------
  // `url_replace_leaf`

  /** `url_replace_leaf` on the path of a URL: the directory of `path` joined with `leaf`,
      printed back as a string. */
  function ReplaceLeaf(path: string, leaf: string): string {
    ToString(JoinPath(Parent(Parse(path)), Parse(leaf)))
  }

  /** The printed path parses back to the join, so the URL's path names exactly the
      directory of `path` extended by `leaf`, or `leaf` itself when that is absolute. */
  lemma ReplaceLeafParses(path: string, leaf: string)
    ensures Parse(ReplaceLeaf(path, leaf)) == JoinPath(Parent(Parse(path)), Parse(leaf))
  {
    ParseToString(JoinPath(Parent(Parse(path)), Parse(leaf)));
  }

  /** A plain file name replaces the last component: the result is a sibling of `path`. */
  lemma ReplaceLeafSibling(path: string, leaf: string)
    requires IsComponent(leaf)
    ensures var p := Parse(ReplaceLeaf(path, leaf));
      p.absolute == Parse(path).absolute && Parent(p) == Parent(Parse(path)) && Name(p) == leaf
  {
    ReplaceLeafParses(path, leaf);
    ParseComponent(leaf);
  }

  // ---------------------------------------------------------------------------
  // Where an article is filed

  /** The slugs that are not empty, in order. */
  function NonEmpty(xs: seq<string>): (r: seq<string>)
    ensures |r| <= |xs|
    ensures forall i :: 0 <= i < |r| ==> r[i] != [] && r[i] in xs
  {
    if xs == [] then []
    else if xs[0] == [] then NonEmpty(xs[1..])
    else [xs[0]] + NonEmpty(xs[1..])
  }

  /** No piece holds a `/`. */
  ghost predicate NoSlash(xs: seq<string>) {
    forall i :: 0 <= i < |xs| ==> '/' !in xs[i]
  }

  /** `location + '/' + filename.name` as main.py writes it: the slugs joined by `/`,
      then `/` and the file name. */
  function ArticlePathAsWritten(slugs: seq<string>, name: string): string {
    Join(slugs, '/') + "/" + name
  }

  /** The location of a page's output directory: its non-empty slugs joined by `/`. */
  function Location(slugs: seq<string>): string {
    Join(NonEmpty(slugs), '/')
  }

  /** Where an article is filed: its location and its name, joined by `/`, with no empty
      component that would make it absolute. */
  function ArticlePath(slugs: seq<string>, name: string): string {
    Join(NonEmpty(slugs) + [name], '/')
  }

  lemma {:induction false} JoinSnoc(xs: seq<string>, x: string, sep: char)
    requires |xs| >= 1
    ensures Join(xs + [x], sep) == Join(xs, sep) + [sep] + x
  {
    if |xs| > 1 {
      assert (xs + [x])[1..] == xs[1..] + [x];
      JoinSnoc(xs[1..], x, sep);
    }
  }

  /** Dropping empty slugs drops nothing parsing would keep. */
  lemma {:induction false} KeptNonEmpty(xs: seq<string>)
    requires NoSlash(xs)
    ensures Kept(NonEmpty(xs)) == Kept(xs)
  {
    if xs != [] {
      KeptNonEmpty(xs[1..]);
      if xs[0] != [] {
        assert NonEmpty(xs) == [xs[0]] + NonEmpty(xs[1..]);
      }
    }
  }

  /** A joined list whose first piece is a non-empty, slash-free string is relative. */
  lemma JoinRelative(xs: seq<string>)
    requires |xs| >= 1 && xs[0] != [] && '/' !in xs[0]
    ensures !Parse(Join(xs, '/')).absolute
  {
    JoinStart(xs, '/');
    assert Join(xs, '/')[0] in xs[0];
  }

  /** An article's path is never absolute. */
  lemma ArticlePathRelative(slugs: seq<string>, name: string)
    requires NoSlash(slugs) && '/' !in name
    ensures !Parse(ArticlePath(slugs, name)).absolute
    ensures !Parse(Location(slugs)).absolute
  {
    var ns := NonEmpty(slugs);
    if ns != [] {
      assert '/' !in ns[0] by {
        var j :| 0 <= j < |slugs| && slugs[j] == ns[0];
      }
      JoinRelative(ns + [name]);
      JoinRelative(ns);
    }
  }

  /** The written form and the corrected one name the same components, and when no slug
      is empty they are the same string. */
  lemma ArticlePathAgrees(slugs: seq<string>, name: string)
    requires |slugs| >= 1 && NoSlash(slugs) && IsComponent(name)
    ensures Parse(ArticlePath(slugs, name)).parts == Parse(ArticlePathAsWritten(slugs, name)).parts
    ensures (forall i :: 0 <= i < |slugs| ==> slugs[i] != []) ==> ArticlePath(slugs, name) == ArticlePathAsWritten(slugs, name)
  {
    ArticlePartsAgree(slugs, name);
    if forall i :: 0 <= i < |slugs| ==> slugs[i] != [] {
      NonEmptyAll(slugs);
      JoinSnoc(slugs, name, '/');
    }
  }

  lemma ArticlePartsAgree(slugs: seq<string>, name: string)
    requires |slugs| >= 1 && NoSlash(slugs) && IsComponent(name)
    ensures Parse(ArticlePath(slugs, name)).parts == Parse(ArticlePathAsWritten(slugs, name)).parts
  {
    var ns := NonEmpty(slugs);
    forall i | 0 <= i < |ns| ensures '/' !in ns[i] {
      var j :| 0 <= j < |slugs| && slugs[j] == ns[i];
    }
    JoinSnoc(slugs, name, '/');
    SplitJoin(slugs + [name], '/');
    SplitJoin(ns + [name], '/');
    KeptConcat(slugs, [name]);
    KeptConcat(ns, [name]);
    KeptNonEmpty(slugs);
    KeptAll([name]);
  }

  lemma {:induction false} NonEmptyAll(xs: seq<string>)
    requires forall i :: 0 <= i < |xs| ==> xs[i] != []
    ensures NonEmpty(xs) == xs
  {
    if xs != [] {
      NonEmptyAll(xs[1..]);
    }
  }

  /** As written, the path is absolute exactly when the first slug is empty. */
  lemma AsWrittenAbsolute(slugs: seq<string>, name: string)
    requires |slugs| >= 1 && NoSlash(slugs)
    ensures Parse(ArticlePathAsWritten(slugs, name)).absolute <==> slugs[0] == []
  {
    var j := Join(slugs, '/');
    if slugs[0] != [] {
      JoinStart(slugs, '/');
      assert (j + "/" + name)[0] == j[0] == slugs[0][0];
    } else if |slugs| == 1 {
      assert j == [];
    } else {
      assert j == slugs[0] + ['/'] + Join(slugs[1..], '/');
      assert j[0] == '/';
    }
  }

  /** A breadcrumb whose title slugifies to nothing, first on the trail: main.py files the
      page at an absolute location. */
  lemma AbsoluteArticleExample()
    ensures ArticlePathAsWritten(["", "brakes"], "disc.md") == "/brakes/disc.md"
    ensures Parse(ArticlePathAsWritten(["", "brakes"], "disc.md")).absolute
    ensures ArticlePath(["", "brakes"], "disc.md") == "brakes/disc.md"
  {
    var slugs: seq<string> := ["", "brakes"];
    assert slugs[1..] == ["brakes"];
    assert Join(slugs, '/') == "" + ['/'] + "brakes";
    AsWrittenAbsolute(slugs, "disc.md");
    assert NonEmpty(slugs) == ["brakes"] by {
      assert NonEmpty(slugs) == NonEmpty(["brakes"]);
      assert ["brakes"][1..] == [];
    }
    var fixed: seq<string> := ["brakes", "disc.md"];
    assert ["brakes"] + ["disc.md"] == fixed;
    assert fixed[1..] == ["disc.md"];
    assert ArticlePath(slugs, "disc.md") == Join(fixed, '/');
    assert Join(fixed, '/') == "brakes" + ['/'] + "disc.md" == "brakes/disc.md";
  }

  /** ... and the link walk of `convert_a` on any other page, whose directory `dir` is
      relative, never reaches a directory that holds such an article. */
  lemma AbsoluteArticleUnreachable(dir: PurePath, n: nat)
    requires !dir.absolute
    ensures !IsRelativeTo(Parse(ArticlePathAsWritten(["", "brakes"], "disc.md")), Climbed(dir, n))
  {
    AbsoluteArticleExample();
    WalkNeverEnds(dir, Parse(ArticlePathAsWritten(["", "brakes"], "disc.md")), n);
  }

  // ---------------------------------------------------------------------------
  // Output files

  /** The fixed directories outputs go to, in parsed form. */
  const DocsPart := PurePath(false, ["docs"])
  const ImagesDir := PurePath(false, ["images"])
  const PdfDir := PurePath(false, ["pdf"])

  /** The fixed directory names parse to the paths above. */
  lemma FixedDirs()
    ensures Parse("docs") == DocsPart && Parse("images") == ImagesDir && Parse("pdf") == PdfDir
  {
    ParseComponent("docs");
    ParseComponent("images");
    ParseComponent("pdf");
  }

  /** `Path(wsm_id).joinpath("docs")`: where every output goes. */
  function DocsRoot(wsmId: string): (d: PurePath)
    ensures d.absolute == Parse(wsmId).absolute && d.parts == Parse(wsmId).parts + ["docs"]
  {
    JoinPath(Parse(wsmId), DocsPart)
  }

  /** `DocsRoot(wsm_id).joinpath(sub)`: the directory an output goes to. */
  function DocsDir(wsmId: string, sub: PurePath): (d: PurePath)
    requires !sub.absolute
    ensures IsRelativeTo(d, DocsRoot(wsmId)) && RelativeTo(d, DocsRoot(wsmId)) == sub
  {
    JoinPath(DocsRoot(wsmId), sub)
  }

  /** `DocsDir(wsm_id, sub).joinpath(name).with_suffix(suffix)`. */
  function OutputPath(wsmId: string, sub: PurePath, name: string, suffix: string): PurePath
    requires !sub.absolute && IsComponent(name)
  {
    ParseComponent(name);
    WithSuffix(JoinPath(DocsDir(wsmId, sub), Parse(name)), suffix)
  }

  /** An output is written inside its docs directory, under its own name when it already
      has the suffix it is given. */
  lemma OutputInside(wsmId: string, sub: PurePath, name: string, suffix: string)
    requires !sub.absolute && IsComponent(name)
    ensures IsRelativeTo(OutputPath(wsmId, sub, name, suffix), DocsDir(wsmId, sub))
    ensures |OutputPath(wsmId, sub, name, suffix).parts| == |DocsDir(wsmId, sub).parts| + 1
    ensures Suffix(name) == suffix && suffix != [] ==> OutputPath(wsmId, sub, name, suffix) == JoinPath(DocsDir(wsmId, sub), Parse(name))
  {
    ParseComponent(name);
    var q := JoinPath(DocsDir(wsmId, sub), Parse(name));
    assert Parent(q).parts == DocsDir(wsmId, sub).parts;
    if Suffix(name) == suffix && suffix != [] {
      WithSameSuffix(q);
    }
  }

  // ---------------------------------------------------------------------------
  // `download`

  /** The file `download` caches a URL path in: the path with the base URI removed,
      below the manual's directory. */
  function DownloadPath(wsmId: string, urlPath: string): PurePath {
    JoinPath(Parse(wsmId), Parse(ReplaceAll(urlPath, BaseUri(wsmId), "")))
  }

  /** A URL under the manual's base URI lands below the manual's directory. */
  lemma DownloadUnderBase(wsmId: string, rest: string)
    requires !Contains(rest, BaseUri(wsmId))
    requires rest == [] || rest[0] != '/'
    ensures DownloadPath(wsmId, BaseUri(wsmId) + rest) == PurePath(Parse(wsmId).absolute, Parse(wsmId).parts + Parse(rest).parts)
  {
    var base := BaseUri(wsmId);
    var s := base + rest;
    assert StartsWith(s, base) && s[|base|..] == rest;
    ReplaceAllAbsent(rest, base, "");
    assert ReplaceAll(s, base, "") == rest;
  }

  /** A URL path that is elsewhere on the server, absolute and without the base URI,
      yields an absolute file name: the gate refuses it. */
  lemma DownloadElsewhere(wsmId: string, urlPath: string)
    requires !Contains(urlPath, BaseUri(wsmId))
    requires urlPath != [] && urlPath[0] == '/'
    ensures DownloadPath(wsmId, urlPath).absolute
  {
    ReplaceAllAbsent(urlPath, BaseUri(wsmId), "");
  }

  // ---------------------------------------------------------------------------
  // The service-menu script

  /** How many leading characters of `s` are ASCII digits. */
  function DigitRun(s: string): (n: nat)
    ensures n <= |s|
    ensures forall i :: 0 <= i < n ==> IsAsciiDigit(s[i])
    ensures n < |s| ==> !IsAsciiDigit(s[n])
  {
    if s != [] && IsAsciiDigit(s[0]) then 1 + DigitRun(s[1..]) else 0
  }

  /** How many leading characters of `s` are white space. */
  function SpaceRun(s: string): (n: nat)
    ensures n <= |s|
    ensures forall i :: 0 <= i < n ==> IsSpace(s[i])
    ensures n < |s| ==> !IsSpace(s[n])
  {
    if s != [] && IsSpace(s[0]) then 1 + SpaceRun(s[1..]) else 0
  }

  lemma {:induction false} DigitRunExact(a: string, b: string)
    requires forall i :: 0 <= i < |a| ==> IsAsciiDigit(a[i])
    requires b == [] || !IsAsciiDigit(b[0])
    ensures DigitRun(a + b) == |a|
  {
    if a != [] {
      assert (a + b)[1..] == a[1..] + b;
      DigitRunExact(a[1..], b);
    } else {
      assert a + b == b;
    }
  }

  lemma {:induction false} SpaceRunExact(a: string, b: string)
    requires forall i :: 0 <= i < |a| ==> IsSpace(a[i])
    requires b == [] || !IsSpace(b[0])
    ensures SpaceRun(a + b) == |a|
  {
    if a != [] {
      assert (a + b)[1..] == a[1..] + b;
      SpaceRunExact(a[1..], b);
    } else {
      assert a + b == b;
    }
  }

  /** After a run of digits and a `]`: `\d+]`. */
  function AfterDigits(s: string): Option<string> {
    var d := DigitRun(s);
    if d == 0 || d == |s| || s[d] != ']' then None else Some(s[d + 1..])
  }

  /** After a run of white space and the character `c`: `\s+=` or `\s+"`. */
  function AfterSpaces(s: string, c: char): Option<string>
    requires !IsSpace(c)
  {
    var w := SpaceRun(s);
    if w == 0 || w == |s| || s[w] != c then None else Some(s[w + 1..])
  }

  /** The captured value: `(.*?)";` up to the end of the line. */
  function Value(s: string): Option<string> {
    if |s| < 2 || s[|s| - 2..] != "\";" then None
    else if '\n' in s[..|s| - 2] then None
    else Some(s[..|s| - 2])
  }

  /** The line without its final newline, where `$` may also match. */
  function DropNewline(line: string): string {
    if line != [] && line[|line| - 1] == '\n' then line[..|line| - 1] else line
  }

  /** `re.match(r'^NAME\[\d+]\s+=\s+"(.*?)";$', line)`: the captured group when the line
      matches. */
  function MatchAssign(name: string, line: string): Option<string> {
    MatchText(name, DropNewline(line))
  }

  /** The same match on a line whose final newline is already gone. */
  function MatchText(name: string, s: string): Option<string> {
    var open := name + "[";
    if !StartsWith(s, open) then None else MatchIndex(s[|open|..])
  }

  /** What follows `NAME[`: `\d+]\s+=\s+"(.*?)";`. */
  function MatchIndex(s1: string): Option<string> {
    match AfterDigits(s1)
    case None => None
    case Some(s2) => match AfterSpaces(s2, '=')
      case None => None
      case Some(s3) => match AfterSpaces(s3, '"')
        case None => None
        case Some(s4) => Value(s4)
  }

  /** All white space. */
  predicate AllSpace(w: string) {
    forall i :: 0 <= i < |w| ==> IsSpace(w[i])
  }

  /** A line of the form `NAME[digits] = "value";`, with the white space given. */
  function Assignment(name: string, ds: string, w1: string, w2: string, g: string): string {
    name + "[" + ds + "]" + w1 + "=" + w2 + "\"" + g + "\";"
  }

  lemma AfterDigitsOf(ds: string, rest: string)
    requires IsDigits(ds)
    ensures AfterDigits(ds + "]" + rest) == Some(rest)
  {
    assert ds + "]" + rest == ds + ("]" + rest);
    DigitRunExact(ds, "]" + rest);
    assert (ds + "]" + rest)[|ds| + 1..] == rest;
  }

  lemma AfterDigitsShape(s: string) returns (ds: string)
    requires AfterDigits(s).Some?
    ensures IsDigits(ds) && s == ds + "]" + AfterDigits(s).value
  {
    var d := DigitRun(s);
    ds := s[..d];
    assert s == s[..d] + [s[d]] + s[d + 1..];
  }

  lemma AfterSpacesOf(w: string, c: char, rest: string)
    requires w != [] && AllSpace(w) && !IsSpace(c)
    ensures AfterSpaces(w + [c] + rest, c) == Some(rest)
  {
    assert w + [c] + rest == w + ([c] + rest);
    SpaceRunExact(w, [c] + rest);
    assert (w + [c] + rest)[|w| + 1..] == rest;
  }

  lemma AfterSpacesShape(s: string, c: char) returns (w: string)
    requires !IsSpace(c) && AfterSpaces(s, c).Some?
    ensures w != [] && AllSpace(w) && s == w + [c] + AfterSpaces(s, c).value
  {
    var n := SpaceRun(s);
    w := s[..n];
    assert s == s[..n] + [s[n]] + s[n + 1..];
  }

  lemma ValueOf(g: string)
    requires '\n' !in g
    ensures Value(g + "\";") == Some(g)
  {
    var s := g + "\";";
    assert s[|s| - 2..] == "\";" && s[..|s| - 2] == g;
  }

  lemma ValueShape(s: string)
    requires Value(s).Some?
    ensures '\n' !in Value(s).value && s == Value(s).value + "\";"
  {
    assert s == s[..|s| - 2] + s[|s| - 2..];
  }

  /** Every assignment line matches, and the match captures its value. */
  lemma MatchesAssignment(name: string, ds: string, w1: string, w2: string, g: string)
    requires IsDigits(ds) && w1 != [] && w2 != [] && AllSpace(w1) && AllSpace(w2) && '\n' !in g
    ensures MatchAssign(name, Assignment(name, ds, w1, w2, g)) == Some(g)
  {
    var line := Assignment(name, ds, w1, w2, g);
    var open := name + "[";
    var s4 := g + "\";";
    var s3 := w2 + ['"'] + s4;
    var s2 := w1 + ['='] + s3;
    var s1 := ds + "]" + s2;
    assert line == open + s1;
    assert DropNewline(line) == line;
    assert StartsWith(line, open) && line[|open|..] == s1;
    AfterDigitsOf(ds, s2);
    AfterSpacesOf(w1, '=', s3);
    AfterSpacesOf(w2, '"', s4);
    ValueOf(g);
  }

  /** Putting the pieces of a matched line back together. */
  lemma AssignmentOf(name: string, ds: string, w1: string, w2: string, g: string, s1: string, s2: string, s3: string, s4: string)
    requires s4 == g + "\";" && s3 == w2 + ['"'] + s4 && s2 == w1 + ['='] + s3 && s1 == ds + "]" + s2
    ensures name + "[" + s1 == Assignment(name, ds, w1, w2, g)
  {
    calc {
      name + "[" + s1;
      name + "[" + (ds + "]" + s2);
      name + "[" + ds + "]" + (w1 + "=" + s3);
      name + "[" + ds + "]" + w1 + "=" + (w2 + "\"" + s4);
      name + "[" + ds + "]" + w1 + "=" + w2 + "\"" + (g + "\";");
    }
  }

  /** A line is what is left without its newline, with or without that newline. */
  lemma DropNewlineShape(line: string)
    ensures line == DropNewline(line) || line == DropNewline(line) + "\n"
  {
    if line != [] && line[|line| - 1] == '\n' {
      assert line == line[..|line| - 1] + [line[|line| - 1]];
    }
  }

  /** The pieces of what follows `NAME[` when it matches. */
  lemma IndexPieces(s1: string) returns (ds: string, w1: string, w2: string)
    requires MatchIndex(s1).Some?
    ensures IsDigits(ds) && w1 != [] && w2 != [] && AllSpace(w1) && AllSpace(w2)
    ensures s1 == ds + "]" + (w1 + ['='] + (w2 + ['"'] + (MatchIndex(s1).value + "\";")))
  {
    var s2 := AfterDigits(s1).value;
    var s3 := AfterSpaces(s2, '=').value;
    var s4 := AfterSpaces(s3, '"').value;
    ds := AfterDigitsShape(s1);
    w1 := AfterSpacesShape(s2, '=');
    w2 := AfterSpacesShape(s3, '"');
    ValueShape(s4);
  }

  /** The pieces of a text that matches. */
  lemma MatchedPieces(name: string, s: string) returns (ds: string, w1: string, w2: string)
    requires MatchText(name, s).Some?
    ensures IsDigits(ds) && w1 != [] && w2 != [] && AllSpace(w1) && AllSpace(w2)
    ensures s == Assignment(name, ds, w1, w2, MatchText(name, s).value)
  {
    var open := name + "[";
    var s1 := s[|open|..];
    assert s == open + s1;
    var g := MatchIndex(s1).value;
    ds, w1, w2 := IndexPieces(s1);
    var s4 := g + "\";";
    var s3 := w2 + ['"'] + s4;
    var s2 := w1 + ['='] + s3;
    AssignmentOf(name, ds, w1, w2, g, s1, s2, s3, s4);
  }

  /** Only assignment lines match (with or without a final newline), and what is
      captured is their value. */
  lemma MatchedAssignment(name: string, line: string)
    requires MatchAssign(name, line).Some?
    ensures exists ds, w1, w2 ::
      && IsDigits(ds) && w1 != [] && w2 != [] && AllSpace(w1) && AllSpace(w2)
      && var a := Assignment(name, ds, w1, w2, MatchAssign(name, line).value);
         line == a || line == a + "\n"
  {
    var s := DropNewline(line);
    var ds, w1, w2 := MatchedPieces(name, s);
    DropNewlineShape(line);
    var a := Assignment(name, ds, w1, w2, MatchAssign(name, line).value);
    assert s == a;
    assert line == a || line == a + "\n";
  }

  /** A `LeftMenuList` line is never a `DefaultFileList` line. */
  lemma MenuListsDisjoint(line: string)
    requires MatchAssign("LeftMenuList", line).Some?
    ensures MatchAssign("DefaultFileList", line).None?
  {
    var s := DropNewline(line);
    var left, default := "LeftMenuList" + "[", "DefaultFileList" + "[";
    assert StartsWith(s, left);
    assert s[0] == left[0] == 'L';
    assert !StartsWith(s, default) by {
      assert default[0] == 'D';
      if |default| <= |s| {
        assert s[..|default|][0] == s[0];
      }
    }
  }

  /** The values assigned to `name` in the script's lines, each line stripped first, in
      the order of the lines. */
  function Captures(name: string, lines: seq<string>): seq<string> {
    if lines == [] then []
    else Captures(name, lines[..|lines| - 1]) + CaptureOf(name, lines[|lines| - 1])
  }

  /** The value one line assigns to `name`, if it does. */
  function CaptureOf(name: string, line: string): seq<string> {
    match MatchAssign(name, Strip(line))
    case Some(g) => [g]
    case None => []
  }

  /** One more line adds its own capture at the end. */
  lemma CapturesStep(name: string, lines: seq<string>, i: nat)
    requires i < |lines|
    ensures Captures(name, lines[..i + 1]) == Captures(name, lines[..i]) + CaptureOf(name, lines[i])
  {
    assert lines[..i + 1][..i] == lines[..i];
  }

  /** Capturing respects the order of the lines: the captures of two runs of lines are
      those of the first run followed by those of the second. */
  lemma {:induction false} CapturesConcat(name: string, a: seq<string>, b: seq<string>)
    ensures Captures(name, a + b) == Captures(name, a) + Captures(name, b)
    decreases |b|
  {
    if b == [] {
      assert a + b == a;
    } else {
      var b' := b[..|b| - 1];
      assert (a + b)[..|a + b| - 1] == a + b';
      assert (a + b)[|a + b| - 1] == b[|b| - 1];
      CapturesConcat(name, a, b');
      Associative(Captures(name, a), Captures(name, b'), CaptureOf(name, b[|b| - 1]));
    }
  }

  /** The `for` loop over the service-menu script: each stripped line that assigns a
      `LeftMenuList` entry adds its value to the first list; otherwise one that assigns a
      `DefaultFileList` entry adds to the second. */
  method ScanMenu(lines: seq<string>) returns (left: seq<string>, defaults: seq<string>)
    ensures left == Captures("LeftMenuList", lines)
    ensures defaults == Captures("DefaultFileList", lines)
  {
    left, defaults := [], [];
    for i := 0 to |lines|
      invariant left == Captures("LeftMenuList", lines[..i])
      invariant defaults == Captures("DefaultFileList", lines[..i])
    {
      CapturesStep("LeftMenuList", lines, i);
      CapturesStep("DefaultFileList", lines, i);
      var line := Strip(lines[i]);
      var m := MatchAssign("LeftMenuList", line);
      if m.Some? {
        MenuListsDisjoint(line);
        left := left + [m.value];
      } else {
        var n := MatchAssign("DefaultFileList", line);
        if n.Some? {
          defaults := defaults + [n.value];
        }
      }
    }
    assert lines[..|lines|] == lines;
  }

  /** The crawl's starting points: each menu title paired with the `LeftMenuList` entry at
      the same position, resolved next to the menu's URL path; `zip` stops at the shorter
      list. */
  function Seeds(titles: seq<string>, left: seq<string>, menuPath: string): (r: seq<(string, seq<string>)>)
    ensures |r| == if |titles| < |left| then |titles| else |left|
    ensures forall i :: 0 <= i < |r| ==> r[i] == (ReplaceLeaf(menuPath, left[i]), [titles[i]])
  {
    if titles == [] || left == [] then []
    else [(ReplaceLeaf(menuPath, left[0]), [titles[0]])] + Seeds(titles[1..], left[1..], menuPath)
  }
}

=== FILE: table.dfy ===
/** The table part of mdconverter.py: `TableConverter` places every `<td>`/`<th>` of a
    table on a grid while the document is walked, and renders the grid as a bordered,
    fixed-width text table when the `<table>` element itself is converted. */
module Tables {
  import opened Wrappers
  import opened Text
  import opened Grids

  // ---------------------------------------------------------------------------
  // Cells from elements

  /** An element's attribute, when present and non-empty (a truthy `el.get(key)`). */
  predicate HasValue(attrs: map<string, string>, key: string) {
    key in attrs && attrs[key] != ""
  }

  /** The `colspan` or `rowspan` of an element: its value when it is all digits, else 1. */
  function SpanOf(attrs: map<string, string>, key: string): nat {
    if key in attrs && IsDigits(attrs[key]) then DecimalValue(attrs[key]) else 1
  }

  /** A span attribute written as a decimal numeral is read back as that number, and a
      missing or non-numeric one counts as 1. */
  lemma SpanOfNumeral(attrs: map<string, string>, key: string, n: nat)
    ensures SpanOf(attrs[key := DecimalString(n)], key) == n
    ensures key !in attrs ==> SpanOf(attrs, key) == 1
    ensures key in attrs && !IsDigits(attrs[key]) ==> SpanOf(attrs, key) == 1
  {
    DecimalRoundTrip(n);
  }

  /** The text a cell shows: its stripped content with line breaks turned into spaces,
      between one leading and one trailing space. */
  function CellText(text: string): (t: string)
    ensures |t| >= 2 && t[0] == ' ' && t[|t| - 1] == ' '
    ensures '\n' !in t
    ensures |t| > 2 ==> !IsSpace(t[1]) && !IsSpace(t[|t| - 2])
    ensures |t| == 2 <==> Strip(text) == []
  {
    var inner := ReplaceChar(Strip(text), '\n', ' ');
    assert forall i :: 0 <= i < |inner| ==> inner[i] != '\n';
    " " + inner + " "
  }

  /** The owning cell `_convert_cell` stores for an element. */
  function Owner(attrs: map<string, string>, text: string): Cell {
    var t := CellText(text);
    Cell(SpanOf(attrs, "colspan"), SpanOf(attrs, "rowspan"), |t|, t, false, false)
  }

  /** Every cell's `size` is the length of its text: true of blanks and of every cell
      `_convert_cell` builds, and kept by the span flags. */
  ghost predicate WellSized(g: Cells) {
    forall i, j :: 0 <= i < |g| && 0 <= j < |g[i]| ==> g[i][j].size == |g[i][j].text|
  }

  // ---------------------------------------------------------------------------
  // Placement

  /** Where the cursor stops: the first column at or after `col` in row `row` that a
      cell above does not reach into. */
  function SkipSpansUp(g: Cells, row: nat, col: nat): (c: nat)
    ensures col <= c
    ensures !At(g, row, c).spansUp
    ensures forall k :: col <= k < c ==> At(g, row, k).spansUp
    decreases (if row < |g| then |g[row]| else 0) - col
  {
    if At(g, row, col).spansUp then SkipSpansUp(g, row, col + 1) else col
  }

  /** One pass of the cursor loop: the probe at the next column finds what the grid held
      there, and the growth of both probes together is the growth to the second. */
  lemma SkipStep(g: Cells, row: nat, col: nat)
    requires WellFormed(g) && At(g, row, col).spansUp
    ensures col < Width(g)
    ensures Grown(Grown(g, row + 1, col + 1), row + 1, col + 2) == Grown(g, row + 1, col + 2)
    ensures At(Grown(g, row + 1, col + 1), row, col + 1) == At(g, row, col + 1)
    ensures SkipSpansUp(g, row, col + 1) == SkipSpansUp(g, row, col)
  {
    GrownTwice(g, row + 1, col + 1, row + 1, col + 2);
    GrownAt(g, row + 1, col + 1);
  }

  /** The cell at (i, j) once `owner` is stored at (r, c) with the flags of its first
      `cs` columns and `rs` rows set. */
  function Mark(g: Cells, r: nat, c: nat, owner: Cell, cs: nat, rs: nat, i: int, j: int): Cell {
    if i == r && j == c then owner
    else if i == r && c < j < c + cs then At(g, i, j).(spansLeft := true)
    else if j == c && r < i < r + rs then At(g, i, j).(spansUp := true)
    else At(g, i, j)
  }

  /** The grid after placing `owner` at (r, c) with `cs` columns and `rs` rows marked. */
  function Placed(g: Cells, r: nat, c: nat, owner: Cell, cs: nat, rs: nat): (h: Cells)
    requires WellFormed(g)
    ensures WellFormed(h)
    ensures |h| == Max(|g|, r + Max(rs, 1)) && Width(h) == Max(Width(g), c + Max(cs, 1))
  {
    var rows := Max(|g|, r + Max(rs, 1));
    var cols := Max(Width(g), c + Max(cs, 1));
    seq(rows, i => seq(cols, j => Mark(g, r, c, owner, cs, rs, i, j)))
  }

  lemma PlacedCells(g: Cells, r: nat, c: nat, owner: Cell, cs: nat, rs: nat)
    requires WellFormed(g)
    ensures var h := Placed(g, r, c, owner, cs, rs);
      forall i, j :: 0 <= i < |h| && 0 <= j < Width(h) ==> h[i][j] == Mark(g, r, c, owner, cs, rs, i, j)
  {
  }

  /** The grid after `_convert_cell` places `owner` at (r, c). */
  function Placement(g: Cells, r: nat, c: nat, owner: Cell): Cells
    requires WellFormed(g)
  {
    Placed(g, r, c, owner, owner.colspan, owner.rowspan)
  }

  /** What placement does, position by position: the owner sits at (r, c); the rest of its
      columns in row r gain `spansLeft`; the rows below it, in column c only, gain
      `spansUp`; every other position keeps its cell, or is a new blank. The grid grows
      just enough to hold the whole span. */
  lemma PlacementFacts(g: Cells, r: nat, c: nat, owner: Cell)
    requires WellFormed(g)
    ensures var h := Placement(g, r, c, owner);
      && |h| == Max(|g|, r + Max(owner.rowspan, 1)) && Width(h) == Max(Width(g), c + Max(owner.colspan, 1))
      && h[r][c] == owner
      && (forall j :: c < j < c + owner.colspan ==> h[r][j] == At(g, r, j).(spansLeft := true))
      && (forall i :: r < i < r + owner.rowspan ==> h[i][c] == At(g, i, c).(spansUp := true))
      && (forall i, j :: 0 <= i < |h| && 0 <= j < Width(h) && i != r && j != c ==> h[i][j] == At(g, i, j))
      && (forall j :: 0 <= j < Width(h) && (j < c || j >= c + Max(owner.colspan, 1)) ==> h[r][j] == At(g, r, j))
      && (forall i :: 0 <= i < |h| && (i < r || i >= r + Max(owner.rowspan, 1)) ==> h[i][c] == At(g, i, c))
  {
    PlacedCells(g, r, c, owner, owner.colspan, owner.rowspan);
  }

  /** Placement keeps every cell's size equal to its text length. */
  lemma PlacementWellSized(g: Cells, r: nat, c: nat, owner: Cell)
    requires WellFormed(g) && WellSized(g) && owner.size == |owner.text|
    ensures WellSized(Placement(g, r, c, owner))
  {
    var h: Cells := Placement(g, r, c, owner);
    PlacedCells(g, r, c, owner, owner.colspan, owner.rowspan);
    forall i: int, j: int | 0 <= i < |h| && 0 <= j < |h[i]| ensures h[i][j].size == |h[i][j].text| {
      assert At(g, i, j).size == |At(g, i, j).text|;
    }
  }

  /** Storing the owner is placing it with nothing marked yet. */
  lemma PlacedStart(g: Cells, r: nat, c: nat, owner: Cell)
    requires WellFormed(g) && r < |g| && c < Width(g)
    ensures Assign(Grown(g, r + 1, c + 1), r, c, owner) == Placed(g, r, c, owner, 1, 1)
  {
    GrownNoop(g, r + 1, c + 1);
    PlacedCells(g, r, c, owner, 1, 1);
    AssignCells(g, r, c, owner);
    SameGrid(Placed(g, r, c, owner, 1, 1), Assign(g, r, c, owner));
  }

  /** One more column of the span marked `spansLeft`, as one pass of the first `for` loop
      does: probe the cell, then store it back with the flag set. */
  lemma PlacedLeftStep(g: Cells, r: nat, c: nat, owner: Cell, k: nat)
    requires WellFormed(g) && r < |g| && c < Width(g) && k >= 1
    ensures var h := Placed(g, r, c, owner, k, 1);
      Assign(Grown(Grown(h, r + 1, c + k + 1), r + 1, c + k + 1), r, c + k, At(h, r, c + k).(spansLeft := true))
        == Placed(g, r, c, owner, k + 1, 1)
  {
    var h := Placed(g, r, c, owner, k, 1);
    GrownTwice(h, r + 1, c + k + 1, r + 1, c + k + 1);
    var a := Assign(Grown(h, r + 1, c + k + 1), r, c + k, At(h, r, c + k).(spansLeft := true));
    var b := Placed(g, r, c, owner, k + 1, 1);
    LeftStepCells(g, r, c, owner, k);
    PlacedCells(g, r, c, owner, k + 1, 1);
    SameGrid(a, b);
  }

  lemma LeftStepCells(g: Cells, r: nat, c: nat, owner: Cell, k: nat)
    requires WellFormed(g) && r < |g| && c < Width(g) && k >= 1
    ensures var h := Placed(g, r, c, owner, k, 1);
      var a := Assign(Grown(h, r + 1, c + k + 1), r, c + k, At(h, r, c + k).(spansLeft := true));
      forall i, j :: 0 <= i < |a| && 0 <= j < Width(a) ==> a[i][j] == Mark(g, r, c, owner, k + 1, 1, i, j)
  {
    var h := Placed(g, r, c, owner, k, 1);
    var h1 := Grown(h, r + 1, c + k + 1);
    var x := At(h, r, c + k).(spansLeft := true);
    var a := Assign(h1, r, c + k, x);
    PlacedCells(g, r, c, owner, k, 1);
    GrownAt(h, r + 1, c + k + 1);
    AssignCells(h1, r, c + k, x);
    forall i, j | 0 <= i < |a| && 0 <= j < Width(a) ensures a[i][j] == Mark(g, r, c, owner, k + 1, 1, i, j) {
      MarkLeftStep(g, r, c, owner, k, i, j);
      if (i, j) != (r, c + k) {
        assert a[i][j] == At(h1, i, j) == At(h, i, j);
      }
    }
  }

  /** Marking one more column changes the cell at (r, c + k) and no other. */
  lemma MarkLeftStep(g: Cells, r: nat, c: nat, owner: Cell, k: nat, i: int, j: int)
    requires k >= 1
    ensures Mark(g, r, c, owner, k + 1, 1, i, j)
      == if (i, j) == (r, c + k) then Mark(g, r, c, owner, k, 1, i, j).(spansLeft := true) else Mark(g, r, c, owner, k, 1, i, j)
  {
  }

  /** One more row of the span marked `spansUp`, as one pass of the second `for` loop does. */
  lemma PlacedUpStep(g: Cells, r: nat, c: nat, owner: Cell, cs: nat, k: nat)
    requires WellFormed(g) && r < |g| && c < Width(g) && k >= 1 && cs >= 1
    ensures var h := Placed(g, r, c, owner, cs, k);
      Assign(Grown(Grown(h, r + k + 1, c + 1), r + k + 1, c + 1), r + k, c, At(h, r + k, c).(spansUp := true))
        == Placed(g, r, c, owner, cs, k + 1)
  {
    var h := Placed(g, r, c, owner, cs, k);
    GrownTwice(h, r + k + 1, c + 1, r + k + 1, c + 1);
    var a := Assign(Grown(h, r + k + 1, c + 1), r + k, c, At(h, r + k, c).(spansUp := true));
    var b := Placed(g, r, c, owner, cs, k + 1);
    UpStepCells(g, r, c, owner, cs, k);
    PlacedCells(g, r, c, owner, cs, k + 1);
    SameGrid(a, b);
  }

  lemma UpStepCells(g: Cells, r: nat, c: nat, owner: Cell, cs: nat, k: nat)
    requires WellFormed(g) && r < |g| && c < Width(g) && k >= 1 && cs >= 1
    ensures var h := Placed(g, r, c, owner, cs, k);
      var a := Assign(Grown(h, r + k + 1, c + 1), r + k, c, At(h, r + k, c).(spansUp := true));
      forall i, j :: 0 <= i < |a| && 0 <= j < Width(a) ==> a[i][j] == Mark(g, r, c, owner, cs, k + 1, i, j)
  {
    var h := Placed(g, r, c, owner, cs, k);
    var h1 := Grown(h, r + k + 1, c + 1);
    var x := At(h, r + k, c).(spansUp := true);
    var a := Assign(h1, r + k, c, x);
    PlacedCells(g, r, c, owner, cs, k);
    GrownAt(h, r + k + 1, c + 1);
    AssignCells(h1, r + k, c, x);
    forall i, j | 0 <= i < |a| && 0 <= j < Width(a) ensures a[i][j] == Mark(g, r, c, owner, cs, k + 1, i, j) {
      if (i, j) != (r + k, c) {
        assert a[i][j] == At(h1, i, j) == At(h, i, j);
      }
    }
  }

  /** The placement does not depend on the growth the cursor's probing caused first, and
      spans of 0 mark as little as spans of 1. */
  lemma PlacedAfterGrowth(g: Cells, r: nat, c: nat, owner: Cell, cs: nat, rs: nat)
    requires WellFormed(g)
    ensures Placed(Grown(g, r + 1, c + 1), r, c, owner, Max(cs, 1), Max(rs, 1)) == Placed(g, r, c, owner, cs, rs)
  {
    var g1 := Grown(g, r + 1, c + 1);
    var a := Placed(g1, r, c, owner, Max(cs, 1), Max(rs, 1));
    var b := Placed(g, r, c, owner, cs, rs);
    PlacedCells(g1, r, c, owner, Max(cs, 1), Max(rs, 1));
    PlacedCells(g, r, c, owner, cs, rs);
    GrownAt(g, r + 1, c + 1);
    forall i, j | 0 <= i < |a| && 0 <= j < Width(a) ensures a[i][j] == b[i][j] {
      assert At(g1, i, j) == At(g, i, j);
    }
    SameGrid(a, b);
  }

  // ---------------------------------------------------------------------------
  // Rendering

  /** The largest `size` among the first `rows` cells of column `col`, or 0. */
  function ColumnMax(g: Cells, col: nat, rows: nat): nat
    requires WellFormed(g) && col < Width(g) && rows <= |g|
  {
    if rows == 0 then 0 else Max(ColumnMax(g, col, rows - 1), g[rows - 1][col].size)
  }

  /** A column's width is the size of its largest cell: no cell is larger, and some cell
      has that size unless the width is 0. */
  lemma {:induction false} ColumnMaxIsMax(g: Cells, col: nat, rows: nat)
    requires WellFormed(g) && col < Width(g) && rows <= |g|
    ensures forall i :: 0 <= i < rows ==> g[i][col].size <= ColumnMax(g, col, rows)
    ensures ColumnMax(g, col, rows) == 0 || exists i :: 0 <= i < rows && g[i][col].size == ColumnMax(g, col, rows)
  {
    if rows > 0 {
      ColumnMaxIsMax(g, col, rows - 1);
    }
  }

  /** `column_sizes`: each column's largest cell size. */
  function Widths(g: Cells): (ws: seq<nat>)
    requires WellFormed(g)
    ensures |ws| == Width(g)
  {
    seq(Width(g), c requires 0 <= c < Width(g) => ColumnMax(g, c, |g|))
  }

  datatype LineKind = DataRow | TopBorder | BottomBorder

  /** What one column contributes to a line of the given kind in row `row`. */
  function Segment(kind: LineKind, g: Cells, ws: seq<nat>, row: nat, col: nat): string
    requires WellFormed(g) && row < |g| && col < Width(g) && |ws| == Width(g)
  {
    var x := g[row][col];
    var w := ws[col];
    match kind
    case DataRow => if !x.spansLeft then "|" + LJust(x.text, w) else Chars(' ', w + 1)
    case TopBorder => if !x.spansLeft then "+" + Chars('-', w) else Chars('-', w + 1)
    case BottomBorder =>
      if !x.spansLeft || (row < |g| - 1 && !g[row + 1][col].spansLeft) then "+" + Chars('-', w) else Chars('-', w + 1)
  }

  /** The first `n` columns' segments of a line. */
  function Line(kind: LineKind, g: Cells, ws: seq<nat>, row: nat, n: nat): string
    requires WellFormed(g) && row < |g| && n <= Width(g) && |ws| == Width(g)
  {
    if n == 0 then [] else Line(kind, g, ws, row, n - 1) + Segment(kind, g, ws, row, n - 1)
  }

  /** The three lines of row `row` as far as column `n`: data line, top and bottom border. */
  ghost predicate Drawn(g: Cells, ws: seq<nat>, row: nat, n: nat, d: string, t: string, b: string)
    requires WellFormed(g) && row < |g| && n <= Width(g) && |ws| == Width(g)
  {
    d == Line(DataRow, g, ws, row, n) && t == Line(TopBorder, g, ws, row, n) && b == Line(BottomBorder, g, ws, row, n)
  }

  /** A whole line: every column's segment, closed by `|` (data) or `+` (borders). */
  function FullLine(kind: LineKind, g: Cells, ws: seq<nat>, row: nat): string
    requires WellFormed(g) && row < |g| && |ws| == Width(g)
  {
    Line(kind, g, ws, row, Width(g)) + (if kind == DataRow then "|" else "+")
  }

  /** The border printed under row `row`: the header separator uses `=` when more rows follow. */
  function Separator(g: Cells, ws: seq<nat>, row: nat): string
    requires WellFormed(g) && row < |g| && |ws| == Width(g)
  {
    var b := FullLine(BottomBorder, g, ws, row);
    if row == 0 && |g| > 1 then ReplaceChar(b, '-', '=') else b
  }

  /** What printing row `row` writes: for row 0 the top border first, then the row's data
      line and the border under it, each followed by a line break. */
  function RowOutput(g: Cells, ws: seq<nat>, row: nat): string
    requires WellFormed(g) && row < |g| && |ws| == Width(g)
  {
    (if row == 0 then FullLine(TopBorder, g, ws, 0) + "\n" else "")
      + (FullLine(DataRow, g, ws, row) + "\n" + (Separator(g, ws, row) + "\n"))
  }

  /** What each row prints, in order. */
  function RowOutputs(g: Cells, ws: seq<nat>): (outs: seq<string>)
    requires WellFormed(g) && |ws| == Width(g)
    ensures |outs| == |g|
  {
    seq(|g|, row requires 0 <= row < |g| => RowOutput(g, ws, row))
  }

  /** The texts one after the other, as the row loop writes them. */
  function Concat(ss: seq<string>): string {
    if ss == [] then [] else Concat(ss[..|ss| - 1]) + ss[|ss| - 1]
  }

  lemma ConcatSnoc(ss: seq<string>, i: nat)
    requires i < |ss|
    ensures Concat(ss[..i + 1]) == Concat(ss[..i]) + ss[i]
  {
    assert ss[..i + 1][..i] == ss[..i];
  }

  /** The text `convert_table` returns for a grid with columns. */
  function Render(g: Cells): string
    requires WellFormed(g)
  {
    "\n\n" + Concat(RowOutputs(g, Widths(g)))
  }

  /** What `convert_table` returns for the grid `g` and the converted text of the table:
      the rendered grid, or, inside another table or with no cell placed, the text
      stripped of white space and outer `|`, refused when a `|` is left inside it. */
  function TableText(g: Cells, nested: bool, text: string): (r: Result<string>)
    requires WellFormed(g)
    ensures r.Err? <==> (nested || Width(g) == 0) && '|' in StripChar(Strip(text), '|')
    ensures r.Err? ==> r.error == NotImplemented(NestedTable)
    ensures !nested && Width(g) > 0 ==> r == Ok(Render(g))
  {
    if nested || Width(g) == 0 then
      var flat := StripChar(Strip(text), '|');
      if '|' in flat then Err(NotImplemented(NestedTable)) else Ok(flat)
    else Ok(Render(g))
  }

  /** Where column `n` starts in every line: the widths before it, each plus its junction. */
  function Offset(ws: seq<nat>, n: nat): nat
    requires n <= |ws|
  {
    if n == 0 then 0 else Offset(ws, n - 1) + ws[n - 1] + 1
  }

  /** Every text of row `row` fits its column. */
  ghost predicate Fits(g: Cells, ws: seq<nat>, row: nat)
    requires WellFormed(g) && row < |g| && |ws| == Width(g)
  {
    forall col :: 0 <= col < Width(g) ==> |g[row][col].text| <= ws[col]
  }

  /** The character a line has where column `col` starts. */
  function Junction(kind: LineKind, g: Cells, row: nat, col: nat): char
    requires WellFormed(g) && row < |g| && col < Width(g)
  {
    var x := g[row][col];
    match kind
    case DataRow => if x.spansLeft then ' ' else '|'
    case TopBorder => if x.spansLeft then '-' else '+'
    case BottomBorder =>
      if !x.spansLeft || (row < |g| - 1 && !g[row + 1][col].spansLeft) then '+' else '-'
  }

  /** A column's segment is its width plus one character long and opens with its junction. */
  lemma SegmentShape(kind: LineKind, g: Cells, ws: seq<nat>, row: nat, col: nat)
    requires WellFormed(g) && row < |g| && col < Width(g) && |ws| == Width(g)
    requires kind == DataRow ==> |g[row][col].text| <= ws[col]
    ensures |Segment(kind, g, ws, row, col)| == ws[col] + 1
    ensures Segment(kind, g, ws, row, col)[0] == Junction(kind, g, row, col)
  {
  }

  /** A line's first `n` columns take exactly `Offset(ws, n)` characters. */
  lemma {:induction false} LineLength(kind: LineKind, g: Cells, ws: seq<nat>, row: nat, n: nat)
    requires WellFormed(g) && row < |g| && n <= Width(g) && |ws| == Width(g)
    requires kind == DataRow ==> Fits(g, ws, row)
    ensures |Line(kind, g, ws, row, n)| == Offset(ws, n)
  {
    if n > 0 {
      LineLength(kind, g, ws, row, n - 1);
      assert kind == DataRow ==> |g[row][n - 1].text| <= ws[n - 1];
      SegmentShape(kind, g, ws, row, n - 1);
    }
  }

  /** Column `col` starts with its junction character at `Offset(ws, col)`, so the seams
      sit at the same positions in every line of the table. */
  lemma {:induction false} LineJunction(kind: LineKind, g: Cells, ws: seq<nat>, row: nat, n: nat, col: nat)
    requires WellFormed(g) && row < |g| && n <= Width(g) && |ws| == Width(g)
    requires kind == DataRow ==> Fits(g, ws, row)
    requires col < n
    ensures Offset(ws, col) < |Line(kind, g, ws, row, n)|
    ensures Line(kind, g, ws, row, n)[Offset(ws, col)] == Junction(kind, g, row, col)
  {
    var prev, seg := Line(kind, g, ws, row, n - 1), Segment(kind, g, ws, row, n - 1);
    if col < n - 1 {
      LineJunction(kind, g, ws, row, n - 1, col);
      assert (prev + seg)[Offset(ws, col)] == prev[Offset(ws, col)];
    } else {
      LineLength(kind, g, ws, row, col);
      assert kind == DataRow ==> |g[row][col].text| <= ws[col];
      SegmentShape(kind, g, ws, row, col);
      assert (prev + seg)[|prev|] == seg[0];
    }
  }

  /** A character a border may hold. */
  predicate IsBorderChar(c: char) {
    c == '+' || c == '-'
  }

  /** A border segment is drawn with `+` and `-` only. */
  lemma BorderSegment(kind: LineKind, g: Cells, ws: seq<nat>, row: nat, col: nat)
    requires WellFormed(g) && row < |g| && col < Width(g) && |ws| == Width(g)
    requires kind != DataRow
    ensures forall i :: 0 <= i < |Segment(kind, g, ws, row, col)| ==> IsBorderChar(Segment(kind, g, ws, row, col)[i])
  {
    CharsAll('-', ws[col]);
    CharsAll('-', ws[col] + 1);
  }

  /** Border lines are drawn with `+` and `-` only. */
  lemma {:induction false} BorderCharacters(kind: LineKind, g: Cells, ws: seq<nat>, row: nat, n: nat)
    requires WellFormed(g) && row < |g| && n <= Width(g) && |ws| == Width(g)
    requires kind != DataRow
    ensures forall i :: 0 <= i < |Line(kind, g, ws, row, n)| ==> IsBorderChar(Line(kind, g, ws, row, n)[i])
  {
    if n > 0 {
      var prev, seg := Line(kind, g, ws, row, n - 1), Segment(kind, g, ws, row, n - 1);
      assert Line(kind, g, ws, row, n) == prev + seg;
      BorderCharacters(kind, g, ws, row, n - 1);
      BorderSegment(kind, g, ws, row, n - 1);
      forall i | 0 <= i < |prev + seg|
        ensures IsBorderChar((prev + seg)[i])
      {
        if i >= |prev| {
          assert (prev + seg)[i] == seg[i - |prev|];
        }
      }
    }
  }

  /** Every line of a rendered table, borders and data alike, has the same length:
      the column widths, each plus one junction, plus the closing character. */
  lemma EqualLineWidths(g: Cells, row: nat)
    requires WellFormed(g) && WellSized(g) && row < |g|
    ensures var ws, w := Widths(g), Width(g);
      && |FullLine(TopBorder, g, ws, row)| == Offset(ws, w) + 1
      && |FullLine(DataRow, g, ws, row)| == Offset(ws, w) + 1
      && |Separator(g, ws, row)| == Offset(ws, w) + 1
  {
    var ws, w := Widths(g), Width(g);
    forall col | 0 <= col < w ensures |g[row][col].text| <= ws[col] {
      ColumnMaxIsMax(g, col, |g|);
    }
    assert Fits(g, ws, row);
    LineLength(TopBorder, g, ws, row, w);
    LineLength(DataRow, g, ws, row, w);
    LineLength(BottomBorder, g, ws, row, w);
  }

  /** The header separator: the border under row 0 has every `-` turned into `=` when the
      table has more than one row, and none otherwise. */
  lemma HeaderSeparator(g: Cells, ws: seq<nat>)
    requires WellFormed(g) && |ws| == Width(g)
    ensures |g| > 1 ==> '-' !in Separator(g, ws, 0)
    ensures |g| == 1 ==> '=' !in Separator(g, ws, 0)
  {
    BorderCharacters(BottomBorder, g, ws, 0, Width(g));
    var b := FullLine(BottomBorder, g, ws, 0);
    assert forall i :: 0 <= i < |b| ==> IsBorderChar(b[i]);
  }

  // ---------------------------------------------------------------------------
  // Named anchors

  /** A following sibling of an anchor: a bare string, or an element with its text and
      whether an `<img>` lies inside it. */
  datatype Sibling = Text(s: string) | Element(text: string, hasImage: bool)

  /** Whether `el.next_sibling` is truthy: elements always are, strings when non-empty. */
  predicate Truthy(s: Sibling) {
    s.Element? || s.s != []
  }

  /** An element with visible text or an image. */
  predicate Visible(s: Sibling) {
    s.Element? && (Strip(s.text) != [] || s.hasImage)
  }

  /** Where the walk along `next_sibling` from index `i` on stops with `break`: the first
      visible element, reached only through truthy siblings. */
  function AnchorHost(sibs: seq<Sibling>, i: nat): (k: Option<nat>)
    ensures k.Some? ==> i <= k.value < |sibs| && Visible(sibs[k.value])
    ensures k.Some? ==> forall j :: i <= j < k.value ==> Truthy(sibs[j]) && !Visible(sibs[j])
    decreases |sibs| - i
  {
    if i >= |sibs| || !Truthy(sibs[i]) then None
    else if Visible(sibs[i]) then Some(i)
    else AnchorHost(sibs, i + 1)
  }

  /** When the walk finds no host, every visible sibling from `i` on lies behind a falsy one. */
  lemma {:induction false} AnchorHostNone(sibs: seq<Sibling>, i: nat)
    requires AnchorHost(sibs, i).None?
    ensures forall j :: i <= j < |sibs| && Visible(sibs[j]) ==> exists m :: i <= m < j && !Truthy(sibs[m])
    decreases |sibs| - i
  {
    if i < |sibs| && Truthy(sibs[i]) {
      AnchorHostNone(sibs, i + 1);
      forall j | i <= j < |sibs| && Visible(sibs[j])
        ensures exists m :: i <= m < j && !Truthy(sibs[m])
      {
        assert j != i;
        var m :| i + 1 <= m < j && !Truthy(sibs[m]);
      }
    }
  }

  /** What `convert_a` hands on: text for the base converter to render the link with,
      markup to emit as it is, or the instruction to insert `<a name=…>` as child 1 of
      sibling `host` and emit nothing. */
  datatype AnchorOutput = Delegate(text: string) | Emit(markup: string) | MoveInto(host: nat, name: string)

  /** `TableConverter.convert_a`. */
  function TableAnchor(attrs: map<string, string>, text: string, sibs: seq<Sibling>): Result<AnchorOutput> {
    if HasValue(attrs, "href") then Ok(Delegate(text))
    else if HasValue(attrs, "name") then
      var name := attrs["name"];
      if sibs == [] || !Truthy(sibs[0]) then Ok(Delegate("{: #" + name + "}"))
      else match AnchorHost(sibs, 0)
        case Some(k) => Ok(MoveInto(k, name))
        case None => Ok(Emit("[](){: id=\"" + name + "\"}"))
    else Err(NotImplemented(BareAnchor))
  }

  /** A name anchor's own text never reaches the output: whatever text it is given, the
      result is the same, and its name is what the result carries. */
  lemma NameAnchorIgnoresText(attrs: map<string, string>, t1: string, t2: string, sibs: seq<Sibling>)
    requires !HasValue(attrs, "href") && HasValue(attrs, "name")
    ensures TableAnchor(attrs, t1, sibs) == TableAnchor(attrs, t2, sibs)
    ensures TableAnchor(attrs, t1, sibs).Ok?
    ensures var out := TableAnchor(attrs, t1, sibs).value;
      match out
      case Delegate(t) => t == "{: #" + attrs["name"] + "}" && (sibs == [] || !Truthy(sibs[0]))
      case MoveInto(k, n) => n == attrs["name"] && k < |sibs| && Visible(sibs[k])
      case Emit(m) => m == "[](){: id=\"" + attrs["name"] + "\"}" && forall j :: 0 <= j < |sibs| ==> !(Visible(sibs[j]) && forall m :: 0 <= m < j ==> Truthy(sibs[m]))
  {
    if AnchorHost(sibs, 0).None? {
      AnchorHostNone(sibs, 0);
    }
  }

  // ---------------------------------------------------------------------------
  // The converter

  /** The `TableConverter` state: the cursor and the grid of the table being converted. */
  class TableConverter {
    var currentRow: nat
    var currentCol: nat
    var table: Grid

    ghost predicate Valid()
      reads this, table
    {
      table.Valid() && WellSized(table.cells)
    }

    constructor ()
      ensures Valid() && currentRow == 0 && currentCol == 0 && fresh(table) && table.cells == [[]]
    {
      currentRow, currentCol := 0, 0;
      table := new Grid();
    }

    /** `_reset_table`: the cursor back at (0, 0) and a new, empty grid. */
    method ResetTable()
      modifies this
      ensures Valid() && currentRow == 0 && currentCol == 0 && fresh(table) && table.cells == [[]]
    {
      currentRow, currentCol := 0, 0;
      table := new Grid();
    }

    /** `_convert_cell` (for `<td>` and `<th>` alike): places the cell at the first
        position of the current row not reached by a span from above, marks its span,
        moves the cursor past its columns and returns its padded text. */
    method ConvertCell(attrs: map<string, string>, text: string) returns (t: string)
      requires Valid()
      modifies this, table
      ensures Valid() && table == old(table) && currentRow == old(currentRow)
      ensures t == CellText(text)
      ensures var c := SkipSpansUp(old(table.cells), old(currentRow), old(currentCol));
        && currentCol == c + SpanOf(attrs, "colspan")
        && table.cells == Placement(old(table.cells), old(currentRow), c, Owner(attrs, text))
    {
      var colspan, rowspan := SpanOf(attrs, "colspan"), SpanOf(attrs, "rowspan");
      t := CellText(text);
      ghost var g0, col0 := table.cells, currentCol;
      SkipCoveredColumns();
      var owner := Cell(colspan, rowspan, |t|, t, false, false);
      assert owner == Owner(attrs, text);
      var c := currentCol;
      assert c == SkipSpansUp(g0, currentRow, col0);
      PlaceSpan(currentRow, c, owner);
      assert table.cells == Placement(g0, currentRow, c, owner) by {
        PlacedAfterGrowth(g0, currentRow, c, owner, owner.colspan, owner.rowspan);
      }
      PlacementWellSized(g0, currentRow, c, owner);
      currentCol := currentCol + colspan;
    }

    /** The `while` loop of `_convert_cell`: the cursor moves right past every position a
        span from above reaches into, the grid growing as the probes go. */
    method SkipCoveredColumns()
      requires table.Valid()
      modifies this, table
      ensures table == old(table) && table.Valid() && currentRow == old(currentRow)
      ensures currentCol == SkipSpansUp(old(table.cells), currentRow, old(currentCol))
      ensures table.cells == Grown(old(table.cells), currentRow + 1, currentCol + 1)
    {
      ghost var g0 := table.cells;
      var x := table.CellAt(currentRow, currentCol);
      while x.spansUp
        invariant table == old(table) && currentRow == old(currentRow)
        invariant table.cells == Grown(g0, currentRow + 1, currentCol + 1)
        invariant x == At(g0, currentRow, currentCol)
        invariant SkipSpansUp(g0, currentRow, currentCol) == SkipSpansUp(g0, currentRow, old(currentCol))
        decreases Width(g0) - currentCol
      {
        SkipStep(g0, currentRow, currentCol);
        currentCol := currentCol + 1;
        x := table.CellAt(currentRow, currentCol);
      }
    }

    /** The `set` call and the two `for` loops of `_convert_cell`: the owner goes to
        (row, c), the rest of its columns get `spans_left`, the rows below it in column c
        get `spans_up`. */
    method PlaceSpan(row: nat, c: nat, owner: Cell)
      requires table.Valid() && row < |table.cells| && c < Width(table.cells)
      modifies table
      ensures table.Valid()
      ensures table.cells == Placed(old(table.cells), row, c, owner, Max(owner.colspan, 1), Max(owner.rowspan, 1))
    {
      ghost var g := table.cells;
      PlacedStart(g, row, c, owner);
      table.Set(row, c, owner);
      MarkColumns(g, row, c, owner);
      MarkRows(g, row, c, owner);
    }

    /** The first `for` loop of `_convert_cell`: the other columns of the span get `spans_left`. */
    method MarkColumns(ghost g: Cells, row: nat, c: nat, owner: Cell)
      requires WellFormed(g) && row < |g| && c < Width(g)
      requires table.cells == Placed(g, row, c, owner, 1, 1)
      modifies table
      ensures table.cells == Placed(g, row, c, owner, Max(owner.colspan, 1), 1)
    {
      var i := 1;
      while i < owner.colspan
        invariant 1 <= i <= Max(owner.colspan, 1)
        invariant table.cells == Placed(g, row, c, owner, i, 1)
      {
        PlacedLeftStep(g, row, c, owner, i);
        var x := table.CellAt(row, c + i);
        table.Set(row, c + i, x.(spansLeft := true));
        i := i + 1;
      }
    }

    /** The second `for` loop of `_convert_cell`: the rows below, in the owner's column
        only, get `spans_up`. */
    method MarkRows(ghost g: Cells, row: nat, c: nat, owner: Cell)
      requires WellFormed(g) && row < |g| && c < Width(g)
      requires table.cells == Placed(g, row, c, owner, Max(owner.colspan, 1), 1)
      modifies table
      ensures table.cells == Placed(g, row, c, owner, Max(owner.colspan, 1), Max(owner.rowspan, 1))
    {
      var i := 1;
      while i < owner.rowspan
        invariant 1 <= i <= Max(owner.rowspan, 1)
        invariant table.cells == Placed(g, row, c, owner, Max(owner.colspan, 1), i)
      {
        PlacedUpStep(g, row, c, owner, Max(owner.colspan, 1), i);
        var x := table.CellAt(row + i, c);
        table.Set(row + i, c, x.(spansUp := true));
        i := i + 1;
      }
    }

    /** `convert_tr`: the next row starts at column 0. */
    method ConvertTr(text: string) returns (r: string)
      requires Valid()
      modifies this
      ensures Valid() && table == old(table)
      ensures currentRow == old(currentRow) + 1 && currentCol == 0
      ensures r == "|" + text + "\n"
    {
      currentRow := currentRow + 1;
      currentCol := 0;
      r := "|" + text + "\n";
    }

    /** `convert_table`. Inside another table, or with no cell placed, the text is
        returned stripped of white space and outer `|` (a nested table must have been
        flattened to one cell, else it is refused); otherwise the grid is rendered.
        Either way the converter is reset, except when the error is raised. */
    method ConvertTable(parentTags: set<string>, text: string) returns (r: Result<string>)
      requires Valid()
      modifies this, table
      ensures Valid()
      ensures r == TableText(old(table.cells), "table" in parentTags, text)
      ensures r.Err? ==>
        && currentRow == old(currentRow) && currentCol == old(currentCol)
        && table == old(table) && table.cells == old(table.cells)
      ensures r.Ok? ==> currentRow == 0 && currentCol == 0 && fresh(table) && table.cells == [[]]
    {
      if "table" in parentTags || table.ColCount() == 0 {
        var flat := StripChar(Strip(text), '|');
        if '|' !in flat {
          ResetTable();
          return Ok(flat);
        }
        return Err(NotImplemented(NestedTable));
      }

      var sizes := ColumnSizes();
      var result := RenderRows(sizes);
      ResetTable();
      r := Ok("\n\n" + result);
    }

    /** The first loop of `convert_table`: every column's largest cell size. */
    method ColumnSizes() returns (sizes: seq<nat>)
      requires table.Valid()
      modifies table
      ensures table.Valid() && table.cells == old(table.cells)
      ensures sizes == Widths(table.cells)
    {
      var cols := table.ColCount();
      ghost var g := table.cells;
      sizes := [];
      for col := 0 to cols
        invariant table.cells == g
        invariant sizes == Widths(g)[..col]
      {
        var maxSize := ColumnSize(col);
        sizes := sizes + [maxSize];
      }
    }

    /** The inner loop of the first loop of `convert_table`: one column's largest size. */
    method ColumnSize(col: nat) returns (maxSize: nat)
      requires table.Valid() && col < Width(table.cells)
      modifies table
      ensures table.cells == old(table.cells)
      ensures maxSize == ColumnMax(table.cells, col, |table.cells|)
    {
      var rows := table.RowCount();
      ghost var g := table.cells;
      maxSize := 0;
      for row := 0 to rows
        invariant table.cells == g
        invariant maxSize == ColumnMax(g, col, row)
      {
        var x := table.CellAt(row, col);
        if x.size > maxSize {
          maxSize := x.size;
        }
      }
    }

    /** The second loop of `convert_table`: every row's lines, as printed. */
    method RenderRows(sizes: seq<nat>) returns (result: string)
      requires table.Valid() && |sizes| == Width(table.cells)
      modifies table
      ensures table.Valid() && table.cells == old(table.cells)
      ensures result == Concat(RowOutputs(table.cells, sizes))
    {
      var rows := table.RowCount();
      ghost var g := table.cells;
      ghost var outs := RowOutputs(g, sizes);
      result := "";
      for row := 0 to rows
        invariant table.cells == g
        invariant result == Concat(outs[..row])
      {
        result := AppendRow(row, sizes, outs, result);
      }
      assert outs[..rows] == outs;
    }

    /** One pass of the row loop of `convert_table`: the printed text grows by one row. */
    method AppendRow(row: nat, sizes: seq<nat>, ghost outs: seq<string>, done: string) returns (result: string)
      requires table.Valid() && row < |table.cells| && |sizes| == Width(table.cells)
      requires outs == RowOutputs(table.cells, sizes) && done == Concat(outs[..row])
      modifies table
      ensures table.cells == old(table.cells)
      ensures result == Concat(outs[..row + 1])
    {
      var printed := PrintRow(row, sizes);
      ConcatSnoc(outs, row);
      result := done + printed;
    }

    /** The body of the row loop of `convert_table`: the lines row `row` prints. */
    method PrintRow(row: nat, sizes: seq<nat>) returns (printed: string)
      requires table.Valid() && row < |table.cells| && |sizes| == Width(table.cells)
      modifies table
      ensures table.Valid() && table.cells == old(table.cells)
      ensures printed == RowOutput(table.cells, sizes, row)
    {
      var rows := table.RowCount();
      var dataLine, topBorder, bottomBorder := RowText(row, sizes);
      printed := "";
      if row == 0 {
        printed := topBorder + "\n";
        if rows > 1 {
          bottomBorder := ReplaceChar(bottomBorder, '-', '=');
        }
      }
      printed := printed + (dataLine + "\n" + (bottomBorder + "\n"));
    }

    /** The inner loop of `convert_table` and the closing characters after it: the data
        line and the two borders of one row. */
    method RowText(row: nat, sizes: seq<nat>) returns (dataLine: string, topBorder: string, bottomBorder: string)
      requires table.Valid() && row < |table.cells| && |sizes| == Width(table.cells)
      modifies table
      ensures table.Valid() && table.cells == old(table.cells)
      ensures dataLine == FullLine(DataRow, table.cells, sizes, row)
      ensures topBorder == FullLine(TopBorder, table.cells, sizes, row)
      ensures bottomBorder == FullLine(BottomBorder, table.cells, sizes, row)
    {
      var d, t, b := DrawColumns(row, sizes);
      dataLine, topBorder, bottomBorder := d + "|", t + "+", b + "+";
    }

    /** The inner loop of `convert_table`: the three lines of one row, column by column. */
    method DrawColumns(row: nat, sizes: seq<nat>) returns (d: string, t: string, b: string)
      requires table.Valid() && row < |table.cells| && |sizes| == Width(table.cells)
      modifies table
      ensures table.Valid() && table.cells == old(table.cells)
      ensures Drawn(table.cells, sizes, row, Width(table.cells), d, t, b)
    {
      var cols := table.ColCount();
      ghost var g := table.cells;
      d, t, b := "", "", "";
      for col := 0 to cols
        invariant table.Valid() && table.cells == g
        invariant Drawn(g, sizes, row, col, d, t, b)
      {
        d, t, b := AppendColumn(row, col, sizes, d, t, b);
      }
    }

    /** One pass of the inner loop of `convert_table`: the three lines grow by column `col`. */
    method AppendColumn(row: nat, col: nat, sizes: seq<nat>, d: string, t: string, b: string)
      returns (d': string, t': string, b': string)
      requires table.Valid() && row < |table.cells| && col < Width(table.cells) && |sizes| == Width(table.cells)
      requires Drawn(table.cells, sizes, row, col, d, t, b)
      modifies table
      ensures table.Valid() && table.cells == old(table.cells)
      ensures Drawn(table.cells, sizes, row, col + 1, d', t', b')
    {
      var data, top, bottom := ColumnText(row, col, sizes);
      d', t', b' := d + data, t + top, b + bottom;
    }

    /** The body of the inner loop of `convert_table`: what column `col` adds to the data
        line and the two borders of row `row`. */
    method ColumnText(row: nat, col: nat, sizes: seq<nat>) returns (data: string, top: string, bottom: string)
      requires table.Valid() && row < |table.cells| && col < Width(table.cells) && |sizes| == Width(table.cells)
      modifies table
      ensures table.Valid() && table.cells == old(table.cells)
      ensures data == Segment(DataRow, table.cells, sizes, row, col)
      ensures top == Segment(TopBorder, table.cells, sizes, row, col)
      ensures bottom == Segment(BottomBorder, table.cells, sizes, row, col)
    {
      var rows := table.RowCount();
      var x := table.CellAt(row, col);
      if !x.spansLeft {
        data := "|" + LJust(x.text, sizes[col]);
        top := "+" + Chars('-', sizes[col]);
        bottom := "+" + Chars('-', sizes[col]);
      } else {
        data := Chars(' ', sizes[col] + 1);
        top := Chars('-', sizes[col] + 1);
        var junction := false;
        if row < rows - 1 {
          var below := table.CellAt(row + 1, col);
          junction := !below.spansLeft;
        }
        if junction {
          bottom := "+" + Chars('-', sizes[col]);
        } else {
          bottom := Chars('-', sizes[col] + 1);
        }
      }
    }

    /** `convert_a`: a link is left to the base converter; a named anchor is moved
        into the first following element that shows something, or kept in place when
        nothing follows; an anchor with neither is refused. */
    method ConvertAnchor(attrs: map<string, string>, text: string, sibs: seq<Sibling>) returns (r: Result<AnchorOutput>)
      ensures r == TableAnchor(attrs, text, sibs)
    {
      if HasValue(attrs, "href") {
        return Ok(Delegate(text));
      } else if HasValue(attrs, "name") {
        var name := attrs["name"];
        if sibs == [] || !Truthy(sibs[0]) {
          return Ok(Delegate("{: #" + name + "}"));
        }
        var host := FindHost(sibs);
        if host.Some? {
          return Ok(MoveInto(host.value, name));
        }
        return Ok(Emit("[](){: id=\"" + name + "\"}"));
      } else {
        return Err(NotImplemented(BareAnchor));
      }
    }

    /** The `while el.next_sibling` walk of `convert_a`: the sibling it stops at with
        `break`, or none when it runs out of truthy siblings. */
    method FindHost(sibs: seq<Sibling>) returns (host: Option<nat>)
      ensures host == AnchorHost(sibs, 0)
    {
      var i := 0;
      while i < |sibs| && Truthy(sibs[i])
        invariant 0 <= i <= |sibs|
        invariant AnchorHost(sibs, i) == AnchorHost(sibs, 0)
      {
        var el := sibs[i];
        if el.Text? {
          i := i + 1;
          continue;
        }
        if Strip(el.text) != [] {
          break;
        }
        if el.hasImage {
          break;
        }
        i := i + 1;
      }
      if i < |sibs| && Truthy(sibs[i]) {
        return Some(i);
      }
      return None;
    }
  }
}

=== FILE: text.dfy ===
/** The few Python `str` operations the converter and the scraper rely on,
    written out with Python's semantics (strings are sequences of code points). */
module Text {

  /** Characters for which Python's `str.isspace()` holds. */
  predicate IsSpace(c: char) {
    c == ' ' || ('\t' <= c <= '\r') || ('\U{1c}' <= c <= '\U{1f}') || c == '\U{85}' || c == '\U{a0}'
    || c == '\U{1680}' || ('\U{2000}' <= c <= '\U{200a}') || c == '\U{2028}' || c == '\U{2029}'
    || c == '\U{202f}' || c == '\U{205f}' || c == '\U{3000}'
  }

  predicate IsAsciiDigit(c: char) { '0' as int <= c as int <= '9' as int }

  /** How many copies of `c` open `s`. */
  function LeadingCount(s: string, c: char): (n: nat)
    ensures n <= |s|
    ensures forall i :: 0 <= i < n ==> s[i] == c
    ensures n == |s| || s[n] != c
  {
    if s != [] && s[0] == c then 1 + LeadingCount(s[1..], c) else 0
  }

  /** `s.lstrip(c)` for a one-character argument. */
  function LStripChar(s: string, c: char): (r: string)
    ensures |r| <= |s| && r == s[|s| - |r|..]
    ensures forall i :: 0 <= i < |s| - |r| ==> s[i] == c
    ensures r == [] || r[0] != c
  {
    s[LeadingCount(s, c)..]
  }

  /** How many copies of `c` close `s`. */
  function TrailingCount(s: string, c: char): (n: nat)
    ensures n <= |s|
    ensures forall i :: |s| - n <= i < |s| ==> s[i] == c
    ensures n == |s| || s[|s| - n - 1] != c
  {
    if s != [] && s[|s| - 1] == c then 1 + TrailingCount(s[..|s| - 1], c) else 0
  }

  /** `s.rstrip(c)` for a one-character argument. */
  function RStripChar(s: string, c: char): (r: string)
    ensures |r| <= |s| && r == s[..|r|]
    ensures forall i :: |r| <= i < |s| ==> s[i] == c
    ensures r == [] || r[|r| - 1] != c
  {
    s[..|s| - TrailingCount(s, c)]
  }

  /** `s.strip(c)` for a one-character argument. */
  function StripChar(s: string, c: char): string {
    RStripChar(LStripChar(s, c), c)
  }

  /** How many white-space characters open `s`. */
  function LeadingSpaces(s: string): (n: nat)
    ensures n <= |s|
    ensures forall i :: 0 <= i < n ==> IsSpace(s[i])
    ensures n == |s| || !IsSpace(s[n])
  {
    if s != [] && IsSpace(s[0]) then 1 + LeadingSpaces(s[1..]) else 0
  }

  /** How many white-space characters close `s`. */
  function TrailingSpaces(s: string): (n: nat)
    ensures n <= |s|
    ensures forall i :: |s| - n <= i < |s| ==> IsSpace(s[i])
    ensures n == |s| || !IsSpace(s[|s| - n - 1])
  {
    if s != [] && IsSpace(s[|s| - 1]) then 1 + TrailingSpaces(s[..|s| - 1]) else 0
  }

  /** `s.lstrip()`. */
  function LStripSpace(s: string): (r: string)
    ensures |r| <= |s| && r == s[|s| - |r|..]
    ensures forall i :: 0 <= i < |s| - |r| ==> IsSpace(s[i])
    ensures r == [] || !IsSpace(r[0])
  {
    s[LeadingSpaces(s)..]
  }

  /** `s.rstrip()`. */
  function RStripSpace(s: string): (r: string)
    ensures |r| <= |s| && r == s[..|r|]
    ensures forall i :: |r| <= i < |s| ==> IsSpace(s[i])
    ensures r == [] || !IsSpace(r[|r| - 1])
  {
    s[..|s| - TrailingSpaces(s)]
  }

  /** `s.strip()`: white space removed from both ends. */
  function Strip(s: string): (r: string)
    ensures |r| <= |s|
    ensures r == [] || (!IsSpace(r[0]) && !IsSpace(r[|r| - 1]))
  {
    RStripSpace(LStripSpace(s))
  }

  /** A string that is all white space strips to nothing, and only such a string does. */
  lemma {:induction false} StripEmpty(s: string)
    ensures Strip(s) == [] <==> forall i :: 0 <= i < |s| ==> IsSpace(s[i])
  {
    var l := LStripSpace(s);
    if l != [] {
      assert l[0] == s[|s| - |l|];
    }
  }

  /** `s.replace(a, b)` for one-character `a` and `b`. */
  function ReplaceChar(s: string, a: char, b: char): (r: string)
    ensures |r| == |s|
    ensures forall i :: 0 <= i < |s| ==> r[i] == if s[i] == a then b else s[i]
  {
    if s == [] then [] else [if s[0] == a then b else s[0]] + ReplaceChar(s[1..], a, b)
  }

  predicate StartsWith(s: string, prefix: string) {
    |prefix| <= |s| && s[..|prefix|] == prefix
  }

  /** `sub in s`. */
  predicate Contains(s: string, sub: string)
    decreases |s|
  {
    StartsWith(s, sub) || (s != [] && Contains(s[1..], sub))
  }

  /** `s.replace(pat, rep)`: every non-overlapping occurrence, scanned left to right. */
  function ReplaceAll(s: string, pat: string, rep: string): (r: string)
    requires pat != []
    decreases |s|
  {
    if s == [] then []
    else if StartsWith(s, pat) then rep + ReplaceAll(s[|pat|..], pat, rep)
    else [s[0]] + ReplaceAll(s[1..], pat, rep)
  }

  /** A string without the pattern is left as it is. */
  lemma {:induction false} ReplaceAllAbsent(s: string, pat: string, rep: string)
    requires pat != []
    requires !Contains(s, pat)
    ensures ReplaceAll(s, pat, rep) == s
    decreases |s|
  {
    if s != [] {
      ReplaceAllAbsent(s[1..], pat, rep);
    }
  }

  /** `s * n`. */
  function Repeat(s: string, n: nat): (r: string)
    ensures |r| == n * |s|
  {
    if n == 0 then [] else s + Repeat(s, n - 1)
  }

  /** `c * n` for a one-character string `c`. */
  function Chars(c: char, n: nat): (r: string)
    ensures |r| == n
  {
    if n == 0 then [] else [c] + Chars(c, n - 1)
  }

  /** Every character of `c * n` is `c`. */
  lemma {:induction false} CharsAll(c: char, n: nat)
    ensures forall i :: 0 <= i < n ==> Chars(c, n)[i] == c
  {
    if n > 0 {
      CharsAll(c, n - 1);
    }
  }

  /** `s.ljust(width)`: padded on the right with spaces, never cut. */
  function LJust(s: string, width: nat): (r: string)
    ensures |r| == if |s| < width then width else |s|
  {
    if |s| < width then s + Chars(' ', width - |s|) else s
  }

  /** `ljust` keeps the string as the prefix and pads only with spaces. */
  lemma LJustPads(s: string, width: nat)
    ensures LJust(s, width)[..|s|] == s
    ensures forall i :: |s| <= i < |LJust(s, width)| ==> LJust(s, width)[i] == ' '
  {
    if |s| < width {
      CharsAll(' ', width - |s|);
    }
  }

  /** `s.split(sep)` for a one-character separator: never empty; the pieces hold no separator. */
  function Split(s: string, sep: char): (r: seq<string>)
    ensures |r| >= 1
    ensures forall i :: 0 <= i < |r| ==> sep !in r[i]
    ensures |r| == 1 <==> sep !in s
  {
    if s == [] then [[]]
    else
      var rest := Split(s[1..], sep);
      if s[0] == sep then [[]] + rest else [[s[0]] + rest[0]] + rest[1..]
  }

  /** `sep.join(parts)`. */
  function Join(parts: seq<string>, sep: char): string {
    if |parts| == 0 then []
    else if |parts| == 1 then parts[0]
    else parts[0] + [sep] + Join(parts[1..], sep)
  }

  /** Splitting after a separator-free head. */
  lemma {:induction false} SplitHead(x: string, sep: char, s: string)
    requires sep !in x
    ensures Split(x + [sep] + s, sep) == [x] + Split(s, sep)
  {
    if x == [] {
      assert (x + [sep] + s)[1..] == s;
    } else {
      assert (x + [sep] + s)[1..] == x[1..] + [sep] + s;
      SplitHead(x[1..], sep, s);
      assert [x[0]] + x[1..] == x;
    }
  }

  /** Splitting a separator-free string gives it back whole. */
  lemma {:induction false} SplitNoSep(x: string, sep: char)
    requires sep !in x
    ensures Split(x, sep) == [x]
  {
    if x != [] {
      SplitNoSep(x[1..], sep);
      assert [x[0]] + x[1..] == x;
    }
  }

  /** Joining and splitting are inverse: split(join(p)) == p when no piece holds the separator. */
  lemma {:induction false} SplitJoin(parts: seq<string>, sep: char)
    requires |parts| >= 1
    requires forall i :: 0 <= i < |parts| ==> sep !in parts[i]
    ensures Split(Join(parts, sep), sep) == parts
  {
    if |parts| == 1 {
      SplitNoSep(parts[0], sep);
    } else {
      SplitJoin(parts[1..], sep);
      SplitHead(parts[0], sep, Join(parts[1..], sep));
      assert [parts[0]] + parts[1..] == parts;
    }
  }

  /** ... and join(split(s)) == s for every string. */
  lemma {:induction false} JoinSplit(s: string, sep: char)
    ensures Join(Split(s, sep), sep) == s
  {
    if s != [] {
      JoinSplit(s[1..], sep);
      var rest := Split(s[1..], sep);
      if s[0] == sep {
        assert Split(s, sep) == [[]] + rest;
        assert ([[]] + rest)[1..] == rest;
      } else {
        var r := Split(s, sep);
        assert r == [[s[0]] + rest[0]] + rest[1..];
        if |rest| == 1 {
          assert Join(r, sep) == [s[0]] + rest[0];
        } else {
          assert r[1..] == rest[1..];
          assert Join(rest, sep) == rest[0] + [sep] + Join(rest[1..], sep);
        }
      }
    }
  }

  /** `s.isdigit()` for ASCII input: non-empty and every character a digit. */
  predicate IsDigits(s: string) {
    s != [] && forall i :: 0 <= i < |s| ==> IsAsciiDigit(s[i])
  }

  /** `int(s)` for a string of decimal digits. */
  function DecimalValue(s: string): nat
    requires forall i :: 0 <= i < |s| ==> IsAsciiDigit(s[i])
  {
    if s == [] then 0
    else
      assert IsAsciiDigit(s[|s| - 1]);
      10 * DecimalValue(s[..|s| - 1]) + (s[|s| - 1] as int - '0' as int)
  }

  /** The decimal numeral of `n`, as `str(n)` writes it. */
  function DecimalString(n: nat): (r: string)
    ensures IsDigits(r)
  {
    if n < 10 then [('0' as int + n) as char] else DecimalString(n / 10) + [('0' as int + n % 10) as char]
  }

  /** `int(str(n)) == n`. */
  lemma {:induction false} DecimalRoundTrip(n: nat)
    ensures DecimalValue(DecimalString(n)) == n
  {
    var s := DecimalString(n);
    if n >= 10 {
      DecimalRoundTrip(n / 10);
      assert s[..|s| - 1] == DecimalString(n / 10);
    }
  }
}

=== FILE: wrappers.dfy ===
/** Option and Result types shared by the modules, and the exceptions of the source
    as the error values a Result can carry. */
module Wrappers {

  datatype Option<+T> = None | Some(value: T)

  /** What a `NotImplementedError` is raised for. */
  datatype Unsupported =
    | NestedTable        // a table inside a table cell
    | BareAnchor         // an `<a>` with neither `href` nor `name`
    | FileType(name: string)  // a file whose suffix markdownify has no case for

  /** The exceptions the modelled code raises. `UnseenLink` is main.py's `UnseenLinkError`
      (carrying the article-map key when the code passes one); the rest are the Python
      built-in exceptions of the same names. */
  datatype Error =
    | UnseenLink(key: Option<string>)
    | NotImplemented(what: Unsupported)
    | TypeError
    | KeyError(missing: string)
    | PermissionError

  datatype Result<+T> = Ok(value: T) | Err(error: Error) {
    predicate IsFailure() {
      Err?
    }

    function PropagateFailure<U>(): Result<U>
      requires Err?
    {
      Err(error)
    }

    function Extract(): T
      requires Ok?
    {
      value
    }
  }
}
